=== FILE: README.md ===
# story-sprout core, modelled in Dafny

This project models the rule-bearing core of story-sprout, a Django application for
writing illustrated stories with an AI assistant, and proves what those rules promise.

- **The binary content stash** (`pydantic-ai-stash`). It turns every inline binary payload of a
  pydantic-ai conversation into a typed `media://<key>` reference once the bytes are in a
  keyed byte store. Loading turns such references back into payloads and remembers the key in
  `vendor_metadata["_stash_uuid"]`.
  - The store is a class over a `map<string, seq<bv8>>`. Operating-system failures are keys the
    store refuses.
  - New keys come from a key policy: a content digest (`key_for`), or a key not yet stored.
  - The tree walk over messages, parts and content lists is specified by a store-threading fold
    that stops at the first failure. The imperative walk is proved equal to it.
  - The fold's properties are proved once and reused: one output per input, in order; stashing
    only adds to the store and loading never writes; the error split; no inline payload left
    after stashing; and the stash/load round trip. Under unique keys, loading what a stash
    produced gives back every message, each payload with its own bytes, media type and
    identifier.
- **History trimming** for the model: the last 15 messages, unless the cut would fall on a
  tool return.
- **The duplicate tool-call guard**: a wrapper that refuses a call equal to the one just made.
- **Conversation messages**: per-conversation positions assigned by `save` and `bulk_create`,
  the latest response, and the chat panel's display with its fixed default.
- **Event-channel authorisation**: who may read `user-…` and `story-…` channels.
- **UUID lookups**: a `UUIDField` lookup parses its text as Python's `uuid.UUID` does. Upper
  case, braces and missing hyphens still find the row, and text that is not a UUID is a
  validation error rather than a miss.
- **The chat API's rules**: `meta[key]=value` query parameters, the image-upload type filter,
  and the owner checks.
- **Story pages**: the `order` field, page numbers, lookup by number, and the first, last,
  previous and next pages.
- **The artifact service's rules**: absolute URLs, the file name a generated image is saved
  under, and the content item built for an artifact.
- **The image-upload widget** of the web client. This covers the `accept`-attribute filter, the
  drag-time check against a fixed extension table, the drop filter and the download name. It
  also covers the widget's flags as a class whose handlers are proved against pure transition
  functions. The two copies of the script are identical in everything modelled, so one
  module serves both.

Where a test file and the code disagree, the model follows the code. For example, a loaded
payload's vendor metadata gains the `_stash_uuid` entry. The tests also disagree among
themselves about how keys are chosen, so the key policy is a parameter.

## Model

| member | source | states |
|---|---|---|
| StashAdapters.ExistsIn | libs/pydantic-ai-stash/src/pydantic_ai_stash/adapters.py:55-59 | `exists` fails exactly on a refused key, with an error naming `exists` and the key; otherwise it answers whether the key is stored |
| StashAdapters.PutInto | libs/pydantic-ai-stash/src/pydantic_ai_stash/adapters.py:61-67 | `put` fails exactly on a refused key, with an error naming `put` and the key; on success the key holds the data, and every other key is stored, with the same bytes, exactly when it was before |
| StashAdapters.OpenIn | libs/pydantic-ai-stash/src/pydantic_ai_stash/adapters.py:69-75 | `open` of a refused key is a backend error; otherwise a missing key is not-found naming the key, and a present key yields its bytes |
| StashAdapters.PutThenRead | libs/pydantic-ai-stash/src/pydantic_ai_stash/adapters.py:55-73 | after a successful `put`, `exists` is true and `open` yields exactly the data written, for any bytes |
| StashAdapters.LastWriteWins | libs/pydantic-ai-stash/src/pydantic_ai_stash/adapters.py:63-66 | a second `put` to the same key succeeds, and its bytes are the ones read back |
| StashAdapters.NeverWrittenIsAbsent | libs/pydantic-ai-stash/src/pydantic_ai_stash/adapters.py:55-57 | on a working store a key never written is absent (`exists` is false, not an error), and `open` of it is not-found |
| StashAdapters.PutKeepsOtherKeys | libs/pydantic-ai-stash/src/pydantic_ai_stash/adapters.py:61-67 | `put` leaves what `open` and `exists` answer for every other key unchanged |
| StashAdapters.KeyFor | libs/pydantic-ai-stash/src/pydantic_ai_stash/adapters.py:20-32 | the key starts with the content digest; a payload with no media type and no (or an empty) identifier is keyed by its digest alone |
| StashAdapters.KeyForLayout | libs/pydantic-ai-stash/src/pydantic_ai_stash/adapters.py:20-32 | the key is the digest, then `_` and the media type with each `/` made `_` (if it is non-empty), then `_` and the identifier (if any); the media-type segment holds no `/` |
| StashAdapters.KeyForDeterministic | libs/pydantic-ai-stash/src/pydantic_ai_stash/adapters.py:20-32 | equal data, media type and identifier give equal keys, whatever the vendor metadata |
| StashAdapters.KeyForStartsWithDigest | libs/pydantic-ai-stash/src/pydantic_ai_stash/adapters.py:23-32 | with fixed-width digests, equal keys imply equal digests |
| StashAdapters.FreshKey | libs/pydantic-ai-stash/tests/test_adapters.py:77-80 | a uuid-style key is one not yet stored, and it is non-empty |
| StashAdapters.PolicyKey | libs/pydantic-ai-stash/src/pydantic_ai_stash/adapters.py:20-32 | the key for a new payload is `key_for` under content addressing, and a key not in the store under unique keys |
| StashAdapters.RememberedKey | libs/pydantic-ai-stash/tests/test_idempotency.py:143-145 | a payload remembers a key exactly when its vendor metadata holds `_stash_uuid`, and the key is that entry's value |
| StashAdapters.StashContentSpec | libs/pydantic-ai-stash/src/pydantic_ai_stash/core.py:57 | a failed `stash_content` leaves the store as it was; a successful one returns a key that is stored |
| StashAdapters.StashContentWriteOnce | libs/pydantic-ai-stash/src/pydantic_ai_stash/core.py:57 | `stash_content` never overwrites or removes stored bytes, and it keeps the set of refused keys |
| StashAdapters.StashContentStores | libs/pydantic-ai-stash/tests/test_core.py:146-150 | after a successful `stash_content` the returned key is stored; a newly written key holds the payload's bytes; a remembered key that is still stored is returned and nothing is written |
| StashAdapters.ContentAddressedDeduplicates | libs/pydantic-ai-stash/src/pydantic_ai_stash/adapters.py:20-32 | under content addressing, stashing equal payloads twice gives one key and leaves the store as after the first |
| StashAdapters.UniqueKeysAreDistinct | libs/pydantic-ai-stash/tests/test_integration.py:205-216 | under unique keys, a payload that remembers no key gets a key that was not stored before, so two stashes give different keys |
| StashAdapters.FSAdapter.constructor | libs/pydantic-ai-stash/src/pydantic_ai_stash/adapters.py:51-53 | an adapter over a root holding the given files, refused keys and key policy |
| StashAdapters.FSAdapter.Exists | libs/pydantic-ai-stash/src/pydantic_ai_stash/adapters.py:55-59 | the answer is `ExistsIn` of the adapter's store, which is left unchanged |
| StashAdapters.FSAdapter.Put | libs/pydantic-ai-stash/src/pydantic_ai_stash/adapters.py:61-67 | success exactly on a key that is not refused; then the new store is `PutInto` of the old one; on failure the files are unchanged and the error names `put` and the key |
| StashAdapters.FSAdapter.Open | libs/pydantic-ai-stash/src/pydantic_ai_stash/adapters.py:69-75 | the result is `OpenIn` of the adapter's store, which is left unchanged |
| StashAdapters.FSAdapter.NewUniqueKey | libs/pydantic-ai-stash/tests/test_core.py:141-142 | computes the fresh key: one character longer than every stored key, hence not stored |
| StashAdapters.FSAdapter.StashContent | libs/pydantic-ai-stash/src/pydantic_ai_stash/core.py:57 | the result and the new store are those of the `stash_content` specification on the old store |
| StashCore.Classify | libs/pydantic-ai-stash/src/pydantic_ai_stash/core.py:43-52 | every media type gets exactly one reference class, in priority order: image exactly for `image/` types, audio for `audio/` types that are not images, video next, and document for everything else |
| StashCore.ClassifyExamples | libs/pydantic-ai-stash/src/pydantic_ai_stash/core.py:43-52 | `image/png`, `audio/mpeg` and `video/mp4` get their own classes; `application/pdf` and `text/plain` fall back to a document reference |
| StashCore.ToTypedUrl | libs/pydantic-ai-stash/src/pydantic_ai_stash/core.py:34-52 | the reference has the payload's class and the given uri, and carries its media type, identifier and vendor metadata unchanged |
| StashCore.StashBinarySpec | libs/pydantic-ai-stash/src/pydantic_ai_stash/core.py:54-60 | on success the reference is the payload's typed reference to a `media://` url; its key is stored and not refused, and under unique keys, for a payload that remembers no key, it holds exactly the payload's bytes; any adapter failure is a stash failure that leaves the store as it was; the store is only ever extended |
| StashCore.Remember | libs/pydantic-ai-stash/src/pydantic_ai_stash/core.py:73-75 | the loaded metadata is the reference's entries (none if absent) plus `_stash_uuid` set to the key; the other entries are kept |
| StashCore.LoadBinarySpec | libs/pydantic-ai-stash/src/pydantic_ai_stash/core.py:62-87 | a non-`media://` url gives nothing; otherwise a refused key is a load failure, a missing key is not-found naming the key, and a stored key gives its full bytes with the reference's media type and identifier and the remembered key |
| StashCore.UniqueKeysWriteNewKeys | libs/pydantic-ai-stash/tests/test_core.py:141-150 | under unique keys, a payload that remembers no key is always written to a new key, never matched against old bytes |
| StashCore.LoadAfterStash | libs/pydantic-ai-stash/src/pydantic_ai_stash/core.py:54-83 | round trip for one payload: when a reused key already holds the payload's bytes (always so under unique keys for a payload that remembers no key), loading the reference just stashed gives back the same bytes, media type and identifier, with the original vendor metadata plus the key it was stored under |
| StashCore.RestashReusesKey | libs/pydantic-ai-stash/tests/test_idempotency.py:143-145 | stashing a payload just loaded reuses its key, writes nothing, and gives back the same url |
| StashCore.MapM | libs/pydantic-ai-stash/src/pydantic_ai_stash/core.py:97-112 | the walk's outputs are as many as its inputs |
| StashCore.MapMAppend | libs/pydantic-ai-stash/src/pydantic_ai_stash/core.py:97-101 | a walk over one more element continues from the store and outputs of the walk over the prefix |
| StashCore.MapMStopsAtError | libs/pydantic-ai-stash/src/pydantic_ai_stash/core.py:119-123 | after a failure, later elements are never visited |
| StashCore.MapMPointwise | libs/pydantic-ai-stash/src/pydantic_ai_stash/core.py:104-108 | each output is related to the input at its own index, in order, in the walk's final store, by any relation each step establishes in its own output store and later steps keep |
| StashCore.MapMStore | libs/pydantic-ai-stash/src/pydantic_ai_stash/core.py:97-112 | the walk's final store relates to its first by any preorder each step keeps |
| StashCore.MapMConstant | libs/pydantic-ai-stash/src/pydantic_ai_stash/core.py:97-112 | a walk whose every step succeeds without touching the store succeeds, leaves the store as it was, and is the plain map of the steps |
| StashCore.MapMErrors | libs/pydantic-ai-stash/src/pydantic_ai_stash/core.py:97-112 | a walk fails only with an error some step can fail with |
| StashCore.AsList | libs/pydantic-ai-stash/src/pydantic_ai_stash/core.py:116-117 | a single message is treated as the list holding it |
| StashCore.BatchSpec | libs/pydantic-ai-stash/src/pydantic_ai_stash/core.py:114-134 | both message operations give one output message per input message |
| StashCore.SingleMessageIsListOfOne | libs/pydantic-ai-stash/src/pydantic_ai_stash/core.py:116-117 | a single message is handled exactly as the list holding only it |
| StashCore.ItemStep | libs/pydantic-ai-stash/src/pydantic_ai_stash/core.py:104-108 | loading never changes the store; text and other items are kept; a stashed payload becomes a `media://` reference |
| StashCore.PartStep | libs/pydantic-ai-stash/src/pydantic_ai_stash/core.py:97-112 | a part keeps its shape and its `part_kind`, and a list `content` keeps its length |
| StashCore.MessageStep | libs/pydantic-ai-stash/src/pydantic_ai_stash/core.py:89-112 | a message keeps its kind and its number of parts |
| StashCore.ItemStepFacts | libs/pydantic-ai-stash/src/pydantic_ai_stash/core.py:104-108 | in the store the step leaves: a stashed payload becomes its typed `media://` reference whose key is stored (holding its bytes under unique keys for a payload that remembers no key); a loaded `media://` reference becomes the payload made of the bytes stored under its key, with the reference's media type and identifier and its metadata plus the key; every other item is unchanged; stashing only adds to the store, loading keeps it; failures are the pass's own |
| StashCore.PartStepFacts | libs/pydantic-ai-stash/src/pydantic_ai_stash/core.py:97-112 | a part keeps its kind and shape, a list `content` keeps its length and order, each item is related to its original as an item step relates it, in the store the part step leaves, and parts without content pass through |
| StashCore.MessageStepFacts | libs/pydantic-ai-stash/src/pydantic_ai_stash/core.py:89-112 | a message keeps its kind and the number and order of its parts, each related to the original part in the store the message step leaves |
| StashCore.BatchFacts | libs/pydantic-ai-stash/src/pydantic_ai_stash/core.py:114-134 | one output per input message, in order, each related to its input in the final store of the call; the store relation and the error split of the pass hold for the whole call |
| StashCore.StashLeavesNoBinary | libs/pydantic-ai-stash/src/pydantic_ai_stash/core.py:114-123 | after a successful stash, no output message holds an inline binary payload anywhere |
| StashCore.ItemRoundTrip | libs/pydantic-ai-stash/src/pydantic_ai_stash/core.py:54-87 | under unique keys, an item the stash made of a new item loads back, from the store the stash left and without touching it, as the original payload (bytes, media type, identifier, vendor metadata plus `_stash_uuid`), and any other item as itself; the load is the loading relation applied to the stashed item, so a payload's `_stash_uuid` is exactly the key after `media://` in its stashed reference, and that key holds the payload's bytes |
| StashCore.PartRoundTrip | libs/pydantic-ai-stash/src/pydantic_ai_stash/core.py:97-112 | the same round trip for a part: each item of a list `content` in place and in order, and the loaded part related to the stashed part by the loading relation |
| StashCore.MessageRoundTrip | libs/pydantic-ai-stash/src/pydantic_ai_stash/core.py:89-112 | the same round trip for a message: each part in place and in order, and the loaded message related to the stashed message by the loading relation |
| StashCore.BatchRoundTrip | libs/pydantic-ai-stash/src/pydantic_ai_stash/core.py:114-134 | under unique keys, with no payload remembering a key and no `media://` reference in the input, loading the stashed messages from the store the stash left succeeds, writes nothing, and gives back every message with its parts in order, each payload with its own bytes, media type and identifier and its own vendor metadata plus a `_stash_uuid` entry; every stashed message is related to its input by the stashing relation and to its loaded message by the loading relation in that store, which together fix `_stash_uuid` as the key the stash wrote (see `StashedKeyIsRemembered`) |
| StashCore.StashedKeyIsRemembered | libs/pydantic-ai-stash/src/pydantic_ai_stash/core.py:54-87 | under unique keys, for a payload that remembers no key, stashing then loading through the stashed reference gives the payload's own bytes, media type and identifier with `_stash_uuid` equal to the reference's key, and that key holds the payload's bytes in the store |
| StashCore.BinaryStash.constructor | libs/pydantic-ai-stash/src/pydantic_ai_stash/core.py:31-32 | the stash keeps the given adapter |
| StashCore.BinaryStash.StashBinary | libs/pydantic-ai-stash/src/pydantic_ai_stash/core.py:54-60 | result and new store are those of `StashBinarySpec` on the old store |
| StashCore.BinaryStash.LoadBinary | libs/pydantic-ai-stash/src/pydantic_ai_stash/core.py:62-87 | the result is `LoadBinarySpec` of the store, which is left unchanged |
| StashCore.BinaryStash.TransformItem | libs/pydantic-ai-stash/src/pydantic_ai_stash/core.py:105-108 | filter then transform of one item, equal to the item step of the walk specification |
| StashCore.BinaryStash.TransformItems | libs/pydantic-ai-stash/src/pydantic_ai_stash/core.py:103-108 | the in-place loop over a list `content` equals the specification walk over that list |
| StashCore.BinaryStash.TransformPart | libs/pydantic-ai-stash/src/pydantic_ai_stash/core.py:97-112 | the three part shapes are handled as the part step of the specification |
| StashCore.BinaryStash.TransformMessage | libs/pydantic-ai-stash/src/pydantic_ai_stash/core.py:89-112 | the loop replacing parts of a copied message equals the message step of the specification |
| StashCore.BinaryStash.TransformMessages | libs/pydantic-ai-stash/src/pydantic_ai_stash/core.py:118-123 | the loop collecting transformed copies equals the batch specification |
| StashCore.BinaryStash.StashBinariesInMessages | libs/pydantic-ai-stash/src/pydantic_ai_stash/core.py:114-123 | equals the batch specification of the stash pass: one output message per input, each payload replaced by its `media://` reference whose key the new store keeps, everything else kept; the store is only extended |
| StashCore.BinaryStash.LoadBinariesInMessages | libs/pydantic-ai-stash/src/pydantic_ai_stash/core.py:125-134 | equals the batch specification of the load pass: the stored files are unchanged, one output message per input, each `media://` reference replaced by the payload made of the bytes stored under its key with the key remembered, everything else kept |
| MessageHistory.IsToolReturn | src/apps/ai/engine/messages.py:7 | a bare content item is never a tool-return part |
| MessageHistory.ContainsToolReturn | src/apps/ai/engine/messages.py:6-7 | true exactly when some part of the message at the index is a tool return |
| MessageHistory.AnyToolReturn | src/apps/ai/engine/messages.py:7 | true exactly when some part is a tool return |
| MessageHistory.KeepRecent | src/apps/ai/engine/messages.py:11-17 | a history of at most 15 messages is returned unchanged |
| MessageHistory.KeepRecentIsSuffix | src/apps/ai/engine/messages.py:11-17 | the result is always a suffix of the history, ending with its last message |
| MessageHistory.KeepRecentCut | src/apps/ai/engine/messages.py:15-17 | above 15 messages: the whole history when the message at `len - 15` holds a tool return, otherwise exactly the last 15 in order |
| MessageHistory.KeepRecentIdempotent | src/apps/ai/engine/messages.py:11-17 | trimming twice gives what trimming once gives |
| ToolsetGuard.RepeatMessageNamesTool | src/apps/ai/engine/base/toolsets.py:24-30 | the refusal message quotes the tool's name right after its fixed opening, and the fixed ending follows it |
| ToolsetGuard.Step | src/apps/ai/engine/base/toolsets.py:17-33 | a call is refused exactly when it equals the remembered call, otherwise passed on unchanged; afterwards the remembered call is this call |
| ToolsetGuard.Trace | src/apps/ai/engine/base/toolsets.py:17-33 | a sequence of calls has one outcome per call |
| ToolsetGuard.TraceBlocksExactlyRepeats | src/apps/ai/engine/base/toolsets.py:22-33 | in any sequence, call `i` is refused (with its own name) exactly when it equals the call just before it, and is passed on otherwise |
| ToolsetGuard.TraceUnfold | src/apps/ai/engine/base/toolsets.py:32-33 | a trace is the first call's outcome followed by the trace of the rest, which starts remembering the first call |
| ToolsetGuard.FirstCallDelegates | src/apps/ai/engine/base/toolsets.py:15 | on a fresh wrapper the first call is always passed on |
| ToolsetGuard.RepeatsAreBlocked | src/apps/ai/engine/base/toolsets.py:22-32 | the first of `n + 1` equal calls runs, and all the repeats after it are refused |
| ToolsetGuard.AlternatingCallsAllRun | src/apps/ai/engine/base/toolsets.py:32-33 | A, B, A with A different from B: all three are passed on |
| ToolsetGuard.EnhancedToolset.constructor | src/apps/ai/engine/base/toolsets.py:13-15 | a fresh wrapper remembers no call |
| ToolsetGuard.EnhancedToolset.CallTool | src/apps/ai/engine/base/toolsets.py:17-33 | outcome and new remembered call are those of `Step` on the old remembered call |
| Conversations.MaxPosition | src/apps/ai/models.py:88-93 | none exactly when the conversation has no rows; otherwise a position some row of it has, and no smaller than any of them |
| Conversations.LastPosition | src/apps/ai/models.py:88-93 | 0 when the conversation has no stored position (the `or 0`), otherwise the greatest stored position |
| Conversations.SavedPosition | src/apps/ai/models.py:128-137 | without a position a message is saved above every stored position of its conversation, at 1 in an empty one |
| Conversations.SavedPositionFacts | src/apps/ai/models.py:128-137 | an explicit position is kept; an unset one is 1 in an empty conversation and otherwise above every stored position, so saving keeps positions unique |
| Conversations.CountStep | src/apps/ai/models.py:84 | one more batch message adds one to its conversation's count and nothing to the others |
| Conversations.CountMonotone | src/apps/ai/models.py:84 | a longer batch prefix has at least as many messages of each conversation |
| Conversations.CountBeforeIncreasing | src/apps/ai/models.py:94-95 | within one conversation, a later batch message has more predecessors |
| Conversations.CountBeforeBelowCount | src/apps/ai/models.py:94-95 | a message's index in its group is below the group's size |
| Conversations.BulkPosition | src/apps/ai/models.py:88-95 | a batch message lies above every stored position of its conversation; in an empty conversation it lies between 1 and its own batch index plus one |
| Conversations.BulkPositionsConsecutive | src/apps/ai/models.py:88-95 | in each conversation the batch positions lie strictly above every stored position, run from last + 1 to last + group size, and increase in batch order |
| Conversations.Stored | src/apps/ai/models.py:96 | the batch becomes one row per message |
| Conversations.Assigned | src/apps/ai/models.py:87-95 | the batch with assigned positions has one message per input message |
| Conversations.BulkCreateKeepsPositionsUnique | src/apps/ai/models.py:121-123 | a bulk insert keeps `(conversation, position)` unique |
| Conversations.MessageTable.constructor | src/apps/ai/models.py:99-119 | a table holding the given rows |
| Conversations.MessageTable.Save | src/apps/ai/models.py:128-138 | the row stored has the message's conversation and content and the saved position, and it is appended to the table |
| Conversations.MessageTable.BulkCreate | src/apps/ai/models.py:76-96 | the batch's positions are overwritten with the `bulk_create` positions, and the rows appended are exactly the batch |
| Conversations.MessageTable.AssignGroup | src/apps/ai/models.py:88-95 | in one group every message gets its bulk position, and messages of other conversations are untouched |
| Conversations.GroupByConversation | src/apps/ai/models.py:77-84 | each conversation of the batch appears once in the group order, and its group lists exactly its messages in batch order |
| Conversations.LatestResponse | src/apps/ai/models.py:44-47 | none exactly when the conversation has no response; otherwise a response of it, with a position at least that of every response |
| Conversations.FirstFinalResult | src/apps/ai/models.py:57-60 | none exactly when no part is a `final_result` tool call; otherwise the index of the first one |
| Conversations.ChatDisplay | src/apps/ai/models.py:51-72 | no response gives the default; anything else shown is the well-formed arguments of a `final_result` part of the latest response; an error arises only with a latest response (which error, for which arguments, is stated by ChatDisplayChoice) |
| Conversations.ChatDisplayChoice | src/apps/ai/models.py:51-72 | no response, or no final result in the latest one, gives the fixed default with exactly three chips; otherwise the latest response's first final result decides: well-formed arguments are the display, missing arguments are `MissingArgs` (the `KeyError` of line 59) and arguments that do not validate are `InvalidArgs` (the validation error of line 59) |
| Uuids.Hyphenated | src/apps/stories/models.py:27 | the text of a UUID is 36 characters: its digits in groups of 8, 4, 4, 4 and 12 joined by hyphens |
| Uuids.ParseUuid | src/apps/stories/models.py:12 | the lookup parse of a `UUIDField`: text shorter than 32 characters never parses, and a parsed UUID is the lower-cased digits left once `urn:`, `uuid:`, braces and hyphens are removed |
| Uuids.ShortTextNeverParses | src/apps/common/sse.py:16-17 | text shorter than 32 characters is never a UUID |
| Uuids.ParseSpellings | src/apps/common/sse.py:16-17 | 32 hexadecimal digits in either case, bare or hyphenated as `str(uuid)` writes them, parse to the UUID they spell in lower case |
| Uuids.ParseUuidText | src/apps/stories/models.py:27 | a UUID's text and its bare digits parse back to that UUID |
| Channels.CanReadChannel | src/apps/common/sse.py:9-19 | a `story-…` channel (not also `user-…`) whose id does not parse as a UUID is a validation error naming the id, and nothing else is an error; a channel is readable only by an authenticated user |
| Channels.OnlyKnownChannels | src/apps/common/sse.py:9-19 | a channel with neither prefix is never readable and never an error |
| Channels.UserChannelPrefix | src/apps/common/sse.py:11-12 | user 1 reads `user-1` and also `user-12` (the test is a prefix test); user 12 does not read `user-1` |
| Channels.UserChannelAccess | src/apps/common/sse.py:11-12 | a `user-` channel is never an error, and is readable exactly when the requester is an authenticated user and the channel starts with `user-` followed by that user's decimal id |
| Channels.OwnUserChannel | src/apps/common/sse.py:11-12 | an authenticated user reads `user-` plus their own id followed by any text |
| Channels.StoryChannelAccess | src/apps/common/sse.py:14-18 | a story's channel is `story-` and its uuid, whose id parses back to that uuid; the channel is readable exactly by authenticated users who own a story with that uuid |
| Channels.StoryChannel | src/apps/common/sse.py:14-18 | a `story-` channel is an error exactly when its id does not parse, and otherwise readable exactly by authenticated users owning a story with the parsed uuid |
| Channels.StoryIdSpellings | src/apps/common/sse.py:16-17 | a story id spelled with upper-case digits or without hyphens answers exactly as the story's own channel |
| Channels.ShortStoryIdRaises | src/apps/common/sse.py:16-17 | a story id shorter than 32 characters is a validation error naming it |
| ChatApi.MetaNameRoundTrip | src/apps/ai/api.py:50-51 | `meta[` + key + `]` is a meta parameter, and its key is that key |
| ChatApi.ParseMeta | src/apps/ai/api.py:48-53 | the parsing loop computes the meta filter |
| ChatApi.MetaMap | src/apps/ai/api.py:48-52 | without `meta[...]` parameters the map is empty, and every `meta[...]` parameter's key is in it |
| ChatApi.MetaFilter | src/apps/ai/api.py:53 | absent exactly when no parameter is a `meta[...]` parameter, and otherwise the non-empty meta map |
| ChatApi.MetaMapEntries | src/apps/ai/api.py:49-52 | a key is in the meta map exactly when some `meta[...]` parameter names it, and its value is that of the last such parameter |
| ChatApi.MetaFilterIgnoresOthers | src/apps/ai/api.py:50-53 | a parameter of any other name never changes the filter, and the filter is absent exactly when there is no meta parameter |
| ChatApi.Accepted | src/apps/ai/api.py:93-99 | the kept uploads are uploads of the list with one of the four image types, and no more than the list |
| ChatApi.AcceptedAppend | src/apps/ai/api.py:93-99 | the upload filter works piecewise, so the kept uploads stay in order |
| ChatApi.AcceptedMembers | src/apps/ai/api.py:95-97 | an upload is kept exactly when its content type is one of the four image types |
| ChatApi.AcceptedUploads | src/apps/ai/api.py:91-99 | the loop keeps the accepted uploads of the list in order, and none when there are no uploads |
| ChatApi.GetConversation | src/apps/ai/api.py:69-75 | the conversation is returned exactly when it exists and belongs to the requester; a missing uuid is does-not-exist; another owner's conversation is "Conversation not found" |
| ChatApi.SendChat | src/apps/ai/api.py:85-99 | fails, with not-found, exactly when the conversation is missing or not the requester's; otherwise it gives the accepted uploads |
| Stories.Channel | src/apps/stories/models.py:25-27 | a story's channel is 42 characters, starts with `story-`, and its id after the prefix parses back to the story's uuid |
| Stories.WithOrder | src/apps/stories/models.py:31 | the pages found with an order are pages of the story with that order, and all of them |
| Stories.GetByOrder | src/apps/stories/models.py:69 | a page found is a page of the story with that order, and the only one; does-not-exist exactly when no page has that order |
| Stories.GetPageByNum | src/apps/stories/models.py:29-31 | a page found for a number is a page of the story with that page number |
| Stories.PageNumber | src/apps/stories/models.py:61-63 | pages of non-negative order are numbered from 1 |
| Stories.IsFirst | src/apps/stories/models.py:51-54 | the first page is page number 1 |
| Stories.IsLast | src/apps/stories/models.py:56-59 | the last page's number is the number of pages |
| Stories.PreviousPage | src/apps/stories/models.py:65-69 | none exactly for the first page; a page found is a page of the story numbered one less |
| Stories.NextPage | src/apps/stories/models.py:71-75 | none exactly for the last page; a page found is a page of the story numbered one more |
| Stories.WithOrderWellOrdered | src/apps/stories/models.py:31 | on pages ordered 0, 1, 2, … exactly page `k` has order `k`, and an order out of range matches none |
| Stories.GetByOrderWellOrdered | src/apps/stories/models.py:69 | on well-ordered pages a lookup of an order in range finds that page |
| Stories.PageNumberLookup | src/apps/stories/models.py:29-31 | number `n` in 1 .. count finds page `n - 1`, whose page number is `n`; any other number finds nothing |
| Stories.FirstAndLast | src/apps/stories/models.py:51-59 | a page is first exactly at position 0 and last exactly at the final position; a lone page is both |
| Stories.PreviousNeighbour | src/apps/stories/models.py:65-69 | the previous page is none exactly for the first page, and otherwise the page just before |
| Stories.NextNeighbour | src/apps/stories/models.py:71-75 | the next page is none exactly for the last page, and otherwise the page just after |
| ArtifactRules.BuildAbsoluteUrl | src/apps/ai/services.py:165-182 | the absolute URL ends with the relative URL |
| ArtifactRules.AbsoluteUrlShape | src/apps/ai/services.py:176-182 | with a non-empty base, the part before the relative URL is the base with exactly its trailing slashes removed; without one it is `http://localhost:8000` |
| ArtifactRules.TrailingSlashIgnored | src/apps/ai/services.py:179 | a trailing slash on a non-empty base does not change the URL |
| ArtifactRules.DefaultFilename | src/apps/ai/services.py:203-207 | the default name starts with `generated_image_` and is at most the prefix, timestamp, `_` and eight characters long |
| ArtifactRules.WithExtension | src/apps/ai/services.py:209-211 | the name ends with `.` and the extension |
| ArtifactRules.NormaliseFilename | src/apps/ai/services.py:203-211 | the name saved under ends with `.` and the extension |
| ArtifactRules.WithExtensionKeepsName | src/apps/ai/services.py:210-211 | the name stays a prefix; it is unchanged exactly when it already ends with the extension, and otherwise gains it once |
| ArtifactRules.NormaliseIdempotent | src/apps/ai/services.py:203-211 | normalising an already normalised name changes nothing |
| ArtifactRules.DefaultNameShape | src/apps/ai/services.py:203-211 | a generated name starts with `generated_image_` followed by the timestamp |
| ArtifactRules.ImageMediaType | src/apps/ai/services.py:302-304 | the media type is an `image/` type: the guess, or `image/png` |
| ArtifactRules.ImageMediaTypeKeepsImageGuesses | src/apps/ai/services.py:302-304 | the guess is kept exactly when it starts with `image/` |
| ArtifactRules.CreateImageContent | src/apps/ai/services.py:256-312 | text that does not parse as a UUID is a validation error naming it; a parsed UUID of no artifact is "Artifact not found: " and the text; otherwise inline bytes exactly when binary is asked for, with the artifact's data and the media type `ImageMediaType` makes of the guess from the file name (lines 301-304), or else a forced-download URL that is `BuildAbsoluteUrl` of the base URL and the file's URL (lines 308-312) |
| ArtifactRules.CreateImageContentReadsUuid | src/apps/ai/services.py:256-261 | two spellings of one UUID find the same artifact and give the same content |
| ImageUpload.AcceptEntries | src/static/js/image-upload.js:42 | one entry per comma-separated piece, each piece trimmed |
| ImageUpload.AcceptEntriesShape | src/static/js/image-upload.js:42 | no entry holds a comma or starts or ends with white space |
| ImageUpload.FileExtension | src/static/js/image-upload.js:43 | the extension is a dot followed by the name's last dot-separated segment, of the same length |
| ImageUpload.FileExtensionShape | src/static/js/image-upload.js:43 | the extension is a dot followed by a dot-free segment with no upper-case letter |
| ImageUpload.EntryMatches | src/static/js/image-upload.js:46-52 | a MIME entry admits its own type, and one without `*` admits exactly the types it is a prefix of |
| ImageUpload.AnyEntryMatches | services/web/static/js/image-upload.js:46-52 | the scan succeeds exactly when some entry admits the file |
| ImageUpload.IsFileTypeAllowed | src/static/js/image-upload.js:38-53 | with no accept attribute, or an empty one, every file is allowed (lines 39-40); with a non-empty accept attribute a file is allowed exactly when some entry admits it |
| ImageUpload.ExtensionEntryIgnoresMime | src/static/js/image-upload.js:47-48 | a `.ext` entry admits a file by its name alone, and only if the entry has no further dot |
| ImageUpload.EmptyEntryAdmitsAll | src/static/js/image-upload.js:46-52 | an empty entry admits every file |
| ImageUpload.TrailingCommaAdmitsAll | services/web/static/js/image-upload.js:38-53 | an accept attribute ending in a comma admits every file |
| ImageUpload.DragMime | services/web/static/js/image-upload.js:99-108 | a MIME entry contributes itself; a `.ext` entry contributes an `image/` type or nothing |
| ImageUpload.ExtensionMime | services/web/static/js/image-upload.js:85-93 | exactly the seven extensions of the table map to a type, and every type they map to is an `image/` type |
| ImageUpload.AllowedMimeTypes | services/web/static/js/image-upload.js:95-108 | the set built holds exactly the types the entries contribute |
| ImageUpload.HasInvalidFile | src/static/js/image-upload.js:110-119 | true exactly when some file item's type is missing from the set |
| ImageUpload.DragInvalid | src/static/js/image-upload.js:95-123 | a drag is invalid only if some dragged item is a file, and never without a file input or an accept attribute |
| ImageUpload.WildcardDropVersusDrag | src/static/js/image-upload.js:50 | an entry `type/` plus `*` admits a dropped file of any subtype, but a drag of the same file is marked invalid |
| ImageUpload.Filter | src/static/js/image-upload.js:156-161 | the filter keeps no more files than it is given |
| ImageUpload.FilterMembers | src/static/js/image-upload.js:156-161 | the kept files are exactly the admitted files of the list |
| ImageUpload.FilterAppend | src/static/js/image-upload.js:156-161 | filtering two parts filters each and keeps their order |
| ImageUpload.FirstAllowedFile | services/web/static/js/image-upload.js:156-170 | some file is kept exactly when some dropped file is allowed, and the first kept file is the first allowed one |
| ImageUpload.AllowedFiles | src/static/js/image-upload.js:156-161 | the kept files are exactly the dropped files the accept attribute allows, and no more than were dropped |
| ImageUpload.ValidFiles | src/static/js/image-upload.js:156-161 | the loop yields the allowed files in their original order |
| ImageUpload.DownloadName | src/static/js/image-upload.js:194-198 | the name has a dot; a name with a dot is kept |
| ImageUpload.DownloadNameShape | src/static/js/image-upload.js:194-198 | a dot-free name is kept as a prefix, followed by one dot and an extension holding neither a dot nor a `?` |
| ImageUpload.DownloadNameIdempotent | src/static/js/image-upload.js:194-198 | deriving a name again, from any URL, keeps it |
| ImageUpload.MouseEnter | src/static/js/image-upload.js:55-60 | while uploading the widget is unchanged; hovering and dragging are never set together; outside a drag or upload it sets hovering |
| ImageUpload.MouseLeave | src/static/js/image-upload.js:62-67 | while uploading the widget is unchanged; hovering and dragging are never set together; outside a drag or upload it clears hovering |
| ImageUpload.DragOver | src/static/js/image-upload.js:69-130 | while uploading the widget is unchanged; hovering and dragging are never set together; otherwise it sets dragging and clears hovering |
| ImageUpload.DragEnd | src/static/js/image-upload.js:132-138 | while uploading the widget is unchanged; hovering and dragging are never set together; otherwise it clears dragging |
| ImageUpload.FileSelected | src/static/js/image-upload.js:140-145 | only the shown file name changes, so hovering and dragging stay apart |
| ImageUpload.Drop | src/static/js/image-upload.js:147-181 | while uploading the widget is unchanged; hovering and dragging are never set together; otherwise it clears dragging; new input files are always allowed dropped files |
| ImageUpload.MouseOnlyWhenIdle | src/static/js/image-upload.js:55-67 | mouse enter and leave do nothing while dragging or uploading; otherwise they set or clear hovering and show or hide the overlay |
| ImageUpload.DragOverEffect | services/web/static/js/image-upload.js:69-130 | outside an upload drag-over sets dragging and leaves hovering clear; a pending hover is cleared with the overlay kept, and otherwise a hidden overlay turns red exactly when the drag is invalid and dark otherwise |
| ImageUpload.DragEndAndDropHide | src/static/js/image-upload.js:132-180 | outside an upload, drag-end and drop hide the overlay and clear dragging |
| ImageUpload.DropOutcome | services/web/static/js/image-upload.js:147-181 | a drop raises one change event exactly when some file is allowed, then sets the input to the allowed files and the name to the first one; otherwise the input and name are unchanged |
| ImageUpload.UploadWidget.constructor | src/static/js/image-upload.js:55-181 | a widget that is neither dragging nor hovering, with no overlay, no name and no files |
| ImageUpload.UploadWidget.ShowOverlay | src/static/js/image-upload.js:2-8 | the new state is `OverlayShown` of the old one |
| ImageUpload.UploadWidget.ShowRedOverlay | src/static/js/image-upload.js:10-22 | the new state is `RedOverlayShown` of the old one |
| ImageUpload.UploadWidget.HideOverlay | src/static/js/image-upload.js:24-36 | the new state is `OverlayHidden` of the old one |
| ImageUpload.UploadWidget.HandleMouseEnter | src/static/js/image-upload.js:55-60 | the new state is `MouseEnter` of the old one |
| ImageUpload.UploadWidget.HandleMouseLeave | services/web/static/js/image-upload.js:62-67 | the new state is `MouseLeave` of the old one |
| ImageUpload.UploadWidget.HandleDragOver | services/web/static/js/image-upload.js:69-130 | the new state is `DragOver` of the old one and the dragged items |
| ImageUpload.UploadWidget.HandleDragEnd | src/static/js/image-upload.js:132-138 | the new state is `DragEnd` of the old one |
| ImageUpload.UploadWidget.HandleFileSelected | src/static/js/image-upload.js:140-145 | the new state is `FileSelected` of the old one |
| ImageUpload.UploadWidget.HandleFileDrop | src/static/js/image-upload.js:147-181 | the new state is `Drop` of the old one and the dropped files |

## Left out

- The file system is not modelled. Paths, directories, permissions and the race between a
  check and an open are left out. Keys that the operating system would refuse are a fixed set
  of refused keys. A key holding `/` is stored like any other key: the parent directories that
  `put` creates are not modelled.
- SHA-256 is a digest function passed in. `uuid4` is modelled in two ways. As a store key, it is
  a key longer than every stored key. As the text of a generated file name, it is a parameter.
- `stash_content`, `stash_filter` and `load_filter` are called by the stash but are not defined
  in the adapter module. The stash filter is "is a binary payload" and the load filter is "is a
  typed reference". `stash_content` reuses a remembered key that is still stored, and otherwise
  writes the bytes under the policy key unless that key is already stored.
- `copy.deepcopy` is not modelled: messages are values, so the inputs are never changed.
- pydantic-ai's `is_document` is not modelled, because the fallback makes it irrelevant.
  `is_image`, `is_audio` and `is_video` are media-type prefix tests.
- Metadata values, tool arguments and JSON content are strings or small datatypes. JSON
  validation of a final result is only "well formed or not".
- Logging is left out everywhere.
- The ORM, database constraints and transactions are not modelled. The table is a sequence of
  rows, and stored rows always have a position. `insert_model_messages`, `get_ordered_messages`
  and `model_messages` are ORM and serialisation glue, so they are not modelled.
- Conversations.MessageTable.Save: only the insert of a new message is modelled, as an appended
  row. Saving a message that is already stored updates its row in place in Django (an UPDATE);
  that path is not modelled, and re-saving here would add a second row.
- `send_chat` is modelled up to the queueing of the agent job. The job queue and the creation
  of artifact rows are left out. Unauthenticated requesters are `None`.
- The story lookup behind `can_read_channel` is a list of stories. The anonymous-user case of
  that query is treated like any failed lookup.
- `save_image` storage, `save_file`, `get_artifact_by_uuid` and `delete_artifact` are left out,
  because they are storage I/O. The clock and the file-name media-type guess are parameters.
- Text.ReplaceFirst is modelled only for a single character, because only `*` is replaced.
- Text.ToLower and Text.Trim cover ASCII letters and ASCII white space only.
- The widget's DOM work is left out: class lists, `DataTransfer`, events, `closest` and `fetch`.
  Only the flags, the two overlay class groups, the input's files and the count of change
  events are modelled. `isUploading` is set outside these handlers. A missing
  `dataTransfer.items` is treated as an empty list.
- `downloadImage` is modelled only up to the file name; the link and the click are left out.
- Uuids.ParseUuid: the leniencies of Python's `int(text, 16)` inside `uuid.UUID` (surrounding
  white space, a sign, a `0x` prefix, `_` between digits) are treated as malformed text.
- ChatApi.SendChat: an anonymous requester gets not-found. In the source, the ownership lookup at
  `src/apps/ai/api.py:88` filters on `user=request.user`, and with an anonymous user that
  filter raises a type error instead.
- ChatApi.GetConversation: conversation uuids are compared as exact text. The request schema
  parses them as UUIDs before the lookup, and that parsing is modelled only for channels and
  artifacts. The lookup in ChatApi.SendChat is treated the same way.
- StashCore.BatchRoundTrip: the round trip is proved under unique keys only, for input with no
  remembered key and no `media://` reference. Under content addressing, or for a remembered
  key, a key that was already stored is reused without checking its bytes.

=== FILE: ai_messages.dfy ===
/** The shape of a conversation history as the stash and the history trimmer see it:
    messages hold parts, and a part either is a content item itself, holds one item
    or a list of items in its `content` slot, or has no content slot at all. */
module AiMessages {
  import opened Wrappers

  type Bytes = seq<bv8>

  /** Vendor metadata; values are modelled as strings. */
  type Metadata = map<string, string>

  /** A binary payload held inline in a message. */
  datatype BinaryContent = BinaryContent(
    data: Bytes,
    mediaType: string,
    identifier: Option<string>,
    vendorMetadata: Option<Metadata>)

  /** The four typed reference classes: `ImageUrl`, `AudioUrl`, `VideoUrl`, `DocumentUrl`. */
  datatype UrlKind = ImageUrl | AudioUrl | VideoUrl | DocumentUrl

  /** A typed reference to content kept elsewhere. */
  datatype TypedUrl = TypedUrl(
    kind: UrlKind,
    url: string,
    mediaType: string,
    identifier: Option<string>,
    vendorMetadata: Option<Metadata>)

  /** A content item. `Text` and `Opaque` items are never inspected by the stash. */
  datatype Item =
    | Binary(binary: BinaryContent)
    | Reference(reference: TypedUrl)
    | Text(text: string)
    | Opaque(tag: string)

  /** What a part's `content` slot holds. */
  datatype Content = Single(item: Item) | Many(items: seq<Item>)

  /** A message part; `partKind` is pydantic-ai's `part_kind` (for instance "tool-return"). */
  datatype Part =
    | ItemPart(item: Item)
    | ContentPart(partKind: string, content: Content)
    | BarePart(partKind: string)

  datatype MessageKind = Request | Response

  datatype Message = Message(kind: MessageKind, parts: seq<Part>)
}

=== FILE: artifacts.dfy ===
/** The pure rules of the artifact service: absolute URLs for stored files, the
    file name an image is saved under, and the content item built for an artifact.
    Storage, the clock and uuid4 are parameters. */
module ArtifactRules {
  import opened Wrappers
  import opened Text
  import opened AiMessages
  import opened Uuids

  /** The development fallback used when no base URL is configured. */
  const LocalBase := "http://localhost:8000"

  const DefaultPrefix := "generated_image_"

  const FallbackImageType := "image/png"

  /** `build_absolute_url`: a non-empty configured base with its trailing slashes
      removed, or the local fallback, followed by the relative URL. */
  function BuildAbsoluteUrl(baseUrl: Option<string>, relativeUrl: string): (r: string)
    ensures EndsWith(r, relativeUrl)
  {
    var prefix := if baseUrl.Some? && baseUrl.value != "" then RStrip(baseUrl.value, '/') else LocalBase;
    var r := prefix + relativeUrl;
    assert r[|r| - |relativeUrl|..] == relativeUrl;
    r
  }

  /** The URL is `p + relativeUrl`, where `p` is the configured base less exactly its
      trailing slashes, or the local fallback when no (or an empty) base is set. */
  lemma AbsoluteUrlShape(baseUrl: Option<string>, relativeUrl: string)
    ensures var r := BuildAbsoluteUrl(baseUrl, relativeUrl);
      var p := r[..|r| - |relativeUrl|];
      && (baseUrl.Some? && baseUrl.value != "" ==>
            && StartsWith(baseUrl.value, p)
            && (p == [] || p[|p| - 1] != '/')
            && (forall i :: |p| <= i < |baseUrl.value| ==> baseUrl.value[i] == '/'))
      && (baseUrl.None? || baseUrl.value == "" ==> p == LocalBase)
  {
    var r := BuildAbsoluteUrl(baseUrl, relativeUrl);
    if baseUrl.Some? && baseUrl.value != "" {
      var b := baseUrl.value;
      RStripDropsOnlyTrailing(b, '/');
      assert r == RStrip(b, '/') + relativeUrl;
      assert r[..|r| - |relativeUrl|] == RStrip(b, '/');
    } else {
      assert r == LocalBase + relativeUrl;
      assert r[..|r| - |relativeUrl|] == LocalBase;
    }
  }

  /** A trailing slash on a configured base makes no difference. */
  lemma TrailingSlashIgnored(base: string, relativeUrl: string)
    requires base != ""
    ensures BuildAbsoluteUrl(Some(base + "/"), relativeUrl) == BuildAbsoluteUrl(Some(base), relativeUrl)
  {
    assert (base + "/")[..|base|] == base;
  }

  function Min(a: int, b: int): int {
    if a <= b then a else b
  }

  /** The name given to an image saved without one: the prefix, the timestamp and
      the first eight characters of a fresh uuid (fewer if the text is shorter). */
  function DefaultFilename(timestamp: string, uuidText: string): (r: string)
    ensures StartsWith(r, DefaultPrefix)
    ensures |r| <= |DefaultPrefix| + |timestamp| + 1 + 8
  {
    var r := DefaultPrefix + timestamp + "_" + uuidText[..Min(8, |uuidText|)];
    assert r[..|DefaultPrefix|] == DefaultPrefix;
    r
  }

  /** `name` with `"." + extension` appended unless it already ends that way. */
  function WithExtension(name: string, extension: string): (r: string)
    ensures EndsWith(r, "." + extension)
  {
    var suffix := "." + extension;
    if EndsWith(name, suffix) then name
    else
      var r := name + suffix;
      assert r[|r| - |suffix|..] == suffix;
      r
  }

  /** The file name `save_image` asks the storage to save under: the given name, or
      the default one when none is given, carrying the extension. The storage may still
      pick another name on a collision; that step is not part of this model. */
  function NormaliseFilename(filename: Option<string>, extension: string, timestamp: string, uuidText: string): (r: string)
    ensures EndsWith(r, "." + extension)
  {
    var name := if filename.None? then DefaultFilename(timestamp, uuidText) else filename.value;
    WithExtension(name, extension)
  }

  /** The name is kept as a prefix, and at most the extension is added, never twice. */
  lemma WithExtensionKeepsName(name: string, extension: string)
    ensures var r := WithExtension(name, extension);
      && StartsWith(r, name)
      && (EndsWith(name, "." + extension) <==> r == name)
      && (!EndsWith(name, "." + extension) ==> r == name + "." + extension)
  {
    var r := WithExtension(name, extension);
    if !EndsWith(name, "." + extension) {
      assert r == name + ("." + extension);
      assert r[..|name|] == name;
      assert |r| > |name|;
    }
  }

  /** Saving under an already normalised name does not change it. */
  lemma NormaliseIdempotent(filename: Option<string>, extension: string, timestamp: string, uuidText: string,
                            timestamp': string, uuidText': string)
    ensures var r := NormaliseFilename(filename, extension, timestamp, uuidText);
      NormaliseFilename(Some(r), extension, timestamp', uuidText') == r
  {
  }

  /** A name generated for an unnamed image starts with the default prefix and carries the timestamp. */
  lemma DefaultNameShape(extension: string, timestamp: string, uuidText: string)
    ensures var r := NormaliseFilename(None, extension, timestamp, uuidText);
      && StartsWith(r, DefaultPrefix)
      && r[|DefaultPrefix|..|DefaultPrefix| + |timestamp|] == timestamp
  {
    var name := DefaultFilename(timestamp, uuidText);
    WithExtensionKeepsName(name, extension);
    var r := NormaliseFilename(None, extension, timestamp, uuidText);
    assert name[|DefaultPrefix|..|DefaultPrefix| + |timestamp|] == timestamp;
    assert r[..|name|] == name;
  }

  /** The media type of an inline image: the guessed type when it is an image type,
      otherwise `image/png`. */
  function ImageMediaType(guessed: Option<string>): (r: string)
    ensures StartsWith(r, "image/")
    ensures r == FallbackImageType || (guessed.Some? && r == guessed.value)
  {
    if guessed.Some? && guessed.value != "" && StartsWith(guessed.value, "image/") then guessed.value
    else FallbackImageType
  }

  /** The guess is kept exactly when it names an image type. */
  lemma ImageMediaTypeKeepsImageGuesses(guessed: Option<string>)
    ensures (guessed.Some? && StartsWith(guessed.value, "image/")) <==> (guessed.Some? && ImageMediaType(guessed) == guessed.value)
  {
  }

  /** A stored artifact: its file name, the storage-relative URL of its file and its bytes. */
  datatype Artifact = Artifact(fileName: string, fileUrl: string, data: Bytes)

  /** The two results of `create_image_content`: inline bytes, or a URL the model must download. */
  datatype ImageContent =
    | Inline(content: BinaryContent)
    | Linked(url: string, forceDownload: bool)

  /** How `create_image_content` fails: the lookup's validation error for text that is
      not a UUID (`get_artifact_by_uuid` catches only a missing row), or the `ValueError`
      for a UUID with no artifact. */
  datatype ArtifactError = InvalidUuid(value: string) | ArtifactNotFound(message: string)

  /** `create_image_content` over the artifacts table, which is keyed by the parsed
      `Uuid`: the text `artifactUuidText` is parsed first, and `guessType` stands for the
      media-type guess from a file name. */
  function CreateImageContent(artifacts: map<Uuid, Artifact>, artifactUuidText: string, useBinary: bool,
                              guessType: string -> Option<string>, baseUrl: Option<string>): (r: Result<ImageContent, ArtifactError>)
    ensures r.Err? <==> ParseUuid(artifactUuidText).None? || ParseUuid(artifactUuidText).value !in artifacts
    ensures ParseUuid(artifactUuidText).None? ==> r == Err(InvalidUuid(artifactUuidText))
    ensures ParseUuid(artifactUuidText).Some? && r.Err? ==> r.error == ArtifactNotFound("Artifact not found: " + artifactUuidText)
    ensures r.Ok? ==> (r.value.Inline? <==> useBinary)
    ensures r.Ok? && useBinary ==>
      && r.value.content.data == artifacts[ParseUuid(artifactUuidText).value].data
      && StartsWith(r.value.content.mediaType, "image/")
      && r.value.content.mediaType == ImageMediaType(guessType(artifacts[ParseUuid(artifactUuidText).value].fileName))
      && r.value.content.identifier.None? && r.value.content.vendorMetadata.None?
    ensures r.Ok? && !useBinary ==>
      && r.value.forceDownload
      && EndsWith(r.value.url, artifacts[ParseUuid(artifactUuidText).value].fileUrl)
      && r.value.url == BuildAbsoluteUrl(baseUrl, artifacts[ParseUuid(artifactUuidText).value].fileUrl)
  {
    match ParseUuid(artifactUuidText)
    case None => Err(InvalidUuid(artifactUuidText))
    case Some(id) =>
      if id !in artifacts then Err(ArtifactNotFound("Artifact not found: " + artifactUuidText))
      else
        var artifact := artifacts[id];
        if useBinary then
          Ok(Inline(BinaryContent(artifact.data, ImageMediaType(guessType(artifact.fileName)), None, None)))
        else
          Ok(Linked(BuildAbsoluteUrl(baseUrl, artifact.fileUrl), true))
  }

  /** Two spellings of the same UUID (upper case, no hyphens, braces, `urn:uuid:`) find
      the same artifact and build the same content. */
  lemma CreateImageContentReadsUuid(artifacts: map<Uuid, Artifact>, a: string, b: string, useBinary: bool,
                                    guessType: string -> Option<string>, baseUrl: Option<string>)
    requires ParseUuid(a).Some? && ParseUuid(a) == ParseUuid(b)
    ensures CreateImageContent(artifacts, a, useBinary, guessType, baseUrl).Ok? <==>
            CreateImageContent(artifacts, b, useBinary, guessType, baseUrl).Ok?
    ensures CreateImageContent(artifacts, a, useBinary, guessType, baseUrl).Ok? ==>
            CreateImageContent(artifacts, a, useBinary, guessType, baseUrl) == CreateImageContent(artifacts, b, useBinary, guessType, baseUrl)
  {
  }
}

=== FILE: channels.dfy ===
/** Who may subscribe to which server-sent event channel. */
module Channels {
  import opened Wrappers
  import opened Text
  import opened Stories
  import opened Uuids

  /** The requesting user; `None` when there is none at all. */
  datatype User = User(id: nat, authenticated: bool)

  /** The story id a `story-` channel names: everything after its first six characters. */
  function StoryIdOf(channel: string): string
    requires StartsWith(channel, "story-")
  {
    channel[6..]
  }

  /** What the story lookup of a `story-` channel can raise: the validation error of a
      story id that is not UUID text. */
  datatype ChannelError = InvalidStoryId(storyId: string)

  /** Whether some story with this uuid belongs to this user. */
  predicate Owns(stories: seq<Story>, storyId: Uuid, userId: nat)
  {
    exists i :: 0 <= i < |stories| && stories[i].uuid == storyId && stories[i].owner == userId
  }

  /** `can_read_channel`: a `user-` channel is readable by an authenticated user whose
      decimal id follows the prefix. A `story-` channel names a story by uuid text, which
      the lookup parses first (text that does not parse is a validation error, whoever
      asks); it is readable by an authenticated user who owns that story. Nothing else is
      readable by anyone. */
  function CanReadChannel(user: Option<User>, channel: string, stories: seq<Story>): (r: Result<bool, ChannelError>)
    ensures r.Err? <==> !StartsWith(channel, "user-") && StartsWith(channel, "story-") && ParseUuid(channel[6..]).None?
    ensures r.Err? ==> r.error == InvalidStoryId(channel[6..])
    ensures r == Ok(true) ==> user.Some? && user.value.authenticated
  {
    if StartsWith(channel, "user-") then
      Ok(user.Some? && user.value.authenticated && StartsWith(channel, "user-" + NatToString(user.value.id)))
    else if StartsWith(channel, "story-") then
      match ParseUuid(StoryIdOf(channel))
      case None => Err(InvalidStoryId(StoryIdOf(channel)))
      case Some(storyId) => Ok(user.Some? && user.value.authenticated && Owns(stories, storyId, user.value.id))
    else Ok(false)
  }

  /** Channels with neither prefix are never readable. */
  lemma OnlyKnownChannels(user: Option<User>, channel: string, stories: seq<Story>)
    ensures !StartsWith(channel, "user-") && !StartsWith(channel, "story-") ==> CanReadChannel(user, channel, stories) == Ok(false)
  {
  }

  /** A user's own channel is readable by that user. The test is a prefix test, so
      user 1 may also read `user-12`, while user 12 may not read `user-1`. */
  lemma UserChannelPrefix(stories: seq<Story>)
    ensures CanReadChannel(Some(User(1, true)), "user-1", stories) == Ok(true)
    ensures CanReadChannel(Some(User(1, true)), "user-12", stories) == Ok(true)
    ensures CanReadChannel(Some(User(12, true)), "user-1", stories) == Ok(false)
  {
    assert NatToString(1) == "1";
    assert NatToString(12) == "12";
    assert ("user-" + "1") == "user-1";
    assert "user-12"[..6] == "user-1";
    assert "user-1"[..5] == "user-";
    assert "user-12"[..5] == "user-";
  }

  /** Every `user-` channel is answered without error, and it is readable exactly by an
      authenticated user whose decimal id follows the prefix. */
  lemma UserChannelAccess(user: Option<User>, channel: string, stories: seq<Story>)
    requires StartsWith(channel, "user-")
    ensures CanReadChannel(user, channel, stories).Ok?
    ensures CanReadChannel(user, channel, stories) == Ok(true) <==>
      user.Some? && user.value.authenticated && StartsWith(channel, "user-" + NatToString(user.value.id))
  {
  }

  /** An authenticated user may read the channel named by their own id, whatever follows it. */
  lemma OwnUserChannel(u: User, rest: string, stories: seq<Story>)
    requires u.authenticated
    ensures CanReadChannel(Some(u), "user-" + NatToString(u.id) + rest, stories) == Ok(true)
  {
    var own := "user-" + NatToString(u.id);
    RemovePrefixOfConcat(own, rest);
    assert own[..5] == "user-";
    assert (own + rest)[..5] == own[..5];
  }

  /** The channel of a story names that story again, and it is readable by exactly the
      authenticated users who own a story with that uuid. */
  lemma StoryChannelAccess(story: Story, user: User, stories: seq<Story>)
    ensures StartsWith(Channel(story), "story-") && ParseUuid(StoryIdOf(Channel(story))) == Some(story.uuid)
    ensures CanReadChannel(Some(user), Channel(story), stories) == Ok(user.authenticated && Owns(stories, story.uuid, user.id))
  {
    var c := Channel(story);
    assert StartsWith(c, "story-") by {
      assert c[..6] == "story-";
    }
    assert StoryIdOf(c) == Hyphenated(story.uuid) by {
      assert c[6..] == Hyphenated(story.uuid);
    }
    ParseUuidText(story.uuid);
    StoryChannel(Some(user), Hyphenated(story.uuid), stories);
  }

  /** A `story-` channel is answered from the story id after the prefix alone. */
  lemma StoryChannel(user: Option<User>, storyId: string, stories: seq<Story>)
    ensures CanReadChannel(user, "story-" + storyId, stories) ==
      match ParseUuid(storyId)
      case None => Err(InvalidStoryId(storyId))
      case Some(id) => Ok(user.Some? && user.value.authenticated && Owns(stories, id, user.value.id))
  {
    var c := "story-" + storyId;
    assert StartsWith(c, "story-") by {
      assert c[..6] == "story-";
    }
    assert !StartsWith(c, "user-") by {
      assert c[0] == 's';
    }
    assert StoryIdOf(c) == storyId by {
      assert c[6..] == storyId;
    }
  }

  /** The story id is read as a UUID, not compared as text: the bare digits of a story's
      uuid, or its digits in upper case, with or without hyphens, give the same answer as
      the story's own channel. */
  lemma StoryIdSpellings(story: Story, h: string, user: Option<User>, stories: seq<Story>)
    requires |h| == 32 && forall i :: 0 <= i < |h| ==> IsHexDigit(h[i])
    requires ToLower(h) == story.uuid
    ensures CanReadChannel(user, "story-" + h, stories) == CanReadChannel(user, Channel(story), stories)
    ensures CanReadChannel(user, "story-" + Hyphenated(h), stories) == CanReadChannel(user, Channel(story), stories)
  {
    ParseSpellings(h);
    ParseUuidText(story.uuid);
    StoryChannel(user, h, stories);
    StoryChannel(user, Hyphenated(h), stories);
    StoryChannel(user, Hyphenated(story.uuid), stories);
  }

  /** A story id shorter than a UUID's 32 digits makes the lookup raise, whoever asks:
      `story-abc` is such a channel. */
  lemma ShortStoryIdRaises(user: Option<User>, storyId: string, stories: seq<Story>)
    requires |storyId| < 32
    ensures CanReadChannel(user, "story-" + storyId, stories) == Err(InvalidStoryId(storyId))
  {
    ShortTextNeverParses(storyId);
    StoryChannel(user, storyId, stories);
  }
}

=== FILE: chat_api.dfy ===
/** The chat API's own rules: `meta[key]=value` query parameters, the upload type
    filter, and the owner checks on conversations. */
module ChatApi {
  import opened Wrappers
  import opened Text

  // ---------------------------------------------------------------------------
  // meta[key]=value query parameters
  // ---------------------------------------------------------------------------

  /** A query parameter as the request's parameter list yields it: a name and its value. */
  type Param = (string, string)

  /** A parameter name of the form `meta[...]`. */
  predicate IsMetaName(name: string)
  {
    StartsWith(name, "meta[") && EndsWith(name, "]")
  }

  /** The text between the brackets of a `meta[...]` name. */
  function MetaKey(name: string): string
    requires IsMetaName(name)
  {
    assert name[..5] == "meta[" && name[4] == '[';
    name[5..|name| - 1]
  }

  /** Every key has exactly one parameter name, and that name gives the key back. */
  lemma MetaNameRoundTrip(key: string)
    ensures IsMetaName("meta[" + key + "]")
    ensures MetaKey("meta[" + key + "]") == key
  {
    var name := "meta[" + key + "]";
    assert name[..5] == "meta[";
    assert name[|name| - 1..] == "]";
    assert name[5..|name| - 1] == key;
  }

  /** The meta map the parameters describe: each `meta[key]` parameter sets `key`, a
      later one replacing an earlier one; other parameters contribute nothing. */
  function MetaMap(params: seq<Param>): (m: map<string, string>)
    ensures (forall i :: 0 <= i < |params| ==> !IsMetaName(params[i].0)) ==> m == map[]
    ensures forall i :: 0 <= i < |params| && IsMetaName(params[i].0) ==> MetaKey(params[i].0) in m
  {
    if params == [] then map[]
    else
      var m := MetaMap(params[..|params| - 1]);
      var (name, value) := params[|params| - 1];
      if IsMetaName(name) then m[MetaKey(name) := value] else m
  }

  /** `meta_filter`: the meta map, or nothing when it is empty. */
  function MetaFilter(params: seq<Param>): (r: Option<map<string, string>>)
    ensures r.None? <==> forall i :: 0 <= i < |params| ==> !IsMetaName(params[i].0)
    ensures r.Some? ==> r.value == MetaMap(params) && r.value != map[]
  {
    var m := MetaMap(params);
    if m == map[] then None else Some(m)
  }

  /** The parameter-parsing loop of `list_conversations`. */
  method ParseMeta(params: seq<Param>) returns (filter: Option<map<string, string>>)
    ensures filter == MetaFilter(params)
  {
    var meta: map<string, string> := map[];
    var i := 0;
    while i < |params|
      invariant 0 <= i <= |params|
      invariant meta == MetaMap(params[..i])
    {
      var (name, value) := params[i];
      assert params[..i + 1][..i] == params[..i];
      if IsMetaName(name) {
        meta := meta[MetaKey(name) := value];
      }
      i := i + 1;
    }
    assert params[..i] == params;
    filter := if meta == map[] then None else Some(meta);
  }

  /** A key is in the meta map exactly when some `meta[...]` parameter names it, and its
      value is that of the last such parameter. */
  lemma {:induction false} MetaMapEntries(params: seq<Param>, key: string)
    ensures key in MetaMap(params) <==> exists i :: 0 <= i < |params| && IsMetaName(params[i].0) && MetaKey(params[i].0) == key
    ensures forall i ::
      (0 <= i < |params| && IsMetaName(params[i].0) && MetaKey(params[i].0) == key &&
       forall j :: i < j < |params| && IsMetaName(params[j].0) ==> MetaKey(params[j].0) != key)
      ==> key in MetaMap(params) && MetaMap(params)[key] == params[i].1
    decreases |params|
  {
    if params != [] {
      var init := params[..|params| - 1];
      MetaMapEntries(init, key);
      assert forall i :: 0 <= i < |init| ==> init[i] == params[i];
    }
  }

  /** Parameters that are not `meta[...]` parameters never change the meta filter, and
      the filter is absent exactly when there is no `meta[...]` parameter at all. */
  lemma MetaFilterIgnoresOthers(params: seq<Param>, other: Param)
    requires !IsMetaName(other.0)
    ensures MetaFilter(params + [other]) == MetaFilter(params)
    ensures MetaFilter(params).None? <==> forall i :: 0 <= i < |params| ==> !IsMetaName(params[i].0)
  {
    assert (params + [other])[..|params|] == params;
    assert MetaMap(params + [other]) == MetaMap(params);
  }

  // ---------------------------------------------------------------------------
  // Uploads
  // ---------------------------------------------------------------------------

  datatype Upload = Upload(name: string, contentType: string)

  /** The content types a chat upload may have. */
  const AcceptedTypes: seq<string> := ["image/jpeg", "image/png", "image/webp", "image/jpg"]

  /** The uploads of an accepted content type, in their original order. */
  function Accepted(files: seq<Upload>): (r: seq<Upload>)
    ensures |r| <= |files|
    ensures forall u :: u in r ==> u in files && u.contentType in AcceptedTypes
  {
    if files == [] then []
    else Accepted(files[..|files| - 1]) + (if files[|files| - 1].contentType in AcceptedTypes then [files[|files| - 1]] else [])
  }

  /** The filter works piecewise, so the kept uploads stay in their original order. */
  lemma {:induction false} AcceptedAppend(files: seq<Upload>, more: seq<Upload>)
    ensures Accepted(files + more) == Accepted(files) + Accepted(more)
    decreases |more|
  {
    if more != [] {
      var init := more[..|more| - 1];
      AcceptedAppend(files, init);
      assert (files + more)[..|files + more| - 1] == files + init;
    } else {
      assert files + more == files;
    }
  }

  /** The filter keeps exactly the uploads of an accepted type. */
  lemma {:induction false} AcceptedMembers(files: seq<Upload>)
    ensures forall f :: f in Accepted(files) <==> f in files && f.contentType in AcceptedTypes
    decreases |files|
  {
    if files != [] {
      AcceptedMembers(files[..|files| - 1]);
      assert files == files[..|files| - 1] + [files[|files| - 1]];
    }
  }

  /** The upload loop of `send_chat`: each upload of an accepted type becomes an
      artifact, in order; absent or empty uploads give none. */
  method AcceptedUploads(files: Option<seq<Upload>>) returns (artifacts: seq<Upload>)
    ensures artifacts == if files.Some? then Accepted(files.value) else []
  {
    artifacts := [];
    if files.Some? && files.value != [] {
      var all := files.value;
      var i := 0;
      while i < |all|
        invariant 0 <= i <= |all|
        invariant artifacts == Accepted(all[..i])
      {
        assert all[..i + 1][..i] == all[..i];
        if all[i].contentType in AcceptedTypes {
          artifacts := artifacts + [all[i]];
        }
        i := i + 1;
      }
      assert all[..i] == all;
    }
  }

  // ---------------------------------------------------------------------------
  // Owner checks
  // ---------------------------------------------------------------------------

  datatype Conversation = Conversation(uuid: string, owner: nat, title: string)

  /** A lookup of a missing conversation, or a not-found response. */
  datatype ApiError = DoesNotExist | NotFound(message: string)

  /** `get_conversations`: the conversation, unless it does not exist or the requester
      (absent for an anonymous request) is not its owner. */
  function GetConversation(conversations: map<string, Conversation>, uuid: string, requester: Option<nat>): (r: Result<Conversation, ApiError>)
    ensures r.Ok? <==> uuid in conversations && requester == Some(conversations[uuid].owner)
    ensures r.Ok? ==> r.value == conversations[uuid]
    ensures uuid !in conversations ==> r == Err(DoesNotExist)
    ensures uuid in conversations && requester != Some(conversations[uuid].owner) ==> r == Err(NotFound("Conversation not found"))
  {
    if uuid !in conversations then Err(DoesNotExist)
    else if requester != Some(conversations[uuid].owner) then Err(NotFound("Conversation not found"))
    else Ok(conversations[uuid])
  }

  /** `send_chat` up to enqueueing: the conversation must belong to the requester; then
      the accepted uploads become artifacts. */
  method SendChat(conversations: map<string, Conversation>, uuid: string, requester: Option<nat>, files: Option<seq<Upload>>)
    returns (r: Result<seq<Upload>, ApiError>)
    ensures r.Err? <==> !(uuid in conversations && requester == Some(conversations[uuid].owner))
    ensures r.Err? ==> r.error.NotFound?
    ensures r.Ok? ==> r.value == if files.Some? then Accepted(files.value) else []
  {
    if !(uuid in conversations && requester == Some(conversations[uuid].owner)) {
      return Err(NotFound("No Conversation matches the given query."));
    }
    var artifacts := AcceptedUploads(files);
    r := Ok(artifacts);
  }
}

=== FILE: conversations.dfy ===
/** Conversations and their stored messages: sequential positions per conversation,
    the latest response, and the chat display derived from it. */
module Conversations {
  import opened Wrappers

  datatype Chip = Chip(emoji: string, color: string, value: string)

  /** The structured reply shown in the chat panel. */
  datatype ChatResponse = ChatResponse(message: string, chips: seq<Chip>)

  /** A tool call's arguments: either they validate as a chat response or they do not. */
  datatype ChatArgs = WellFormed(response: ChatResponse) | Malformed

  /** One part of a stored message's JSON content. */
  datatype StoredPart = StoredPart(toolName: Option<string>, args: Option<ChatArgs>)

  /** A stored message's JSON content: its `kind` and, when present, its `parts`. */
  datatype StoredContent = StoredContent(kind: string, parts: Option<seq<StoredPart>>)

  /** A stored message row. Stored rows always have a position: saving assigns one. */
  datatype Row = Row(conversation: nat, content: StoredContent, position: int)

  /** A message about to be saved, whose position may still be unset. */
  datatype Pending = Pending(conversation: nat, content: StoredContent, position: Option<int>)

  // ---------------------------------------------------------------------------
  // Positions
  // ---------------------------------------------------------------------------

  predicate InConversation(rows: seq<Row>, conv: nat, i: int)
  {
    0 <= i < |rows| && rows[i].conversation == conv
  }

  /** The greatest position stored in a conversation, if it has any rows. */
  function MaxPosition(rows: seq<Row>, conv: nat): (m: Option<int>)
    ensures m.None? <==> forall i :: 0 <= i < |rows| ==> rows[i].conversation != conv
    ensures m.Some? ==> exists i :: 0 <= i < |rows| && rows[i].conversation == conv && rows[i].position == m.value
    ensures m.Some? ==> forall i :: 0 <= i < |rows| && rows[i].conversation == conv ==> rows[i].position <= m.value
  {
    if rows == [] then None
    else
      var rest := MaxPosition(rows[..|rows| - 1], conv);
      var last := rows[|rows| - 1];
      if last.conversation != conv then rest
      else if rest.None? || rest.value < last.position then Some(last.position)
      else rest
  }

  /** The position new messages count on from: the greatest stored one, or 0 if none. */
  function LastPosition(rows: seq<Row>, conv: nat): (last: int)
    ensures MaxPosition(rows, conv).None? ==> last == 0
    ensures MaxPosition(rows, conv).Some? ==> last == MaxPosition(rows, conv).value
  {
    MaxPosition(rows, conv).GetOr(0)
  }

  /** The position `save` gives a message: the one it has, or one past the last. */
  function SavedPosition(rows: seq<Row>, m: Pending): (pos: int)
    ensures m.position.None? && MaxPosition(rows, m.conversation).None? ==> pos == 1
    ensures m.position.None? ==> forall i :: InConversation(rows, m.conversation, i) ==> rows[i].position < pos
  {
    if m.position.Some? then m.position.value else LastPosition(rows, m.conversation) + 1
  }

  /** No two rows of one conversation share a position. */
  predicate PositionsUnique(rows: seq<Row>)
  {
    forall i, j :: 0 <= i < j < |rows| && rows[i].conversation == rows[j].conversation ==> rows[i].position != rows[j].position
  }

  /** Saving without a position gives 1 in an empty conversation and otherwise a position
      past every stored one; an explicit position is kept. Either way, an unset position
      never clashes with a stored one. */
  lemma SavedPositionFacts(rows: seq<Row>, m: Pending)
    ensures m.position.Some? ==> SavedPosition(rows, m) == m.position.value
    ensures m.position.None? && MaxPosition(rows, m.conversation).None? ==> SavedPosition(rows, m) == 1
    ensures m.position.None? ==> forall i :: InConversation(rows, m.conversation, i) ==> rows[i].position < SavedPosition(rows, m)
    ensures m.position.None? && PositionsUnique(rows) ==> PositionsUnique(rows + [Row(m.conversation, m.content, SavedPosition(rows, m))])
  {
  }

  /** How many of the messages belong to a conversation. */
  function Count(objs: seq<Pending>, conv: nat): (c: nat)
  {
    if objs == [] then 0
    else Count(objs[..|objs| - 1], conv) + (if objs[|objs| - 1].conversation == conv then 1 else 0)
  }

  /** How many earlier messages of the batch share message `k`'s conversation. */
  function CountBefore(objs: seq<Pending>, k: nat): nat
    requires k < |objs|
  {
    Count(objs[..k], objs[k].conversation)
  }

  /** The position `bulk_create` gives message `k`: its conversation's last position,
      plus one more than the messages of that conversation before it in the batch. */
  function BulkPosition(rows: seq<Row>, objs: seq<Pending>, k: nat): (pos: int)
    requires k < |objs|
    ensures forall i :: InConversation(rows, objs[k].conversation, i) ==> rows[i].position < pos
    ensures MaxPosition(rows, objs[k].conversation).None? ==> 1 <= pos <= k + 1
  {
    CountAtMost(objs[..k], objs[k].conversation);
    LastPosition(rows, objs[k].conversation) + CountBefore(objs, k) + 1
  }

  lemma {:induction false} CountAtMost(objs: seq<Pending>, conv: nat)
    ensures Count(objs, conv) <= |objs|
  {
    if objs != [] {
      CountAtMost(objs[..|objs| - 1], conv);
    }
  }

  lemma {:induction false} CountStep(objs: seq<Pending>, k: nat, conv: nat)
    requires k < |objs|
    ensures Count(objs[..k + 1], conv) == Count(objs[..k], conv) + (if objs[k].conversation == conv then 1 else 0)
  {
    assert objs[..k + 1][..k] == objs[..k];
  }

  lemma {:induction false} CountMonotone(objs: seq<Pending>, m: nat, n: nat, conv: nat)
    requires m <= n <= |objs|
    ensures Count(objs[..m], conv) <= Count(objs[..n], conv)
    decreases n - m
  {
    if m < n {
      CountStep(objs, n - 1, conv);
      CountMonotone(objs, m, n - 1, conv);
    }
  }

  /** Within one conversation, later messages have strictly more predecessors. */
  lemma CountBeforeIncreasing(objs: seq<Pending>, j: nat, k: nat)
    requires j < k < |objs| && objs[j].conversation == objs[k].conversation
    ensures CountBefore(objs, j) < CountBefore(objs, k)
  {
    CountStep(objs, j, objs[k].conversation);
    CountMonotone(objs, j + 1, k, objs[k].conversation);
  }

  /** A message's predecessors are fewer than its conversation's share of the batch. */
  lemma CountBeforeBelowCount(objs: seq<Pending>, k: nat)
    requires k < |objs|
    ensures CountBefore(objs, k) < Count(objs, objs[k].conversation)
  {
    CountStep(objs, k, objs[k].conversation);
    CountMonotone(objs, k + 1, |objs|, objs[k].conversation);
    assert objs[..|objs|] == objs;
  }

  /** In each conversation the batch's positions run from one past the last stored
      position upward without gaps, in batch order, above every stored position. */
  lemma BulkPositionsConsecutive(rows: seq<Row>, objs: seq<Pending>, j: nat, k: nat)
    requires j < |objs| && k < |objs|
    ensures forall i :: InConversation(rows, objs[k].conversation, i) ==> rows[i].position < BulkPosition(rows, objs, k)
    ensures LastPosition(rows, objs[k].conversation) < BulkPosition(rows, objs, k) <= LastPosition(rows, objs[k].conversation) + Count(objs, objs[k].conversation)
    ensures j < k && objs[j].conversation == objs[k].conversation ==> BulkPosition(rows, objs, j) < BulkPosition(rows, objs, k)
  {
    CountBeforeBelowCount(objs, k);
    if j < k && objs[j].conversation == objs[k].conversation {
      CountBeforeIncreasing(objs, j, k);
    }
  }

  /** The rows a batch becomes once every message has its position. */
  function Stored(objs: seq<Pending>): (rows: seq<Row>)
    ensures |rows| == |objs|
  {
    seq(|objs|, k requires 0 <= k < |objs| => Row(objs[k].conversation, objs[k].content, objs[k].position.GetOr(0)))
  }

  /** The batch with positions assigned as `bulk_create` assigns them. */
  function Assigned(rows: seq<Row>, objs: seq<Pending>): (r: seq<Pending>)
    ensures |r| == |objs|
  {
    seq(|objs|, k requires 0 <= k < |objs| => objs[k].(position := Some(BulkPosition(rows, objs, k))))
  }

  /** A bulk insert keeps positions unique within every conversation. */
  lemma BulkCreateKeepsPositionsUnique(rows: seq<Row>, objs: seq<Pending>)
    requires PositionsUnique(rows)
    ensures PositionsUnique(rows + Stored(Assigned(rows, objs)))
  {
    var all := rows + Stored(Assigned(rows, objs));
    forall i, j | 0 <= i < j < |all| && all[i].conversation == all[j].conversation
      ensures all[i].position != all[j].position
    {
      if j >= |rows| {
        var k := j - |rows|;
        BulkPositionsConsecutive(rows, objs, 0, k);
        if i >= |rows| {
          BulkPositionsConsecutive(rows, objs, i - |rows|, k);
        } else {
          assert InConversation(rows, objs[k].conversation, i);
        }
      }
    }
  }

  // ---------------------------------------------------------------------------
  // Stored messages
  // ---------------------------------------------------------------------------

  class MessageTable {
    var rows: seq<Row>

    constructor(rows: seq<Row>)
      ensures this.rows == rows
    {
      this.rows := rows;
    }

    /** `Message.save`: an unset position becomes one past the conversation's last. */
    method Save(m: Pending) returns (row: Row)
      modifies this
      ensures row == Row(m.conversation, m.content, SavedPosition(old(rows), m))
      ensures rows == old(rows) + [row]
    {
      var position: int;
      if m.position.None? {
        var last := MaxPosition(rows, m.conversation);
        position := last.GetOr(0) + 1;
      } else {
        position := m.position.value;
      }
      row := Row(m.conversation, m.content, position);
      rows := rows + [row];
    }

    /** `MessageManager.bulk_create`: groups the batch by conversation, gives each
        group's messages consecutive positions after the conversation's last, then
        inserts them all. The messages' own positions are overwritten, set or not. */
    method BulkCreate(objs: array<Pending>)
      modifies this, objs
      ensures objs[..] == Assigned(old(rows), old(objs[..]))
      ensures rows == old(rows) + Stored(objs[..])
    {
      ghost var original := objs[..];
      var groups, order := GroupByConversation(objs[..]);
      var g := 0;
      while g < |order|
        invariant 0 <= g <= |order|
        invariant rows == old(rows)
        invariant forall j :: 0 <= j < objs.Length ==> objs[j] == original[j].(position := objs[j].position)
        invariant forall j :: 0 <= j < objs.Length && original[j].conversation in order[..g] ==>
          objs[j].position == Some(BulkPosition(rows, original, j))
        invariant forall j :: 0 <= j < objs.Length && original[j].conversation !in order[..g] ==>
          objs[j].position == original[j].position
      {
        AssignGroup(objs, original, order[g], groups[order[g]]);
        assert order[..g + 1] == order[..g] + [order[g]];
        g := g + 1;
      }
      assert order[..g] == order;
      forall j | 0 <= j < objs.Length
        ensures objs[j] == Assigned(old(rows), original)[j]
      {
        assert original[j].conversation in order;
      }
      assert objs[..] == Assigned(old(rows), original);
      rows := rows + Stored(objs[..]);
    }

    /** One group: its messages, in batch order, get the positions after the
        conversation's last stored position. */
    method AssignGroup(objs: array<Pending>, ghost original: seq<Pending>, conv: nat, members: seq<nat>)
      modifies objs
      requires |original| == objs.Length
      requires Members(original, conv, members)
      requires forall j :: 0 <= j < objs.Length ==> objs[j] == original[j].(position := objs[j].position)
      ensures forall j :: 0 <= j < objs.Length ==> objs[j] == original[j].(position := objs[j].position)
      ensures forall j :: 0 <= j < objs.Length && original[j].conversation == conv ==>
        objs[j].position == Some(BulkPosition(rows, original, j))
      ensures forall j :: 0 <= j < objs.Length && original[j].conversation != conv ==> objs[j] == old(objs[j])
    {
      var last := MaxPosition(rows, conv).GetOr(0);
      var i := 0;
      while i < |members|
        invariant 0 <= i <= |members|
        invariant forall j :: 0 <= j < objs.Length ==> objs[j] == original[j].(position := objs[j].position)
        invariant forall j :: 0 <= j < objs.Length && original[j].conversation == conv && CountBefore(original, j) < i ==>
          objs[j].position == Some(BulkPosition(rows, original, j))
        invariant forall j :: 0 <= j < objs.Length && (original[j].conversation != conv || CountBefore(original, j) >= i) ==>
          objs[j] == old(objs[j])
      {
        var idx := members[i];
        forall j | 0 <= j < objs.Length && j != idx && original[j].conversation == conv
          ensures CountBefore(original, j) != i
        {
          if j < idx {
            CountBeforeIncreasing(original, j, idx);
          } else {
            CountBeforeIncreasing(original, idx, j);
          }
        }
        objs[idx] := objs[idx].(position := Some(last + i + 1));
        i := i + 1;
      }
      forall j | 0 <= j < objs.Length && original[j].conversation == conv
        ensures CountBefore(original, j) < i
      {
        CountBeforeBelowCount(original, j);
      }
    }
  }

  /** `members` lists, in batch order, exactly the messages of conversation `conv`. */
  ghost predicate Members(objs: seq<Pending>, conv: nat, members: seq<nat>)
  {
    |members| == Count(objs, conv) &&
    forall i :: 0 <= i < |members| ==>
      members[i] < |objs| && objs[members[i]].conversation == conv && CountBefore(objs, members[i]) == i
  }

  /** The grouping step of `bulk_create`: for each conversation of the batch, in order of
      first appearance, the list of its messages in batch order. */
  method GroupByConversation(objs: seq<Pending>) returns (groups: map<nat, seq<nat>>, order: seq<nat>)
    ensures forall c :: c in groups <==> c in order
    ensures forall a, b :: 0 <= a < b < |order| ==> order[a] != order[b]
    ensures forall c :: c in groups ==> Members(objs, c, groups[c])
    ensures forall j :: 0 <= j < |objs| ==> objs[j].conversation in groups
  {
    groups := map[];
    order := [];
    var k := 0;
    while k < |objs|
      invariant 0 <= k <= |objs|
      invariant forall c :: c in groups <==> c in order
      invariant forall a, b :: 0 <= a < b < |order| ==> order[a] != order[b]
      invariant forall c :: c !in groups ==> Count(objs[..k], c) == 0
      invariant forall c :: c in groups ==> |groups[c]| == Count(objs[..k], c)
      invariant forall c, i :: c in groups && 0 <= i < |groups[c]| ==>
        groups[c][i] < k && objs[groups[c][i]].conversation == c && CountBefore(objs, groups[c][i]) == i
    {
      var c := objs[k].conversation;
      forall d
        ensures Count(objs[..k + 1], d) == Count(objs[..k], d) + (if c == d then 1 else 0)
      {
        CountStep(objs, k, d);
      }
      if c !in groups {
        groups := groups[c := []];
        order := order + [c];
      }
      groups := groups[c := groups[c] + [k]];
      k := k + 1;
    }
    assert objs[..k] == objs;
    forall j | 0 <= j < |objs|
      ensures objs[j].conversation in groups
    {
      CountBeforeBelowCount(objs, j);
    }
  }

  // ---------------------------------------------------------------------------
  // Latest response and chat display
  // ---------------------------------------------------------------------------

  /** A response message of the conversation. */
  predicate IsResponse(row: Row, conv: nat)
  {
    row.conversation == conv && row.content.kind == "response"
  }

  /** `latest_response`: the conversation's response message with the greatest position. */
  function LatestResponse(rows: seq<Row>, conv: nat): (r: Option<Row>)
    ensures r.None? <==> forall i :: 0 <= i < |rows| ==> !IsResponse(rows[i], conv)
    ensures r.Some? ==> IsResponse(r.value, conv) && r.value in rows
    ensures r.Some? ==> forall i :: 0 <= i < |rows| && IsResponse(rows[i], conv) ==> rows[i].position <= r.value.position
  {
    if rows == [] then None
    else
      var rest := LatestResponse(rows[..|rows| - 1], conv);
      var last := rows[|rows| - 1];
      if !IsResponse(last, conv) then rest
      else if rest.None? || rest.value.position < last.position then Some(last)
      else rest
  }

  predicate IsFinalResult(p: StoredPart)
  {
    p.toolName == Some("final_result")
  }

  /** The index of the first `final_result` tool part, if any. */
  function FirstFinalResult(parts: seq<StoredPart>): (r: Option<nat>)
    ensures r.None? <==> forall i :: 0 <= i < |parts| ==> !IsFinalResult(parts[i])
    ensures r.Some? ==>
      r.value < |parts| && IsFinalResult(parts[r.value]) &&
      forall i :: 0 <= i < r.value ==> !IsFinalResult(parts[i])
  {
    if parts == [] then None
    else if IsFinalResult(parts[0]) then Some(0)
    else
      var rest := FirstFinalResult(parts[1..]);
      assert forall i :: 0 < i < |parts| ==> parts[i] == parts[1..][i - 1];
      if rest.None? then None else Some(rest.value + 1)
  }

  /** Why the chat display cannot be built: the final result's arguments are missing or
      do not validate. */
  datatype DisplayError = MissingArgs | InvalidArgs

  /** The reply shown when there is nothing else to show. */
  const DefaultResponse: ChatResponse := ChatResponse(
    "What sounds fun right now?",
    [ Chip("\U{1F31F}", "sky", "Cook up something new"),
      Chip("\U{1F6E0}\U{FE0F}", "emerald", "Build on our story"),
      Chip("\U{1F916}", "violet", "Ask the writer bot") ])

  /** `chat_display`. */
  function ChatDisplay(rows: seq<Row>, conv: nat): (r: Result<ChatResponse, DisplayError>)
    ensures LatestResponse(rows, conv).None? ==> r == Ok(DefaultResponse)
    ensures r.Ok? && r.value != DefaultResponse ==>
      var parts := LatestResponse(rows, conv).value.content.parts.GetOr([]);
      exists i :: 0 <= i < |parts| && IsFinalResult(parts[i]) && parts[i].args == Some(WellFormed(r.value))
    ensures r.Err? ==> LatestResponse(rows, conv).Some?
  {
    var latest := LatestResponse(rows, conv);
    if latest.None? then Ok(DefaultResponse)
    else
      var parts := latest.value.content.parts.GetOr([]);
      var found := FirstFinalResult(parts);
      if found.None? then Ok(DefaultResponse)
      else
        match parts[found.value].args
        case None => Err(MissingArgs)
        case Some(Malformed) => Err(InvalidArgs)
        case Some(WellFormed(response)) => Ok(response)
  }

  /** With no response in the conversation, or no final result in the latest one, the
      display is the fixed default with exactly three chips. Otherwise the first final
      result of the latest response decides: its well-formed arguments are the display,
      missing arguments raise `MissingArgs` (the `KeyError`) and arguments that do not
      validate raise `InvalidArgs` (the `ValidationError`). */
  lemma ChatDisplayChoice(rows: seq<Row>, conv: nat)
    ensures var latest := LatestResponse(rows, conv);
      (latest.None? || FirstFinalResult(latest.value.content.parts.GetOr([])).None?) ==>
        ChatDisplay(rows, conv) == Ok(DefaultResponse) && |DefaultResponse.chips| == 3
    ensures var latest := LatestResponse(rows, conv);
      latest.Some? ==>
        var parts := latest.value.content.parts.GetOr([]);
        forall i ::
          (0 <= i < |parts| && IsFinalResult(parts[i]) && parts[i].args.Some? && parts[i].args.value.WellFormed? &&
           forall j :: 0 <= j < i ==> !IsFinalResult(parts[j]))
          ==> ChatDisplay(rows, conv) == Ok(parts[i].args.value.response)
    ensures var latest := LatestResponse(rows, conv);
      latest.Some? ==>
        var parts := latest.value.content.parts.GetOr([]);
        forall i ::
          (0 <= i < |parts| && IsFinalResult(parts[i]) && forall j :: 0 <= j < i ==> !IsFinalResult(parts[j]))
          ==> (parts[i].args.None? ==> ChatDisplay(rows, conv) == Err(MissingArgs)) &&
              (parts[i].args == Some(Malformed) ==> ChatDisplay(rows, conv) == Err(InvalidArgs))
  {
    var latest := LatestResponse(rows, conv);
    if latest.Some? {
      var parts := latest.value.content.parts.GetOr([]);
      forall i | 0 <= i < |parts| && IsFinalResult(parts[i]) && (forall j :: 0 <= j < i ==> !IsFinalResult(parts[j]))
        ensures FirstFinalResult(parts) == Some(i)
      {
        var f := FirstFinalResult(parts);
        assert f.Some?;
        assert !(f.value < i);
        assert !(f.value > i);
      }
    }
  }
}

=== FILE: image_upload.dfy ===
/** The image-upload widget of the web client: the `accept`-attribute file filter,
    the drag-over check against a fixed extension table, the hover/drag/upload
    flags the handlers update, and the name a downloaded image is saved under.
    The DOM is reduced to the flags and fields the handlers read and write. */
module ImageUpload {
  import opened Wrappers
  import opened Text

  /** A browser `File`: its name and its MIME type (`file.type`). */
  datatype File = File(name: string, mimeType: string)

  /** An entry of `dataTransfer.items` during a drag: its `kind` and `type`. */
  datatype DragItem = DragItem(kind: string, mimeType: string)

  /** The comma-separated entries of an `accept` attribute, each trimmed. */
  function AcceptEntries(accept: string): (r: seq<string>)
    ensures |r| == |Split(accept, ',')|
    ensures forall i :: 0 <= i < |r| ==> r[i] == Trim(Split(accept, ',')[i])
  {
    var pieces := Split(accept, ',');
    seq(|pieces|, i requires 0 <= i < |pieces| => Trim(pieces[i]))
  }

  /** No entry holds a comma, and none starts or ends with white space. */
  lemma AcceptEntriesShape(accept: string)
    ensures forall i :: 0 <= i < |AcceptEntries(accept)| ==> ',' !in AcceptEntries(accept)[i]
    ensures forall e :: e in AcceptEntries(accept) ==> e == [] || (!IsSpace(e[0]) && !IsSpace(e[|e| - 1]))
  {
    var r := AcceptEntries(accept);
    var pieces := Split(accept, ',');
    forall i | 0 <= i < |r| ensures ',' !in r[i] {
      assert forall c :: c in Trim(pieces[i]) ==> c in pieces[i];
    }
  }

  /** `'.' + file.name.split('.').pop().toLowerCase()`. */
  function FileExtension(name: string): (ext: string)
    ensures |ext| == |LastPiece(name, '.')| + 1 && ext[0] == '.'
  {
    "." + ToLower(LastPiece(name, '.'))
  }

  /** An extension is a dot followed by a dot-free, lower-cased last segment of the name. */
  lemma FileExtensionShape(name: string)
    ensures |FileExtension(name)| >= 1 && FileExtension(name)[0] == '.'
    ensures '.' !in FileExtension(name)[1..]
    ensures forall i :: 1 <= i < |FileExtension(name)| ==> !('A' <= FileExtension(name)[i] <= 'Z')
  {
    var last := LastPiece(name, '.');
    var lower := ToLower(last);
    forall i | 0 <= i < |lower| ensures lower[i] != '.' {
      assert last[i] != '.';
    }
    assert FileExtension(name)[1..] == lower;
  }

  /** Whether one accept entry admits a file: a `.ext` entry compares with the
      lower-cased extension; any other entry compares with the MIME type, which
      may also merely start with the entry with its first `*` removed. */
  predicate EntryMatches(entry: string, file: File)
    ensures !StartsWith(entry, ".") && file.mimeType == entry ==> EntryMatches(entry, file)
    ensures !StartsWith(entry, ".") && '*' !in entry ==> (EntryMatches(entry, file) <==> StartsWith(file.mimeType, entry))
  {
    if StartsWith(entry, ".") then entry == FileExtension(file.name)
    else file.mimeType == entry || StartsWith(file.mimeType, ReplaceFirst(entry, '*', ""))
  }

  /** `allowedTypes.some(...)`: succeeds exactly when some entry admits the file. */
  predicate AnyEntryMatches(entries: seq<string>, file: File)
    ensures AnyEntryMatches(entries, file) <==> exists i :: 0 <= i < |entries| && EntryMatches(entries[i], file)
  {
    if entries == [] then false
    else
      var init := entries[..|entries| - 1];
      assert forall i :: 0 <= i < |init| ==> init[i] == entries[i];
      AnyEntryMatches(init, file) || EntryMatches(entries[|entries| - 1], file)
  }

  /** `isFileTypeAllowed`: an absent or empty `accept` attribute allows every file. */
  predicate IsFileTypeAllowed(file: File, accept: Option<string>)
    ensures accept.None? || accept.value == "" ==> IsFileTypeAllowed(file, accept)
    ensures accept.Some? && accept.value != "" ==>
      (IsFileTypeAllowed(file, accept) <==>
        exists i :: 0 <= i < |AcceptEntries(accept.value)| && EntryMatches(AcceptEntries(accept.value)[i], file))
  {
    accept.None? || accept.value == "" ||
      AnyEntryMatches(AcceptEntries(accept.value), file)
  }

  /** A `.ext` entry admits a file by its name alone, whatever its MIME type. */
  lemma ExtensionEntryIgnoresMime(entry: string, name: string, mime1: string, mime2: string)
    requires StartsWith(entry, ".")
    ensures EntryMatches(entry, File(name, mime1)) <==> EntryMatches(entry, File(name, mime2))
    ensures EntryMatches(entry, File(name, mime1)) ==> '.' !in entry[1..]
  {
    FileExtensionShape(name);
  }

  /** An empty entry, as a doubled or trailing comma produces, admits every file. */
  lemma EmptyEntryAdmitsAll(entries: seq<string>, file: File)
    requires "" in entries
    ensures AnyEntryMatches(entries, file)
  {
    var i :| 0 <= i < |entries| && entries[i] == "";
    assert !StartsWith("", ".");
    assert EntryMatches("", file);
  }

  /** So an accept attribute ending in a comma admits every file. */
  lemma TrailingCommaAdmitsAll(accept: string, file: File)
    ensures IsFileTypeAllowed(file, Some(accept + ","))
  {
    SplitTrailingSeparator(accept, ',');
    var pieces := Split(accept + ",", ',');
    var entries := AcceptEntries(accept + ",");
    assert pieces[|pieces| - 1] == "";
    assert entries[|pieces| - 1] == Trim("") == "";
    EmptyEntryAdmitsAll(entries, file);
  }

  /** The fixed extension table used while dragging. */
  function ExtensionMime(ext: string): (r: Option<string>)
    ensures r.Some? <==> ext in {".jpg", ".jpeg", ".png", ".webp", ".gif", ".bmp", ".svg"}
    ensures r.Some? ==> StartsWith(r.value, "image/")
  {
    if ext == ".jpg" || ext == ".jpeg" then Some("image/jpeg")
    else if ext == ".png" then Some("image/png")
    else if ext == ".webp" then Some("image/webp")
    else if ext == ".gif" then Some("image/gif")
    else if ext == ".bmp" then Some("image/bmp")
    else if ext == ".svg" then Some("image/svg+xml")
    else None
  }

  /** What an accept entry contributes to the drag-time set: a `.ext` entry its
      table type (nothing when unknown), any other entry itself. */
  function DragMime(entry: string): (r: Option<string>)
    ensures !StartsWith(entry, ".") ==> r == Some(entry)
    ensures StartsWith(entry, ".") && r.Some? ==> StartsWith(r.value, "image/")
  {
    if StartsWith(entry, ".") then ExtensionMime(ToLower(entry)) else Some(entry)
  }

  /** A MIME type is in the drag-time set of `entries`. */
  predicate DragAllowed(entries: seq<string>, mime: string) {
    exists i :: 0 <= i < |entries| && DragMime(entries[i]) == Some(mime)
  }

  /** The `allowedMimeTypes` set the drag-over handler builds from the accept entries. */
  method AllowedMimeTypes(entries: seq<string>) returns (allowed: set<string>)
    ensures forall t :: t in allowed <==> DragAllowed(entries, t)
  {
    allowed := {};
    var i := 0;
    while i < |entries|
      invariant 0 <= i <= |entries|
      invariant forall t :: t in allowed <==> exists j :: 0 <= j < i && DragMime(entries[j]) == Some(t)
    {
      var m := DragMime(entries[i]);
      if m.Some? {
        allowed := allowed + {m.value};
      }
      i := i + 1;
    }
  }

  /** The drag-over scan: some file item's type is missing from `allowed`. */
  method HasInvalidFile(items: seq<DragItem>, allowed: set<string>) returns (invalid: bool)
    ensures invalid <==> exists i :: 0 <= i < |items| && items[i].kind == "file" && items[i].mimeType !in allowed
  {
    invalid := false;
    var i := 0;
    while i < |items|
      invariant 0 <= i <= |items|
      invariant !invalid
      invariant forall j :: 0 <= j < i ==> !(items[j].kind == "file" && items[j].mimeType !in allowed)
    {
      if items[i].kind == "file" && items[i].mimeType !in allowed {
        invalid := true;
        break;
      }
      i := i + 1;
    }
  }

  /** The drag-over verdict: with a file input, dragged items and a non-empty
      accept attribute, some file item's type is outside the drag-time set. */
  predicate DragInvalid(items: seq<DragItem>, hasFileInput: bool, accept: Option<string>)
    ensures DragInvalid(items, hasFileInput, accept) ==> exists i :: 0 <= i < |items| && items[i].kind == "file"
    ensures !hasFileInput || accept.None? ==> !DragInvalid(items, hasFileInput, accept)
  {
    && |items| > 0 && hasFileInput && accept.Some? && accept.value != ""
    && exists i :: 0 <= i < |items| && items[i].kind == "file" && !DragAllowed(AcceptEntries(accept.value), items[i].mimeType)
  }

  /** A wildcard entry such as `image/` followed by a star admits a dropped file of any
      subtype, but the same file dragged over the widget is flagged invalid: the
      drag-time set holds the wildcard entry literally. */
  lemma WildcardDropVersusDrag(prefix: string, subtype: string, name: string)
    requires prefix != [] && prefix[0] != '.' && !IsSpace(prefix[0])
    requires ',' !in prefix && '*' !in prefix
    requires subtype != "*"
    ensures IsFileTypeAllowed(File(name, prefix + subtype), Some(prefix + "*"))
    ensures DragInvalid([DragItem("file", prefix + subtype)], true, Some(prefix + "*"))
  {
    var wildcard := prefix + "*";
    var mime := prefix + subtype;
    assert wildcard[..|prefix|] == prefix;
    assert ',' !in wildcard;
    SplitWithoutSeparator(wildcard, ',');
    assert TrimStart(wildcard) == wildcard;
    assert TrimEnd(wildcard) == wildcard;
    var entries := AcceptEntries(wildcard);
    assert entries == [wildcard];
    assert !StartsWith(wildcard, ".");
    ReplaceFirstAt(wildcard, '*', "", |prefix|);
    assert wildcard[..|prefix|] + "" + wildcard[|prefix| + 1..] == prefix;
    assert mime[..|prefix|] == prefix;
    assert EntryMatches(entries[0], File(name, mime));
    assert DragMime(wildcard) == Some(wildcard);
    assert !DragAllowed(entries, mime);
    var items := [DragItem("file", mime)];
    assert items[0].kind == "file" && !DragAllowed(AcceptEntries(wildcard), items[0].mimeType);
  }

  /** The files `keep` admits, in their original order. */
  function Filter(files: seq<File>, keep: File -> bool): (r: seq<File>)
    ensures |r| <= |files|
  {
    if files == [] then []
    else
      var kept := Filter(files[..|files| - 1], keep);
      var last := files[|files| - 1];
      if keep(last) then kept + [last] else kept
  }

  /** `isFileTypeAllowed` against one accept attribute, as a test on files. */
  function Admits(accept: Option<string>): File -> bool {
    file => IsFileTypeAllowed(file, accept)
  }

  /** `handleFileDrop`'s filter: the allowed files, in their original order. */
  function AllowedFiles(files: seq<File>, accept: Option<string>): (r: seq<File>)
    ensures |r| <= |files|
    ensures forall f :: f in r <==> f in files && IsFileTypeAllowed(f, accept)
  {
    FilterMembers(files, Admits(accept));
    Filter(files, Admits(accept))
  }

  /** Filtering a list made of two parts filters each part and keeps their order. */
  lemma {:induction false} FilterAppend(a: seq<File>, b: seq<File>, keep: File -> bool)
    ensures Filter(a + b, keep) == Filter(a, keep) + Filter(b, keep)
  {
    if b == [] {
      assert a + b == a;
    } else {
      var init := b[..|b| - 1];
      FilterAppend(a, init, keep);
      assert (a + b)[..|a + b| - 1] == a + init;
      assert (a + b)[|a + b| - 1] == b[|b| - 1];
    }
  }

  /** A single file is kept exactly when it is admitted. */
  lemma FilterSingle(f: File, keep: File -> bool)
    ensures Filter([f], keep) == if keep(f) then [f] else []
  {
    assert [f][..0] == [];
  }

  /** The kept files are the admitted files of the list, no more and no fewer. */
  lemma {:induction false} FilterMembers(files: seq<File>, keep: File -> bool)
    ensures forall f :: f in Filter(files, keep) <==> f in files && keep(f)
  {
    if files != [] {
      var init := files[..|files| - 1];
      FilterMembers(init, keep);
      assert files == init + [files[|files| - 1]];
    }
  }

  /** Something is kept exactly when some file is admitted. */
  lemma FilterNonEmpty(files: seq<File>, keep: File -> bool)
    ensures Filter(files, keep) != [] <==> exists i :: 0 <= i < |files| && keep(files[i])
  {
    FilterMembers(files, keep);
    var kept := Filter(files, keep);
    if kept != [] {
      assert kept[0] in kept;
    }
    if exists i :: 0 <= i < |files| && keep(files[i]) {
      var i :| 0 <= i < |files| && keep(files[i]);
      assert files[i] in files;
    }
  }

  /** The first kept file is the first admitted file of the list. */
  lemma {:induction false} FilterFirst(files: seq<File>, keep: File -> bool)
    requires Filter(files, keep) != []
    ensures exists k :: && 0 <= k < |files| && files[k] == Filter(files, keep)[0] && keep(files[k])
                        && (forall j :: 0 <= j < k ==> !keep(files[j]))
  {
    var init := files[..|files| - 1];
    var last := files[|files| - 1];
    var kept := Filter(init, keep);
    if kept == [] {
      var k := |files| - 1;
      FilterMembers(init, keep);
      forall j | 0 <= j < k ensures !keep(files[j]) {
        assert files[j] == init[j] && init[j] in init;
      }
      assert Filter(files, keep) == [last];
      assert files[k] == Filter(files, keep)[0] && keep(files[k]);
    } else {
      FilterFirst(init, keep);
      var k :| && 0 <= k < |init| && init[k] == kept[0] && keep(init[k])
               && (forall j :: 0 <= j < k ==> !keep(init[j]));
      assert Filter(files, keep)[0] == kept[0];
      forall j | 0 <= j < k ensures !keep(files[j]) {
        assert files[j] == init[j];
      }
      assert files[k] == init[k];
    }
  }

  /** On a drop, some file is kept exactly when some dropped file is allowed, and the
      first kept file is the first allowed one. */
  lemma FirstAllowedFile(files: seq<File>, accept: Option<string>)
    ensures AllowedFiles(files, accept) != [] <==> exists i :: 0 <= i < |files| && IsFileTypeAllowed(files[i], accept)
    ensures AllowedFiles(files, accept) != [] ==>
      exists k :: && 0 <= k < |files| && files[k] == AllowedFiles(files, accept)[0]
                  && IsFileTypeAllowed(files[k], accept)
                  && (forall j :: 0 <= j < k ==> !IsFileTypeAllowed(files[j], accept))
  {
    var keep := Admits(accept);
    assert forall f :: keep(f) == IsFileTypeAllowed(f, accept);
    FilterNonEmpty(files, keep);
    if Filter(files, keep) != [] {
      FilterFirst(files, keep);
    }
  }

  /** The loop of `handleFileDrop` that pushes each allowed file. */
  method ValidFiles(files: seq<File>, accept: Option<string>) returns (valid: seq<File>)
    ensures valid == AllowedFiles(files, accept)
  {
    valid := [];
    var i := 0;
    while i < |files|
      invariant 0 <= i <= |files|
      invariant valid == Filter(files[..i], Admits(accept))
    {
      assert files[..i + 1][..i] == files[..i];
      assert Admits(accept)(files[i]) == IsFileTypeAllowed(files[i], accept);
      if IsFileTypeAllowed(files[i], accept) {
        valid := valid + [files[i]];
      }
      i := i + 1;
    }
    assert files[..i] == files;
  }

  /** The name `downloadImage` saves under: a name without a dot gains the URL's
      last dot-segment, with any query string removed. */
  function DownloadName(fileName: string, url: string): (r: string)
    ensures '.' in r
    ensures '.' in fileName ==> r == fileName
  {
    if '.' in fileName then fileName
    else
      var ext := FirstPiece(LastPiece(url, '.'), '?');
      var r := fileName + "." + ext;
      assert r[|fileName|] == '.';
      r
  }

  /** A derived name is the original name, a dot, and an extension free of dots and query marks. */
  lemma DownloadNameShape(fileName: string, url: string)
    requires '.' !in fileName
    ensures var r := DownloadName(fileName, url);
      && StartsWith(r, fileName + ".")
      && '.' !in r[|fileName| + 1..] && '?' !in r[|fileName| + 1..]
  {
    var ext := FirstPiece(LastPiece(url, '.'), '?');
    var r := DownloadName(fileName, url);
    assert r == (fileName + ".") + ext;
    assert r[|fileName| + 1..] == ext;
    assert r[..|fileName| + 1] == fileName + ".";
    assert forall c :: c in ext ==> c in LastPiece(url, '.') by {
      var pieces := Split(LastPiece(url, '.'), '?');
      JoinSplit(LastPiece(url, '.'), '?');
      FirstPieceIsPrefix(LastPiece(url, '.'), '?');
    }
  }

  /** The first piece of a split is a prefix of the split string. */
  lemma {:induction false} FirstPieceIsPrefix(s: string, sep: char)
    ensures |FirstPiece(s, sep)| <= |s| && FirstPiece(s, sep) == s[..|FirstPiece(s, sep)|]
  {
    if s != [] && s[0] != sep {
      FirstPieceIsPrefix(s[1..], sep);
    }
  }

  /** Downloading again under the derived name keeps it. */
  lemma DownloadNameIdempotent(fileName: string, url: string, url': string)
    ensures DownloadName(DownloadName(fileName, url), url') == DownloadName(fileName, url)
  {
  }

  /** What the widget shows and holds. `dark` and `red` are the two overlay class
      groups; the invalid-file indicator is visible with the red group. */
  datatype Widget = Widget(
    isDragging: bool,
    isHovering: bool,
    isUploading: bool,
    dark: bool,
    red: bool,
    fileName: string,
    inputFiles: seq<File>,
    changeEvents: nat)

  /** What the handlers find around them: whether the container and the file input
      exist, and the input's `accept` attribute. */
  datatype Setup = Setup(hasContainer: bool, hasFileInput: bool, accept: Option<string>)

  function OverlayShown(setup: Setup, w: Widget): Widget {
    if setup.hasContainer then w.(dark := true) else w
  }

  function RedOverlayShown(setup: Setup, w: Widget): Widget {
    if setup.hasContainer then w.(red := true) else w
  }

  function OverlayHidden(setup: Setup, w: Widget): Widget {
    if setup.hasContainer then w.(dark := false, red := false) else w
  }

  /** Hovering shows the overlay, unless a drag or an upload is under way. */
  function MouseEnter(setup: Setup, w: Widget): (r: Widget)
    ensures w.isUploading ==> r == w
    ensures HoverExcludesDrag(w) ==> HoverExcludesDrag(r)
    ensures !w.isDragging && !w.isUploading ==> r.isHovering
  {
    if !w.isDragging && !w.isUploading then OverlayShown(setup, w).(isHovering := true) else w
  }

  /** Leaving hides the overlay, unless a drag or an upload is under way. */
  function MouseLeave(setup: Setup, w: Widget): (r: Widget)
    ensures w.isUploading ==> r == w
    ensures HoverExcludesDrag(w) ==> HoverExcludesDrag(r)
    ensures !w.isDragging && !w.isUploading ==> !r.isHovering
  {
    if !w.isDragging && !w.isUploading then OverlayHidden(setup, w).(isHovering := false) else w
  }

  /** A drag over the widget turns a hover into a drag, or shows the overlay, red for
      an invalid drag. */
  function DragOver(setup: Setup, w: Widget, items: seq<DragItem>): (r: Widget)
    ensures w.isUploading ==> r == w
    ensures HoverExcludesDrag(w) ==> HoverExcludesDrag(r)
    ensures !w.isUploading ==> r.isDragging && !r.isHovering
  {
    if w.isUploading then w
    else if w.isHovering then w.(isHovering := false, isDragging := true)
    else if DragInvalid(items, setup.hasFileInput, setup.accept) then RedOverlayShown(setup, w).(isDragging := true)
    else OverlayShown(setup, w).(isDragging := true)
  }

  /** The drag leaving the widget hides the overlay. */
  function DragEnd(setup: Setup, w: Widget): (r: Widget)
    ensures w.isUploading ==> r == w
    ensures HoverExcludesDrag(w) ==> HoverExcludesDrag(r)
    ensures !w.isUploading ==> !r.isDragging
  {
    if w.isUploading then w else OverlayHidden(setup, w).(isDragging := false)
  }

  /** Choosing a file through the input shows its name and changes nothing else. */
  function FileSelected(setup: Setup, w: Widget): (r: Widget)
    ensures HoverExcludesDrag(w) ==> HoverExcludesDrag(r)
    ensures r == w.(fileName := r.fileName)
  {
    if setup.hasFileInput && |w.inputFiles| > 0 then w.(fileName := w.inputFiles[0].name) else w
  }

  /** A drop hands the allowed files to the input and hides the overlay. */
  function Drop(setup: Setup, w: Widget, files: seq<File>): (r: Widget)
    ensures w.isUploading ==> r == w
    ensures HoverExcludesDrag(w) ==> HoverExcludesDrag(r)
    ensures !w.isUploading ==> !r.isDragging
    ensures r.inputFiles != w.inputFiles ==> forall f :: f in r.inputFiles ==> f in files && IsFileTypeAllowed(f, setup.accept)
  {
    if w.isUploading then w
    else
      var valid := AllowedFiles(files, setup.accept);
      var w' := if |files| > 0 && setup.hasFileInput && |valid| > 0
        then w.(inputFiles := valid, fileName := valid[0].name, changeEvents := w.changeEvents + 1)
        else w;
      OverlayHidden(setup, w').(isDragging := false)
  }

  /** Hovering and dragging are never both set. */
  predicate HoverExcludesDrag(w: Widget) {
    !(w.isHovering && w.isDragging)
  }

  /** Mouse enter and leave touch the widget only when it is neither dragging nor
      uploading, and then set the hover flag accordingly. */
  lemma MouseOnlyWhenIdle(setup: Setup, w: Widget)
    ensures (w.isDragging || w.isUploading) ==> MouseEnter(setup, w) == w && MouseLeave(setup, w) == w
    ensures !(w.isDragging || w.isUploading) ==>
      && MouseEnter(setup, w).isHovering && !MouseLeave(setup, w).isHovering
      && (setup.hasContainer ==> MouseEnter(setup, w).dark && !MouseLeave(setup, w).dark && !MouseLeave(setup, w).red)
  {
  }

  /** Outside an upload, drag-over always sets dragging; it only clears a pending hover,
      and otherwise turns a hidden overlay red exactly when the drag is invalid. */
  lemma DragOverEffect(setup: Setup, w: Widget, items: seq<DragItem>)
    requires !w.isUploading
    ensures var w' := DragOver(setup, w, items);
      && w'.isDragging && !w'.isHovering
      && (w.isHovering ==> w'.dark == w.dark && w'.red == w.red)
      && (!w.isHovering && setup.hasContainer && !w.dark && !w.red ==>
            (w'.red <==> DragInvalid(items, setup.hasFileInput, setup.accept)) && (w'.dark <==> !w'.red))
  {
  }

  /** Outside an upload, drag-end and drop hide the overlay and clear dragging. */
  lemma DragEndAndDropHide(setup: Setup, w: Widget, files: seq<File>)
    requires !w.isUploading && setup.hasContainer
    ensures !DragEnd(setup, w).isDragging && !DragEnd(setup, w).dark && !DragEnd(setup, w).red
    ensures !Drop(setup, w, files).isDragging && !Drop(setup, w, files).dark && !Drop(setup, w, files).red
  {
  }

  /** A drop raises a change event exactly when some file is kept, hands the input
      exactly the kept files and names the first of them; otherwise the input and
      the name stay as they were. */
  lemma DropOutcome(setup: Setup, w: Widget, files: seq<File>)
    requires !w.isUploading && setup.hasFileInput
    ensures var w' := Drop(setup, w, files);
      var kept := AllowedFiles(files, setup.accept);
      && (w'.changeEvents == w.changeEvents + 1 <==> kept != [])
      && (kept != [] ==> w'.inputFiles == kept && w'.fileName == kept[0].name)
      && (kept == [] ==> w'.changeEvents == w.changeEvents && w'.inputFiles == w.inputFiles && w'.fileName == w.fileName)
  {
    if files == [] {
      assert AllowedFiles(files, setup.accept) == [];
    }
  }

  /** The widget as the handlers see it: the Alpine `data` flags, the overlay
      classes on its container, and the file input's files and change events. */
  class UploadWidget {
    var isDragging: bool
    var isHovering: bool
    var isUploading: bool
    var dark: bool
    var red: bool
    var fileName: string
    var inputFiles: seq<File>
    var changeEvents: nat
    const setup: Setup

    function State(): Widget
      reads this
    {
      Widget(isDragging, isHovering, isUploading, dark, red, fileName, inputFiles, changeEvents)
    }

    constructor (setup: Setup, isUploading: bool)
      ensures this.setup == setup
      ensures State() == Widget(false, false, isUploading, false, false, "", [], 0)
    {
      this.setup := setup;
      this.isDragging := false;
      this.isHovering := false;
      this.isUploading := isUploading;
      this.dark := false;
      this.red := false;
      this.fileName := "";
      this.inputFiles := [];
      this.changeEvents := 0;
    }

    method ShowOverlay()
      modifies this
      ensures State() == OverlayShown(setup, old(State()))
    {
      if setup.hasContainer {
        dark := true;
      }
    }

    method ShowRedOverlay()
      modifies this
      ensures State() == RedOverlayShown(setup, old(State()))
    {
      if setup.hasContainer {
        red := true;
      }
    }

    method HideOverlay()
      modifies this
      ensures State() == OverlayHidden(setup, old(State()))
    {
      if setup.hasContainer {
        dark := false;
        red := false;
      }
    }

    method HandleMouseEnter()
      modifies this
      ensures State() == MouseEnter(setup, old(State()))
    {
      if !isDragging && !isUploading {
        ShowOverlay();
        isHovering := true;
      }
    }

    method HandleMouseLeave()
      modifies this
      ensures State() == MouseLeave(setup, old(State()))
    {
      if !isDragging && !isUploading {
        HideOverlay();
        isHovering := false;
      }
    }

    method HandleDragOver(items: seq<DragItem>)
      modifies this
      ensures State() == DragOver(setup, old(State()), items)
    {
      if isUploading {
        return;
      }
      if isHovering {
        isHovering := false;
      } else {
        var hasInvalidFile := false;
        if |items| > 0 && setup.hasFileInput {
          if setup.accept.Some? && setup.accept.value != "" {
            var allowed := AllowedMimeTypes(AcceptEntries(setup.accept.value));
            hasInvalidFile := HasInvalidFile(items, allowed);
          }
        }
        if hasInvalidFile {
          ShowRedOverlay();
        } else {
          ShowOverlay();
        }
      }
      isDragging := true;
    }

    method HandleDragEnd()
      modifies this
      ensures State() == DragEnd(setup, old(State()))
    {
      if isUploading {
        return;
      }
      HideOverlay();
      isDragging := false;
    }

    method HandleFileSelected()
      modifies this
      ensures State() == FileSelected(setup, old(State()))
    {
      if setup.hasFileInput && |inputFiles| > 0 {
        fileName := inputFiles[0].name;
      }
    }

    method HandleFileDrop(files: seq<File>)
      modifies this
      ensures State() == Drop(setup, old(State()), files)
    {
      if isUploading {
        return;
      }
      if |files| > 0 && setup.hasFileInput {
        var valid := ValidFiles(files, setup.accept);
        if |valid| > 0 {
          inputFiles := valid;
          fileName := valid[0].name;
          changeEvents := changeEvents + 1;
        }
      }
      ghost var dispatched := State();
      HideOverlay();
      isDragging := false;
      assert State() == OverlayHidden(setup, dispatched).(isDragging := false);
    }
  }
}

=== FILE: message_history.dfy ===
/** Trimming of the conversation history sent to the model: only the most recent
    messages are kept, unless the cut would fall on a message carrying a tool's return. */
module MessageHistory {
  import opened AiMessages

  /** How many recent messages are kept. */
  const MessageWindow: nat := 15

  /** A tool-return part (pydantic-ai's `part_kind` "tool-return"). */
  predicate IsToolReturn(p: Part)
    ensures p.ItemPart? ==> !IsToolReturn(p)
  {
    (p.ContentPart? || p.BarePart?) && p.partKind == "tool-return"
  }

  /** Whether any part of the message at `index` is a tool return. */
  function ContainsToolReturn(messages: seq<Message>, index: nat): (r: bool)
    requires index < |messages|
    ensures r <==> exists i :: 0 <= i < |messages[index].parts| && IsToolReturn(messages[index].parts[i])
  {
    AnyToolReturn(messages[index].parts)
  }

  function AnyToolReturn(parts: seq<Part>): (r: bool)
    ensures r <==> exists i :: 0 <= i < |parts| && IsToolReturn(parts[i])
  {
    if parts == [] then false
    else IsToolReturn(parts[0]) || (assert forall i :: 0 < i < |parts| ==> parts[i] == parts[1..][i - 1]; AnyToolReturn(parts[1..]))
  }

  /** `keep_recent_messages`. */
  function KeepRecent(messages: seq<Message>): (r: seq<Message>)
    ensures |messages| <= MessageWindow ==> r == messages
  {
    if |messages| <= MessageWindow then messages
    else if ContainsToolReturn(messages, |messages| - MessageWindow) then messages
    else messages[|messages| - MessageWindow..]
  }

  /** The result is a suffix of the history: nothing is reordered, inserted or altered,
      and the latest message is always kept. */
  lemma KeepRecentIsSuffix(messages: seq<Message>)
    ensures exists k :: 0 <= k <= |messages| && KeepRecent(messages) == messages[k..]
    ensures messages != [] ==> KeepRecent(messages)[|KeepRecent(messages)| - 1] == messages[|messages| - 1]
  {
    if |messages| <= MessageWindow || ContainsToolReturn(messages, |messages| - MessageWindow) {
      assert KeepRecent(messages) == messages[0..];
    } else {
      assert KeepRecent(messages) == messages[|messages| - MessageWindow..];
    }
  }

  /** A longer history is kept whole exactly when the message where the cut would fall
      holds a tool return; otherwise exactly the last fifteen messages remain, and the
      first of them holds no tool return. */
  lemma KeepRecentCut(messages: seq<Message>)
    requires |messages| > MessageWindow
    ensures var cut := |messages| - MessageWindow;
      (KeepRecent(messages) == messages <==> ContainsToolReturn(messages, cut)) &&
      (!ContainsToolReturn(messages, cut) ==>
        |KeepRecent(messages)| == MessageWindow &&
        KeepRecent(messages) == messages[cut..] &&
        !ContainsToolReturn(KeepRecent(messages), 0))
  {
    var cut := |messages| - MessageWindow;
    if !ContainsToolReturn(messages, cut) {
      assert |KeepRecent(messages)| < |messages|;
      assert KeepRecent(messages)[0] == messages[cut];
    }
  }

  /** Trimming twice trims no further than trimming once. */
  lemma KeepRecentIdempotent(messages: seq<Message>)
    ensures KeepRecent(KeepRecent(messages)) == KeepRecent(messages)
  {
  }
}

=== FILE: stash_adapters.dfy ===
/** The keyed byte store behind the binary stash: the storage adapter protocol
    (`exists`, `put`, `open`, `key_for`), the file-system adapter, and the
    adapter-side `stash_content` step the stash relies on. */
module StashAdapters {
  import opened Wrappers
  import opened Text
  import opened AiMessages

  /** Why a store operation failed: a key that is not stored (on `open`), or any
      other operating-system failure, which names the operation and the key. */
  datatype StoreError = NotFound(key: string) | Backend(operation: string, key: string)

  /** The store as a value: the bytes under each key, and the keys on which the
      operating system refuses every operation (permissions, I/O errors). */
  datatype Store = Store(files: map<string, Bytes>, denied: set<string>)

  /** The vendor-metadata entry that remembers where a loaded payload was stored. */
  const StashUuid: string := "_stash_uuid"

  /** `exists`: whether a key is stored; a refused key is an error, not `false`. */
  function ExistsIn(s: Store, key: string): (r: Result<bool, StoreError>)
    ensures r.Err? <==> key in s.denied
    ensures r.Err? ==> r.error == Backend("exists", key)
    ensures r.Ok? ==> (r.value <==> key in s.files)
  {
    if key in s.denied then Err(Backend("exists", key)) else Ok(key in s.files)
  }

  /** `put`: stores `data` under `key`, replacing what was there; nothing changes on failure. */
  function PutInto(s: Store, key: string, data: Bytes): (r: Result<Store, StoreError>)
    ensures r.Err? <==> key in s.denied
    ensures r.Err? ==> r.error == Backend("put", key)
    ensures r.Ok? ==> r.value.denied == s.denied && key in r.value.files && r.value.files[key] == data
    ensures r.Ok? ==> forall k :: k != key ==> (k in r.value.files <==> k in s.files)
    ensures r.Ok? ==> forall k :: k != key && k in s.files ==> r.value.files[k] == s.files[k]
  {
    if key in s.denied then Err(Backend("put", key)) else Ok(s.(files := s.files[key := data]))
  }

  /** `open` followed by a full read: the operating-system failure is reported
      before a missing key, and a missing key is a not-found error naming it. */
  function OpenIn(s: Store, key: string): (r: Result<Bytes, StoreError>)
    ensures key in s.denied ==> r == Err(Backend("open", key))
    ensures key !in s.denied && key !in s.files ==> r == Err(NotFound(key))
    ensures key !in s.denied && key in s.files ==> r == Ok(s.files[key])
  {
    if key in s.denied then Err(Backend("open", key))
    else if key !in s.files then Err(NotFound(key))
    else Ok(s.files[key])
  }

  /** After a successful `put`, `exists` answers true and `open` yields exactly the
      bytes written, whatever they are (empty or not, any key including one with `/`). */
  lemma PutThenRead(s: Store, key: string, data: Bytes)
    requires PutInto(s, key, data).Ok?
    ensures ExistsIn(PutInto(s, key, data).value, key) == Ok(true)
    ensures OpenIn(PutInto(s, key, data).value, key) == Ok(data)
  {
  }

  /** Two writes to one key: the second one's bytes are read back. */
  lemma LastWriteWins(s: Store, key: string, first: Bytes, second: Bytes)
    requires PutInto(s, key, first).Ok?
    ensures PutInto(PutInto(s, key, first).value, key, second).Ok?
    ensures OpenIn(PutInto(PutInto(s, key, first).value, key, second).value, key) == Ok(second)
  {
  }

  /** A key that was never written, on a working store, is absent rather than an error,
      and opening it reports not-found for that key. */
  lemma NeverWrittenIsAbsent(s: Store, key: string)
    requires key !in s.files && key !in s.denied
    ensures ExistsIn(s, key) == Ok(false)
    ensures OpenIn(s, key) == Err(NotFound(key))
  {
  }

  /** `put` leaves every other key readable exactly as before. */
  lemma PutKeepsOtherKeys(s: Store, key: string, data: Bytes, other: string)
    requires PutInto(s, key, data).Ok? && other != key
    ensures OpenIn(PutInto(s, key, data).value, other) == OpenIn(s, other)
    ensures ExistsIn(PutInto(s, key, data).value, other) == ExistsIn(s, other)
  {
  }

  /** `key_for`: the content digest, then the media type with every `/` turned into
      `_` when the media type is non-empty, then the identifier when it is non-empty,
      joined by `_`. The digest (SHA-256 hex in the source) is a parameter. */
  function KeyFor(digest: Bytes -> string, bc: BinaryContent): (key: string)
    ensures StartsWith(key, digest(bc.data))
    ensures bc.mediaType == "" && (bc.identifier.None? || bc.identifier.value == "") ==> key == digest(bc.data)
  {
    var media := if bc.mediaType != "" then [ReplaceAll(bc.mediaType, '/', '_')] else [];
    var ident := if bc.identifier.Some? && bc.identifier.value != "" then [bc.identifier.value] else [];
    Join([digest(bc.data)] + media + ident, "_")
  }

  /** The layout of a key, written out segment by segment; the media-type segment never holds `/`. */
  lemma KeyForLayout(digest: Bytes -> string, bc: BinaryContent)
    ensures KeyFor(digest, bc) ==
      digest(bc.data)
      + (if bc.mediaType != "" then "_" + ReplaceAll(bc.mediaType, '/', '_') else "")
      + (if bc.identifier.Some? && bc.identifier.value != "" then "_" + bc.identifier.value else "")
    ensures '/' !in ReplaceAll(bc.mediaType, '/', '_')
  {
    var d := digest(bc.data);
    var media := if bc.mediaType != "" then [ReplaceAll(bc.mediaType, '/', '_')] else [];
    var ident := if bc.identifier.Some? && bc.identifier.value != "" then [bc.identifier.value] else [];
    var pieces := [d] + media + ident;
    if media != [] && ident != [] {
      assert pieces[1..][1..] == ident;
      assert Join(pieces[1..], "_") == media[0] + "_" + ident[0];
    } else if media != [] {
      assert pieces[1..] == media;
    } else if ident != [] {
      assert pieces == [d, ident[0]];
      assert Join(pieces, "_") == d + "_" + ident[0];
    }
  }

  /** The key depends only on the bytes, the media type and the identifier: vendor
      metadata never changes it, so equal payloads share one key. */
  lemma KeyForDeterministic(digest: Bytes -> string, a: BinaryContent, b: BinaryContent)
    requires a.data == b.data && a.mediaType == b.mediaType && a.identifier == b.identifier
    ensures KeyFor(digest, a) == KeyFor(digest, b)
  {
  }

  /** With fixed-width digests (SHA-256 hex is always 64 characters), equal keys
      imply equal digests: the digest is the key's leading segment. */
  lemma KeyForStartsWithDigest(digest: Bytes -> string, a: BinaryContent, b: BinaryContent)
    requires |digest(a.data)| == |digest(b.data)|
    requires KeyFor(digest, a) == KeyFor(digest, b)
    ensures digest(a.data) == digest(b.data)
  {
    KeyForLayout(digest, a);
    KeyForLayout(digest, b);
    var n := |digest(a.data)|;
    assert KeyFor(digest, a)[..n] == digest(a.data);
    assert KeyFor(digest, b)[..n] == digest(b.data);
  }

  /** How new keys are chosen: by content (`key_for`) or as a key not yet stored
      (the role `uuid4` plays). */
  datatype KeyPolicy = ContentAddressed(digest: Bytes -> string) | UniqueKeys

  /** Whether `n` is the greatest key length in `keys` (0 for no keys). */
  ghost predicate IsMaxKeyLength(keys: set<string>, n: nat)
  {
    (forall k :: k in keys ==> |k| <= n) &&
    (if keys == {} then n == 0 else exists k :: k in keys && |k| == n)
  }

  /** The greatest key length in `keys`. */
  ghost function MaxKeyLength(keys: set<string>): (n: nat)
    ensures IsMaxKeyLength(keys, n)
    decreases |keys|
  {
    if keys == {} then 0
    else
      var k :| k in keys;
      var m := MaxKeyLength(keys - {k});
      if |k| > m then |k| else m
  }

  /** At most one length is the greatest. */
  lemma MaxKeyLengthUnique(keys: set<string>, n: nat, m: nat)
    requires IsMaxKeyLength(keys, n) && IsMaxKeyLength(keys, m)
    ensures n == m
  {
    if keys != {} {
      var a :| a in keys && |a| == n;
      var b :| b in keys && |b| == m;
      assert |a| <= m && |b| <= n;
    }
  }

  /** A key not in the store: longer than every stored key. */
  ghost function FreshKey(files: map<string, Bytes>): (key: string)
    ensures key !in files
    ensures |key| > 0
  {
    seq(MaxKeyLength(files.Keys) + 1, _ => 'k')
  }

  /** The key a new payload is stored under. */
  ghost function PolicyKey(policy: KeyPolicy, s: Store, bc: BinaryContent): (key: string)
    ensures policy.UniqueKeys? ==> key !in s.files
    ensures policy.ContentAddressed? ==> key == KeyFor(policy.digest, bc)
  {
    match policy
    case ContentAddressed(digest) => KeyFor(digest, bc)
    case UniqueKeys => FreshKey(s.files)
  }

  /** The key a previously loaded payload remembers, if any. */
  function RememberedKey(bc: BinaryContent): (r: Option<string>)
    ensures r.Some? <==> bc.vendorMetadata.Some? && StashUuid in bc.vendorMetadata.value
    ensures r.Some? ==> r.value == bc.vendorMetadata.value[StashUuid]
  {
    if bc.vendorMetadata.Some? && StashUuid in bc.vendorMetadata.value
    then Some(bc.vendorMetadata.value[StashUuid])
    else None
  }

  /** `stash_content`: a payload that remembers a key still present in the store is
      not written again and keeps that key; any other payload gets the policy's key,
      and its bytes are written unless that key is already stored. The first failing
      store operation is the result, and the store is then left as it was. */
  ghost function StashContentSpec(policy: KeyPolicy, s: Store, bc: BinaryContent): (r: (Result<string, StoreError>, Store))
    ensures r.0.Err? ==> r.1 == s
    ensures r.0.Ok? ==> r.0.value in r.1.files
  {
    var remembered := RememberedKey(bc);
    if remembered.Some? && ExistsIn(s, remembered.value).Err? then
      (Err(ExistsIn(s, remembered.value).error), s)
    else if remembered.Some? && ExistsIn(s, remembered.value) == Ok(true) then
      (Ok(remembered.value), s)
    else
      var key := PolicyKey(policy, s, bc);
      match ExistsIn(s, key)
      case Err(e) => (Err(e), s)
      case Ok(true) => (Ok(key), s)
      case Ok(false) =>
        match PutInto(s, key, bc.data)
        case Err(e) => (Err(e), s)
        case Ok(s') => (Ok(key), s')
  }

  /** Whether `t` holds every entry of `s` unchanged, on the same refused keys. */
  predicate Extends(s: Store, t: Store)
  {
    t.denied == s.denied && s.files.Keys <= t.files.Keys &&
    forall k :: k in s.files ==> t.files[k] == s.files[k]
  }

  lemma ExtendsTransitive(s: Store, t: Store, u: Store)
    requires Extends(s, t) && Extends(t, u)
    ensures Extends(s, u)
  {
  }

  /** Stashing never overwrites or removes stored bytes. */
  lemma StashContentWriteOnce(policy: KeyPolicy, s: Store, bc: BinaryContent)
    ensures Extends(s, StashContentSpec(policy, s, bc).1)
  {
  }

  /** After a successful stash the returned key holds the payload's bytes when the
      key is new; a remembered or content-addressed key that was already present is
      reused without writing. */
  lemma StashContentStores(policy: KeyPolicy, s: Store, bc: BinaryContent)
    requires StashContentSpec(policy, s, bc).0.Ok?
    ensures var (r, t) := StashContentSpec(policy, s, bc);
      r.value in t.files &&
      (r.value !in s.files ==> t.files[r.value] == bc.data) &&
      (RememberedKey(bc).Some? && RememberedKey(bc).value in s.files ==> r.value == RememberedKey(bc).value && t == s)
  {
  }

  /** With content addressing, stashing the same payload twice yields one key and
      the second stash writes nothing. */
  lemma ContentAddressedDeduplicates(digest: Bytes -> string, s: Store, a: BinaryContent, b: BinaryContent)
    requires a.data == b.data && a.mediaType == b.mediaType && a.identifier == b.identifier
    requires RememberedKey(a).None? && RememberedKey(b).None?
    requires StashContentSpec(ContentAddressed(digest), s, a).0.Ok?
    ensures var (r1, s1) := StashContentSpec(ContentAddressed(digest), s, a);
      StashContentSpec(ContentAddressed(digest), s1, b) == (r1, s1)
  {
    KeyForDeterministic(digest, a, b);
  }

  /** With unique keys, a payload that remembers no stored key always gets a key not
      used before, so stashing the same bytes twice yields two different keys. */
  lemma UniqueKeysAreDistinct(s: Store, bc: BinaryContent)
    requires RememberedKey(bc).None?
    requires StashContentSpec(UniqueKeys, s, bc).0.Ok?
    ensures var (r1, s1) := StashContentSpec(UniqueKeys, s, bc);
      r1.value !in s.files &&
      (StashContentSpec(UniqueKeys, s1, bc).0.Ok? ==> StashContentSpec(UniqueKeys, s1, bc).0.value != r1.value)
  {
  }

  /** The file-system adapter: a root directory modelled as the map of the files
      beneath it, each file's relative path being its key. */
  class FSAdapter {
    var files: map<string, Bytes>
    const denied: set<string>
    const policy: KeyPolicy

    /** The adapter's state as a store value. */
    function State(): Store
      reads this
    {
      Store(files, denied)
    }

    /** An adapter over a root that already holds `initial`. */
    constructor(initial: map<string, Bytes>, denied: set<string>, policy: KeyPolicy)
      ensures files == initial && this.denied == denied && this.policy == policy
    {
      files := initial;
      this.denied := denied;
      this.policy := policy;
    }

    method Exists(key: string) returns (r: Result<bool, StoreError>)
      ensures r == ExistsIn(State(), key)
    {
      if key in denied {
        r := Err(Backend("exists", key));
      } else {
        r := Ok(key in files);
      }
    }

    method Put(key: string, data: Bytes) returns (r: Result<(), StoreError>)
      modifies this
      ensures r.Err? ==> r.error == Backend("put", key) && files == old(files)
      ensures r.Ok? <==> key !in denied
      ensures r.Ok? ==> PutInto(old(State()), key, data) == Ok(State())
    {
      if key in denied {
        r := Err(Backend("put", key));
      } else {
        files := files[key := data];
        r := Ok(());
      }
    }

    method Open(key: string) returns (r: Result<Bytes, StoreError>)
      ensures r == OpenIn(State(), key)
    {
      if key in denied {
        r := Err(Backend("open", key));
      } else if key !in files {
        r := Err(NotFound(key));
      } else {
        r := Ok(files[key]);
      }
    }

    /** A key not yet stored: one character longer than the longest stored key. */
    method NewUniqueKey() returns (key: string)
      ensures key == FreshKey(files)
    {
      var rest := files.Keys;
      var longest: nat := 0;
      ghost var seen: set<string> := {};
      while rest != {}
        invariant rest + seen == files.Keys && rest !! seen
        invariant IsMaxKeyLength(seen, longest)
        decreases |rest|
      {
        var k :| k in rest;
        if |k| > longest {
          longest := |k|;
        }
        rest := rest - {k};
        seen := seen + {k};
      }
      MaxKeyLengthUnique(files.Keys, longest, MaxKeyLength(files.Keys));
      key := seq(longest + 1, _ => 'k');
    }

    /** `stash_content`, following `StashContentSpec`. */
    method StashContent(bc: BinaryContent) returns (r: Result<string, StoreError>)
      modifies this
      ensures (r, State()) == StashContentSpec(policy, old(State()), bc)
    {
      var remembered := RememberedKey(bc);
      if remembered.Some? {
        var present := Exists(remembered.value);
        if present.Err? {
          return Err(present.error);
        }
        if present.value {
          return Ok(remembered.value);
        }
      }
      var key: string;
      match policy {
        case ContentAddressed(digest) => key := KeyFor(digest, bc);
        case UniqueKeys => key := NewUniqueKey();
      }
      var present := Exists(key);
      if present.Err? {
        return Err(present.error);
      }
      if present.value {
        return Ok(key);
      }
      var written := Put(key, bc.data);
      return Ok(key);
    }
  }
}

=== FILE: stash_core.dfy ===
/** The binary stash: replaces binary payloads in conversation messages with
    typed `media://` references after writing their bytes to the store, and
    loads such references back into payloads. */
module StashCore {
  import opened Wrappers
  import opened Text
  import opened AiMessages
  import opened StashAdapters

  const MediaScheme: string := "media://"

  // ---------------------------------------------------------------------------
  // Classification and typed references
  // ---------------------------------------------------------------------------

  /** pydantic-ai's `is_image`, `is_audio`, `is_video`: the media type's top-level token. */
  predicate IsImage(mediaType: string) { StartsWith(mediaType, "image/") }
  predicate IsAudio(mediaType: string) { StartsWith(mediaType, "audio/") }
  predicate IsVideo(mediaType: string) { StartsWith(mediaType, "video/") }

  /** The reference class for a media type, chosen in a fixed priority order: image,
      else audio, else video, else document (documents and every unrecognised type
      alike), so every media type has exactly one class. */
  function Classify(mediaType: string): (k: UrlKind)
    ensures k == ImageUrl <==> IsImage(mediaType)
    ensures k == AudioUrl <==> !IsImage(mediaType) && IsAudio(mediaType)
    ensures k == VideoUrl <==> !IsImage(mediaType) && !IsAudio(mediaType) && IsVideo(mediaType)
    ensures k == DocumentUrl <==> !IsImage(mediaType) && !IsAudio(mediaType) && !IsVideo(mediaType)
  {
    if IsImage(mediaType) then ImageUrl
    else if IsAudio(mediaType) then AudioUrl
    else if IsVideo(mediaType) then VideoUrl
    else DocumentUrl
  }

  /** Sample media types and their classes; `text/plain` falls back to a document reference. */
  lemma ClassifyExamples()
    ensures Classify("image/png") == ImageUrl
    ensures Classify("audio/mpeg") == AudioUrl
    ensures Classify("video/mp4") == VideoUrl
    ensures Classify("application/pdf") == DocumentUrl
    ensures Classify("text/plain") == DocumentUrl
  {
    assert "image/png"[..6] == "image/";
    assert "audio/mpeg"[..6] == "audio/";
    assert "video/mp4"[..6] == "video/";
    assert "application/pdf"[..6][1] == 'p';
    assert "text/plain"[..6][0] == 't';
  }

  /** `_bc_to_typed_url`: a reference of the payload's class to `uri`. */
  function ToTypedUrl(bc: BinaryContent, uri: string): (u: TypedUrl)
    ensures u.kind == Classify(bc.mediaType) && u.url == uri
    ensures u.mediaType == bc.mediaType && u.identifier == bc.identifier && u.vendorMetadata == bc.vendorMetadata
  {
    TypedUrl(Classify(bc.mediaType), uri, bc.mediaType, bc.identifier, bc.vendorMetadata)
  }

  // ---------------------------------------------------------------------------
  // Errors and runs
  // ---------------------------------------------------------------------------

  /** How a stash or load fails: any adapter failure while stashing; a key with no
      stored bytes while loading; any other adapter failure while loading. */
  datatype StashError =
    | StashFailed(cause: StoreError)
    | ContentNotFound(key: string)
    | LoadFailed(cause: StoreError)

  /** An outcome together with the store it leaves behind. */
  datatype Run<T> = Run(out: Result<T, StashError>, store: Store)

  // ---------------------------------------------------------------------------
  // One payload
  // ---------------------------------------------------------------------------

  /** Where a stashed payload is kept: the key is stored and readable, and it holds the
      payload's bytes whenever the stash must have written them itself (unique keys and
      no remembered key). */
  predicate StoredUnder(policy: KeyPolicy, s: Store, bc: BinaryContent, key: string)
  {
    key in s.files && key !in s.denied &&
    (policy.UniqueKeys? && RememberedKey(bc).None? ==> s.files[key] == bc.data)
  }

  /** `stash_binary`: stores the payload through `stash_content` and refers to it as
      `media://<key>`; an adapter failure becomes a stash failure. */
  ghost function StashBinarySpec(policy: KeyPolicy, s: Store, bc: BinaryContent): (r: Run<TypedUrl>)
    ensures r.out.Ok? ==> StartsWith(r.out.value.url, MediaScheme)
    ensures r.out.Ok? ==> r.out.value == ToTypedUrl(bc, r.out.value.url)
    ensures r.out.Ok? ==> StoredUnder(policy, r.store, bc, RemovePrefix(r.out.value.url, MediaScheme))
    ensures r.out.Err? ==> r.out.error.StashFailed? && r.store == s
    ensures Extends(s, r.store)
  {
    StashContentWriteOnce(policy, s, bc);
    var (key, t) := StashContentSpec(policy, s, bc);
    if key.Err? then Run(Err(StashFailed(key.error)), t)
    else
      RemovePrefixOfConcat(MediaScheme, key.value);
      StashContentStores(policy, s, bc);
      Run(Ok(ToTypedUrl(bc, MediaScheme + key.value)), t)
  }

  /** The vendor metadata of a loaded payload: the reference's entries (none when it
      has none) with `_stash_uuid` set to the key it was loaded from. */
  function Remember(vendorMetadata: Option<Metadata>, key: string): (m: Metadata)
    ensures StashUuid in m && m[StashUuid] == key
    ensures vendorMetadata.Some? ==> m.Keys == vendorMetadata.value.Keys + {StashUuid}
    ensures vendorMetadata.None? ==> m.Keys == {StashUuid}
    ensures vendorMetadata.Some? ==> forall k :: k in vendorMetadata.value && k != StashUuid ==> m[k] == vendorMetadata.value[k]
  {
    (if vendorMetadata.Some? then vendorMetadata.value else map[])[StashUuid := key]
  }

  /** `load_binary`: nothing to do (`None`) unless the url is a `media://` url; then the
      key after the scheme is read in full. A missing key and any other read failure
      are distinct errors. */
  function LoadBinarySpec(s: Store, u: TypedUrl): (r: Result<Option<BinaryContent>, StashError>)
    ensures !StartsWith(u.url, MediaScheme) ==> r == Ok(None)
    ensures StartsWith(u.url, MediaScheme) ==>
      var key := RemovePrefix(u.url, MediaScheme);
      (r.Ok? <==> key in s.files && key !in s.denied) &&
      (r.Ok? ==> r.value == Some(BinaryContent(s.files[key], u.mediaType, u.identifier, Some(Remember(u.vendorMetadata, key))))) &&
      (r == Err(ContentNotFound(key)) <==> key !in s.files && key !in s.denied) &&
      (key in s.denied ==> r == Err(LoadFailed(Backend("open", key))))
  {
    if !StartsWith(u.url, MediaScheme) then Ok(None)
    else
      var key := RemovePrefix(u.url, MediaScheme);
      match OpenIn(s, key)
      case Ok(data) => Ok(Some(BinaryContent(data, u.mediaType, u.identifier, Some(Remember(u.vendorMetadata, key)))))
      case Err(NotFound(_)) => Err(ContentNotFound(key))
      case Err(e) => Err(LoadFailed(e))
  }

  /** Whether a key the stash would reuse already holds this payload's bytes (always
      so for a newly written key). */
  ghost predicate ReusedBytesMatch(policy: KeyPolicy, s: Store, bc: BinaryContent)
  {
    var (key, _) := StashContentSpec(policy, s, bc);
    key.Ok? && key.value in s.files ==> s.files[key.value] == bc.data
  }

  /** With unique keys, a payload that remembers no key is always written to a new key. */
  lemma UniqueKeysWriteNewKeys(s: Store, bc: BinaryContent)
    requires RememberedKey(bc).None?
    ensures ReusedBytesMatch(UniqueKeys, s, bc)
  {
  }

  /** Round trip: loading what was just stashed yields the same bytes, media type and
      identifier, with the original vendor metadata plus `_stash_uuid` naming the key. */
  lemma LoadAfterStash(policy: KeyPolicy, s: Store, bc: BinaryContent)
    requires StashBinarySpec(policy, s, bc).out.Ok?
    requires ReusedBytesMatch(policy, s, bc)
    ensures var run := StashBinarySpec(policy, s, bc);
      var key := RemovePrefix(run.out.value.url, MediaScheme);
      LoadBinarySpec(run.store, run.out.value) ==
        Ok(Some(BinaryContent(bc.data, bc.mediaType, bc.identifier, Some(Remember(bc.vendorMetadata, key)))))
  {
    var (key, t) := StashContentSpec(policy, s, bc);
    RemovePrefixOfConcat(MediaScheme, key.value);
    StashContentStores(policy, s, bc);
    assert key.value !in t.denied;
  }

  /** Stashing a payload that was loaded from the store again writes nothing and
      refers to the same key. */
  lemma RestashReusesKey(policy: KeyPolicy, s: Store, u: TypedUrl)
    requires LoadBinarySpec(s, u).Ok? && LoadBinarySpec(s, u).value.Some?
    ensures var loaded := LoadBinarySpec(s, u).value.value;
      StashBinarySpec(policy, s, loaded) == Run(Ok(ToTypedUrl(loaded, u.url)), s)
  {
    var key := RemovePrefix(u.url, MediaScheme);
    assert MediaScheme + key == u.url;
  }

  // ---------------------------------------------------------------------------
  // The tree walk as a specification
  // ---------------------------------------------------------------------------

  /** Which pass is running: the stash pass (filter: is a binary payload; transform:
      `stash_binary`) or the load pass (filter: is a typed reference; transform:
      `load_binary`). */
  datatype Direction = Stashing | Loading

  /** Applies `f` to each element in order, threading the store; the first failure
      ends the walk and is the result, with the store as that step left it. */
  function MapM<A, B>(s: Store, xs: seq<A>, f: (Store, A) -> Run<B>): (r: Run<seq<B>>)
    ensures r.out.Ok? ==> |r.out.value| == |xs|
    decreases |xs|
  {
    if xs == [] then Run(Ok([]), s)
    else
      var head := f(s, xs[0]);
      if head.out.Err? then Run(Err(head.out.error), head.store)
      else
        var tail := MapM(head.store, xs[1..], f);
        if tail.out.Err? then tail
        else Run(Ok([head.out.value] + tail.out.value), tail.store)
  }

  /** One more element at the end: the walk continues from where the prefix left off. */
  lemma {:induction false} MapMAppend<A, B>(s: Store, xs: seq<A>, x: A, f: (Store, A) -> Run<B>)
    ensures MapM(s, xs + [x], f) ==
      var prefix := MapM(s, xs, f);
      if prefix.out.Err? then prefix
      else
        var last := f(prefix.store, x);
        if last.out.Err? then Run(Err(last.out.error), last.store)
        else Run(Ok(prefix.out.value + [last.out.value]), last.store)
    decreases |xs|
  {
    if xs == [] {
      assert [] + [x] == [x];
      assert [x][1..] == [];
      var last := f(s, x);
      if last.out.Ok? {
        assert MapM(last.store, [], f) == Run(Ok([]), last.store);
        assert [last.out.value] + [] == [] + [last.out.value];
      }
    } else {
      assert (xs + [x])[0] == xs[0];
      assert (xs + [x])[1..] == xs[1..] + [x];
      var head := f(s, xs[0]);
      if head.out.Ok? {
        MapMAppend(head.store, xs[1..], x, f);
        var tail := MapM(head.store, xs[1..], f);
        if tail.out.Ok? && f(tail.store, x).out.Ok? {
          assert [head.out.value] + (tail.out.value + [f(tail.store, x).out.value])
              == ([head.out.value] + tail.out.value) + [f(tail.store, x).out.value];
        }
      }
    }
  }

  /** Once a walk has failed, elements after the failure are never visited. */
  lemma {:induction false} MapMStopsAtError<A, B>(s: Store, xs: seq<A>, ys: seq<A>, f: (Store, A) -> Run<B>)
    requires MapM(s, xs, f).out.Err?
    ensures MapM(s, xs + ys, f) == MapM(s, xs, f)
    decreases |xs|
  {
    assert xs != [];
    assert (xs + ys)[0] == xs[0];
    assert (xs + ys)[1..] == xs[1..] + ys;
    var head := f(s, xs[0]);
    if head.out.Ok? {
      MapMStopsAtError(head.store, xs[1..], ys, f);
    }
  }

  /** A walk keeps every property `rel` that each step guarantees of its own input, its
      output and the store it leaves, as long as later steps (related by `keeps`) cannot
      undo it: every output is related to its input in the final store. */
  lemma {:induction false} MapMPointwise<A, B>(s: Store, xs: seq<A>, f: (Store, A) -> Run<B>,
      keeps: (Store, Store) -> bool, rel: (Store, A, B) -> bool)
    requires forall t: Store :: keeps(t, t)
    requires forall t: Store, u: Store, v: Store :: keeps(t, u) && keeps(u, v) ==> keeps(t, v)
    requires forall t: Store, x: A :: keeps(t, f(t, x).store)
    requires forall t: Store, x: A :: f(t, x).out.Ok? ==> rel(f(t, x).store, x, f(t, x).out.value)
    requires forall t: Store, u: Store, x: A, y: B :: rel(t, x, y) && keeps(t, u) ==> rel(u, x, y)
    requires MapM(s, xs, f).out.Ok?
    ensures forall i :: 0 <= i < |xs| ==> rel(MapM(s, xs, f).store, xs[i], MapM(s, xs, f).out.value[i])
    decreases |xs|
  {
    if xs != [] {
      var head := f(s, xs[0]);
      MapMPointwise(head.store, xs[1..], f, keeps, rel);
      MapMStore(head.store, xs[1..], f, keeps);
      var r := MapM(s, xs, f);
      var tail := MapM(head.store, xs[1..], f);
      assert r.store == tail.store && r.out.value == [head.out.value] + tail.out.value;
      forall i | 0 <= i < |xs|
        ensures rel(r.store, xs[i], r.out.value[i])
      {
        if i == 0 {
          RelKept(keeps, rel, head.store, tail.store, xs[0], head.out.value);
        } else {
          assert xs[i] == xs[1..][i - 1] && r.out.value[i] == tail.out.value[i - 1];
          assert rel(tail.store, xs[1..][i - 1], tail.out.value[i - 1]);
        }
      }
    }
  }

  /** One instance of `MapMPointwise`'s "later steps cannot undo it" premise. */
  lemma RelKept<A, B>(keeps: (Store, Store) -> bool, rel: (Store, A, B) -> bool, t: Store, u: Store, x: A, y: B)
    requires forall t: Store, u: Store, x: A, y: B :: rel(t, x, y) && keeps(t, u) ==> rel(u, x, y)
    requires rel(t, x, y) && keeps(t, u)
    ensures rel(u, x, y)
  {
  }

  /** A walk whose every step succeeds and leaves the store as it was is a plain map. */
  lemma {:induction false} MapMConstant<A, B>(s: Store, xs: seq<A>, f: (Store, A) -> Run<B>)
    requires forall i :: 0 <= i < |xs| ==> f(s, xs[i]).out.Ok? && f(s, xs[i]).store == s
    ensures MapM(s, xs, f).out.Ok? && MapM(s, xs, f).store == s
    ensures forall i :: 0 <= i < |xs| ==> MapM(s, xs, f).out.value[i] == f(s, xs[i]).out.value
    decreases |xs|
  {
    if xs != [] {
      assert f(s, xs[0]).out.Ok?;
      forall i | 0 <= i < |xs[1..]|
        ensures f(s, xs[1..][i]).out.Ok? && f(s, xs[1..][i]).store == s
      {
        assert xs[1..][i] == xs[i + 1];
      }
      MapMConstant(s, xs[1..], f);
      var r := MapM(s, xs, f);
      forall i | 0 <= i < |xs|
        ensures r.out.value[i] == f(s, xs[i]).out.value
      {
        if i > 0 {
          assert xs[i] == xs[1..][i - 1];
        }
      }
    }
  }

  /** A walk relates its initial and final store by any reflexive, transitive relation
      that each step keeps. */
  lemma {:induction false} MapMStore<A, B>(s: Store, xs: seq<A>, f: (Store, A) -> Run<B>, keeps: (Store, Store) -> bool)
    requires forall t: Store :: keeps(t, t)
    requires forall t: Store, u: Store, v: Store :: keeps(t, u) && keeps(u, v) ==> keeps(t, v)
    requires forall t: Store, x: A :: keeps(t, f(t, x).store)
    ensures keeps(s, MapM(s, xs, f).store)
    decreases |xs|
  {
    if xs != [] {
      var head := f(s, xs[0]);
      if head.out.Ok? {
        MapMStore(head.store, xs[1..], f, keeps);
      }
    }
  }

  /** A walk fails only with an error some step can fail with. */
  lemma {:induction false} MapMErrors<A, B>(s: Store, xs: seq<A>, f: (Store, A) -> Run<B>, allowed: StashError -> bool)
    requires forall t: Store, x: A :: f(t, x).out.Err? ==> allowed(f(t, x).out.error)
    ensures MapM(s, xs, f).out.Err? ==> allowed(MapM(s, xs, f).out.error)
    decreases |xs|
  {
    if xs != [] {
      var head := f(s, xs[0]);
      if head.out.Ok? {
        MapMErrors(head.store, xs[1..], f, allowed);
      }
    }
  }

  /** One content item: a matching item is transformed, anything else (and a load of a
      reference that is not a `media://` reference) is kept as it is. */
  ghost function ItemStep(dir: Direction, policy: KeyPolicy, s: Store, x: Item): (r: Run<Item>)
    ensures dir.Loading? ==> r.store == s
    ensures r.out.Ok? && (x.Text? || x.Opaque?) ==> r.out.value == x
    ensures dir.Stashing? && x.Binary? && r.out.Ok? ==> r.out.value.Reference? && StartsWith(r.out.value.reference.url, MediaScheme)
  {
    match dir
    case Stashing =>
      if x.Binary? then
        var r := StashBinarySpec(policy, s, x.binary);
        if r.out.Err? then Run(Err(r.out.error), r.store) else Run(Ok(Reference(r.out.value)), r.store)
      else Run(Ok(x), s)
    case Loading =>
      if x.Reference? then
        match LoadBinarySpec(s, x.reference)
        case Err(e) => Run(Err(e), s)
        case Ok(None) => Run(Ok(x), s)
        case Ok(Some(b)) => Run(Ok(Binary(b)), s)
      else Run(Ok(x), s)
  }

  ghost function ItemFn(dir: Direction, policy: KeyPolicy): (Store, Item) -> Run<Item>
  {
    (s: Store, x: Item) => ItemStep(dir, policy, s, x)
  }

  /** One part: a part that is itself an item, a single-item `content`, and each element
      of a list `content` go through `ItemStep`; a part without content passes through. */
  ghost function PartStep(dir: Direction, policy: KeyPolicy, s: Store, p: Part): (r: Run<Part>)
    ensures r.out.Ok? ==> (r.out.value.ItemPart? <==> p.ItemPart?) && (r.out.value.BarePart? <==> p.BarePart?)
    ensures r.out.Ok? && !p.ItemPart? ==> r.out.value.partKind == p.partKind
    ensures r.out.Ok? && p.ContentPart? && p.content.Many? ==>
      r.out.value.content.Many? && |r.out.value.content.items| == |p.content.items|
  {
    match p
    case ItemPart(x) =>
      var r := ItemStep(dir, policy, s, x);
      if r.out.Err? then Run(Err(r.out.error), r.store) else Run(Ok(ItemPart(r.out.value)), r.store)
    case ContentPart(kind, Single(x)) =>
      var r := ItemStep(dir, policy, s, x);
      if r.out.Err? then Run(Err(r.out.error), r.store) else Run(Ok(ContentPart(kind, Single(r.out.value))), r.store)
    case ContentPart(kind, Many(xs)) =>
      var r := MapM(s, xs, ItemFn(dir, policy));
      if r.out.Err? then Run(Err(r.out.error), r.store) else Run(Ok(ContentPart(kind, Many(r.out.value))), r.store)
    case BarePart(_) => Run(Ok(p), s)
  }

  ghost function PartFn(dir: Direction, policy: KeyPolicy): (Store, Part) -> Run<Part>
  {
    (s: Store, p: Part) => PartStep(dir, policy, s, p)
  }

  /** One message: its parts in order, on a copy of the message. */
  ghost function MessageStep(dir: Direction, policy: KeyPolicy, s: Store, m: Message): (r: Run<Message>)
    ensures r.out.Ok? ==> r.out.value.kind == m.kind && |r.out.value.parts| == |m.parts|
  {
    var r := MapM(s, m.parts, PartFn(dir, policy));
    if r.out.Err? then Run(Err(r.out.error), r.store) else Run(Ok(Message(m.kind, r.out.value)), r.store)
  }

  ghost function MessageFn(dir: Direction, policy: KeyPolicy): (Store, Message) -> Run<Message>
  {
    (s: Store, m: Message) => MessageStep(dir, policy, s, m)
  }

  /** The input of the two message operations: one message, or a list of them. */
  datatype Batch = OneMessage(message: Message) | MessageList(messages: seq<Message>)

  function AsList(b: Batch): (ms: seq<Message>)
    ensures b.OneMessage? ==> ms == [b.message]
  {
    match b
    case OneMessage(m) => [m]
    case MessageList(ms) => ms
  }

  /** `stash_binaries_in_messages` (Stashing) and `load_binaries_in_messages` (Loading). */
  ghost function BatchSpec(dir: Direction, policy: KeyPolicy, s: Store, b: Batch): (r: Run<seq<Message>>)
    ensures r.out.Ok? ==> |r.out.value| == |AsList(b)|
  {
    MapM(s, AsList(b), MessageFn(dir, policy))
  }

  /** A single message is handled exactly as the list holding only it. */
  lemma SingleMessageIsListOfOne(dir: Direction, policy: KeyPolicy, s: Store, m: Message)
    ensures BatchSpec(dir, policy, s, OneMessage(m)) == BatchSpec(dir, policy, s, MessageList([m]))
  {
  }

  // ---------------------------------------------------------------------------
  // What the walk preserves
  // ---------------------------------------------------------------------------

  /** Which change relates an input item to an output item: one pass of a stash with
      this key policy, ending with this store; or a stash pass followed by a load pass. */
  datatype Change = Pass(dir: Direction, policy: KeyPolicy, store: Store) | StashThenLoad

  /** How one item may change.
      - A stashed payload becomes a `media://` reference of its class carrying its media
        type, identifier and vendor metadata, whose key is kept in the store (`StoredUnder`).
      - A loaded `media://` reference becomes the payload made of the bytes stored under
        its key, its media type and identifier, and its metadata plus that key.
      - Stashing then loading gives a payload its own bytes, media type and identifier
        back, with its own metadata plus the key it was stored under.
      - Every other item is kept. */
  predicate ItemRel(c: Change, x: Item, y: Item)
  {
    match c
    case Pass(Stashing, policy, s) =>
      if x.Binary? then
        y.Reference? && StartsWith(y.reference.url, MediaScheme) && y.reference == ToTypedUrl(x.binary, y.reference.url) &&
        StoredUnder(policy, s, x.binary, RemovePrefix(y.reference.url, MediaScheme))
      else y == x
    case Pass(Loading, _, s) =>
      if x.Reference? && StartsWith(x.reference.url, MediaScheme) then
        var key := RemovePrefix(x.reference.url, MediaScheme);
        key in s.files &&
        y == Binary(BinaryContent(s.files[key], x.reference.mediaType, x.reference.identifier,
                                  Some(Remember(x.reference.vendorMetadata, key))))
      else y == x
    case StashThenLoad =>
      if x.Binary? then
        y.Binary? && y.binary.data == x.binary.data && y.binary.mediaType == x.binary.mediaType &&
        y.binary.identifier == x.binary.identifier && y.binary.vendorMetadata.Some? &&
        StashUuid in y.binary.vendorMetadata.value &&
        y.binary.vendorMetadata.value == Remember(x.binary.vendorMetadata, y.binary.vendorMetadata.value[StashUuid])
      else y == x
  }

  /** How one part may change: same shape, same part kind, same list length and order,
      each item related by `ItemRel`. */
  predicate PartRel(c: Change, p: Part, q: Part)
  {
    match p
    case ItemPart(x) => q.ItemPart? && ItemRel(c, x, q.item)
    case ContentPart(kind, Single(x)) =>
      q.ContentPart? && q.partKind == kind && q.content.Single? && ItemRel(c, x, q.content.item)
    case ContentPart(kind, Many(xs)) =>
      q.ContentPart? && q.partKind == kind && q.content.Many? && |q.content.items| == |xs| &&
      forall i :: 0 <= i < |xs| ==> ItemRel(c, xs[i], q.content.items[i])
    case BarePart(_) => q == p
  }

  /** How one message may change: same kind, same parts in the same order, each related by `PartRel`. */
  predicate MessageRel(c: Change, m: Message, n: Message)
  {
    n.kind == m.kind && |n.parts| == |m.parts| &&
    forall i :: 0 <= i < |m.parts| ==> PartRel(c, m.parts[i], n.parts[i])
  }

  /** The errors each pass can end with. */
  predicate PassError(dir: Direction, e: StashError)
  {
    match dir
    case Stashing => e.StashFailed?
    case Loading => e.ContentNotFound? || e.LoadFailed?
  }

  /** How the store may change: stashing only adds entries, loading changes nothing. */
  predicate PassStore(dir: Direction, s: Store, t: Store)
  {
    match dir
    case Stashing => Extends(s, t)
    case Loading => t == s
  }

  lemma PassStoreIsPreorder(dir: Direction)
    ensures forall t: Store :: PassStore(dir, t, t)
    ensures forall t: Store, u: Store, v: Store :: PassStore(dir, t, u) && PassStore(dir, u, v) ==> PassStore(dir, t, v)
  {
    forall t: Store, u: Store, v: Store | PassStore(dir, t, u) && PassStore(dir, u, v)
      ensures PassStore(dir, t, v)
    {
      if dir.Stashing? {
        ExtendsTransitive(t, u, v);
      }
    }
  }

  /** What a pass says of an item stays true while later steps of the same pass run. */
  lemma ItemRelKept(dir: Direction, policy: KeyPolicy, s: Store, t: Store, x: Item, y: Item)
    requires ItemRel(Pass(dir, policy, s), x, y) && PassStore(dir, s, t)
    ensures ItemRel(Pass(dir, policy, t), x, y)
  {
  }

  lemma PartRelKept(dir: Direction, policy: KeyPolicy, s: Store, t: Store, p: Part, q: Part)
    requires PartRel(Pass(dir, policy, s), p, q) && PassStore(dir, s, t)
    ensures PartRel(Pass(dir, policy, t), p, q)
  {
    match p
    case ItemPart(x) => ItemRelKept(dir, policy, s, t, x, q.item);
    case ContentPart(kind, Single(x)) => ItemRelKept(dir, policy, s, t, x, q.content.item);
    case ContentPart(kind, Many(xs)) =>
      forall i | 0 <= i < |xs|
        ensures ItemRel(Pass(dir, policy, t), xs[i], q.content.items[i])
      {
        ItemRelKept(dir, policy, s, t, xs[i], q.content.items[i]);
      }
    case BarePart(_) =>
  }

  lemma MessageRelKept(dir: Direction, policy: KeyPolicy, s: Store, t: Store, m: Message, n: Message)
    requires MessageRel(Pass(dir, policy, s), m, n) && PassStore(dir, s, t)
    ensures MessageRel(Pass(dir, policy, t), m, n)
  {
    forall i | 0 <= i < |m.parts|
      ensures PartRel(Pass(dir, policy, t), m.parts[i], n.parts[i])
    {
      PartRelKept(dir, policy, s, t, m.parts[i], n.parts[i]);
    }
  }

  /** One item step keeps the item relation (in the store it leaves), the store relation
      and the error split. */
  lemma ItemStepFacts(dir: Direction, policy: KeyPolicy, s: Store, x: Item)
    ensures var r := ItemStep(dir, policy, s, x);
      PassStore(dir, s, r.store) &&
      (r.out.Ok? ==> ItemRel(Pass(dir, policy, r.store), x, r.out.value)) &&
      (r.out.Err? ==> PassError(dir, r.out.error))
  {
  }

  /** One part step keeps the part relation (in the store it leaves), the store relation
      and the error split. */
  lemma PartStepFacts(dir: Direction, policy: KeyPolicy, s: Store, p: Part)
    ensures var r := PartStep(dir, policy, s, p);
      PassStore(dir, s, r.store) &&
      (r.out.Ok? ==> PartRel(Pass(dir, policy, r.store), p, r.out.value)) &&
      (r.out.Err? ==> PassError(dir, r.out.error))
  {
    match p
    case ItemPart(x) => ItemStepFacts(dir, policy, s, x);
    case ContentPart(kind, Single(x)) => ItemStepFacts(dir, policy, s, x);
    case ContentPart(kind, Many(xs)) =>
      var f := ItemFn(dir, policy);
      forall t: Store, x: Item
        ensures PassStore(dir, t, f(t, x).store)
        ensures f(t, x).out.Ok? ==> ItemRel(Pass(dir, policy, f(t, x).store), x, f(t, x).out.value)
        ensures f(t, x).out.Err? ==> PassError(dir, f(t, x).out.error)
      {
        ItemStepFacts(dir, policy, t, x);
      }
      forall t: Store, u: Store, x: Item, y: Item | ItemRel(Pass(dir, policy, t), x, y) && PassStore(dir, t, u)
        ensures ItemRel(Pass(dir, policy, u), x, y)
      {
        ItemRelKept(dir, policy, t, u, x, y);
      }
      PassStoreIsPreorder(dir);
      MapMStore(s, xs, f, (t: Store, u: Store) => PassStore(dir, t, u));
      MapMErrors(s, xs, f, (e: StashError) => PassError(dir, e));
      if MapM(s, xs, f).out.Ok? {
        MapMPointwise(s, xs, f, (t: Store, u: Store) => PassStore(dir, t, u),
                      (t: Store, x: Item, y: Item) => ItemRel(Pass(dir, policy, t), x, y));
      }
    case BarePart(_) =>
  }

  /** One message step keeps the message relation (in the store it leaves), the store
      relation and the error split. */
  lemma MessageStepFacts(dir: Direction, policy: KeyPolicy, s: Store, m: Message)
    ensures var r := MessageStep(dir, policy, s, m);
      PassStore(dir, s, r.store) &&
      (r.out.Ok? ==> MessageRel(Pass(dir, policy, r.store), m, r.out.value)) &&
      (r.out.Err? ==> PassError(dir, r.out.error))
  {
    var f := PartFn(dir, policy);
    forall t: Store, p: Part
      ensures PassStore(dir, t, f(t, p).store)
      ensures f(t, p).out.Ok? ==> PartRel(Pass(dir, policy, f(t, p).store), p, f(t, p).out.value)
      ensures f(t, p).out.Err? ==> PassError(dir, f(t, p).out.error)
    {
      PartStepFacts(dir, policy, t, p);
    }
    forall t: Store, u: Store, p: Part, q: Part | PartRel(Pass(dir, policy, t), p, q) && PassStore(dir, t, u)
      ensures PartRel(Pass(dir, policy, u), p, q)
    {
      PartRelKept(dir, policy, t, u, p, q);
    }
    PassStoreIsPreorder(dir);
    MapMStore(s, m.parts, f, (t: Store, u: Store) => PassStore(dir, t, u));
    MapMErrors(s, m.parts, f, (e: StashError) => PassError(dir, e));
    if MapM(s, m.parts, f).out.Ok? {
      MapMPointwise(s, m.parts, f, (t: Store, u: Store) => PassStore(dir, t, u),
                    (t: Store, p: Part, q: Part) => PartRel(Pass(dir, policy, t), p, q));
    }
  }

  /** Both message operations return one message per input message, in order, each
      related to its input by `MessageRel` in the final store; stashing only adds to the
      store and fails only with a stash failure; loading leaves the store alone and fails
      only with a not-found or load failure. */
  lemma BatchFacts(dir: Direction, policy: KeyPolicy, s: Store, b: Batch)
    ensures var r := BatchSpec(dir, policy, s, b);
      PassStore(dir, s, r.store) &&
      (r.out.Ok? ==>
        |r.out.value| == |AsList(b)| &&
        forall i :: 0 <= i < |AsList(b)| ==> MessageRel(Pass(dir, policy, r.store), AsList(b)[i], r.out.value[i])) &&
      (r.out.Err? ==> PassError(dir, r.out.error))
  {
    var f := MessageFn(dir, policy);
    forall t: Store, m: Message
      ensures PassStore(dir, t, f(t, m).store)
      ensures f(t, m).out.Ok? ==> MessageRel(Pass(dir, policy, f(t, m).store), m, f(t, m).out.value)
      ensures f(t, m).out.Err? ==> PassError(dir, f(t, m).out.error)
    {
      MessageStepFacts(dir, policy, t, m);
    }
    forall t: Store, u: Store, m: Message, n: Message | MessageRel(Pass(dir, policy, t), m, n) && PassStore(dir, t, u)
      ensures MessageRel(Pass(dir, policy, u), m, n)
    {
      MessageRelKept(dir, policy, t, u, m, n);
    }
    PassStoreIsPreorder(dir);
    MapMStore(s, AsList(b), f, (t: Store, u: Store) => PassStore(dir, t, u));
    MapMErrors(s, AsList(b), f, (e: StashError) => PassError(dir, e));
    if MapM(s, AsList(b), f).out.Ok? {
      MapMPointwise(s, AsList(b), f, (t: Store, u: Store) => PassStore(dir, t, u),
                    (t: Store, m: Message, n: Message) => MessageRel(Pass(dir, policy, t), m, n));
    }
  }

  /** The items a part carries: the part itself, its single content item, or its content list. */
  function PartItems(p: Part): seq<Item>
  {
    match p
    case ItemPart(x) => [x]
    case ContentPart(_, Single(x)) => [x]
    case ContentPart(_, Many(xs)) => xs
    case BarePart(_) => []
  }

  /** Whether a message still holds an inline binary payload anywhere. */
  predicate HoldsBinary(m: Message)
  {
    exists p, x :: p in m.parts && x in PartItems(p) && x.Binary?
  }

  /** After a successful stash no message holds an inline payload any more. */
  lemma StashLeavesNoBinary(policy: KeyPolicy, s: Store, b: Batch)
    requires BatchSpec(Stashing, policy, s, b).out.Ok?
    ensures forall n :: n in BatchSpec(Stashing, policy, s, b).out.value ==> !HoldsBinary(n)
  {
    BatchFacts(Stashing, policy, s, b);
    var r := BatchSpec(Stashing, policy, s, b);
    forall n | n in r.out.value
      ensures !HoldsBinary(n)
    {
      var k :| 0 <= k < |r.out.value| && r.out.value[k] == n;
      var m := AsList(b)[k];
      assert MessageRel(Pass(Stashing, policy, r.store), m, n);
      forall q, y | q in n.parts && y in PartItems(q)
        ensures !y.Binary?
      {
        var i :| 0 <= i < |n.parts| && n.parts[i] == q;
        assert PartRel(Pass(Stashing, policy, r.store), m.parts[i], q);
      }
    }
  }

  /** An item the stash pass treats as new: a payload that remembers no key, or anything
      that is not already a `media://` reference. */
  predicate Unstashed(x: Item)
  {
    match x
    case Binary(bc) => RememberedKey(bc).None?
    case Reference(u) => !StartsWith(u.url, MediaScheme)
    case _ => true
  }

  /** Round trip for one item: what the stash pass made of a new item loads back from
      the store the stash left, without touching it, as the original payload; its
      `_stash_uuid` is the key of the stashed reference, which holds the payload's bytes. */
  lemma ItemRoundTrip(t: Store, x: Item, y: Item)
    requires Unstashed(x) && ItemRel(Pass(Stashing, UniqueKeys, t), x, y)
    ensures var r := ItemStep(Loading, UniqueKeys, t, y);
      r.out.Ok? && r.store == t && ItemRel(StashThenLoad, x, r.out.value) &&
      ItemRel(Pass(Loading, UniqueKeys, t), y, r.out.value)
    ensures x.Binary? ==>
      var key := RemovePrefix(y.reference.url, MediaScheme);
      key in t.files && t.files[key] == x.binary.data &&
      ItemStep(Loading, UniqueKeys, t, y).out ==
        Ok(Binary(BinaryContent(x.binary.data, x.binary.mediaType, x.binary.identifier, Some(Remember(x.binary.vendorMetadata, key)))))
  {
  }

  lemma PartRoundTrip(t: Store, p: Part, q: Part)
    requires forall x :: x in PartItems(p) ==> Unstashed(x)
    requires PartRel(Pass(Stashing, UniqueKeys, t), p, q)
    ensures var r := PartStep(Loading, UniqueKeys, t, q);
      r.out.Ok? && r.store == t && PartRel(StashThenLoad, p, r.out.value) &&
      PartRel(Pass(Loading, UniqueKeys, t), q, r.out.value)
  {
    PartStepFacts(Loading, UniqueKeys, t, q);
    match p
    case ItemPart(x) => ItemRoundTrip(t, x, q.item);
    case ContentPart(kind, Single(x)) => ItemRoundTrip(t, x, q.content.item);
    case ContentPart(kind, Many(xs)) =>
      var ys := q.content.items;
      var f := ItemFn(Loading, UniqueKeys);
      forall i | 0 <= i < |ys|
        ensures f(t, ys[i]).out.Ok? && f(t, ys[i]).store == t
        ensures ItemRel(StashThenLoad, xs[i], f(t, ys[i]).out.value)
      {
        assert xs[i] in PartItems(p);
        ItemRoundTrip(t, xs[i], ys[i]);
      }
      MapMConstant(t, ys, f);
    case BarePart(_) =>
  }

  lemma MessageRoundTrip(t: Store, m: Message, n: Message)
    requires forall p, x :: p in m.parts && x in PartItems(p) ==> Unstashed(x)
    requires MessageRel(Pass(Stashing, UniqueKeys, t), m, n)
    ensures var r := MessageStep(Loading, UniqueKeys, t, n);
      r.out.Ok? && r.store == t && MessageRel(StashThenLoad, m, r.out.value) &&
      MessageRel(Pass(Loading, UniqueKeys, t), n, r.out.value)
  {
    MessageStepFacts(Loading, UniqueKeys, t, n);
    var f := PartFn(Loading, UniqueKeys);
    forall i | 0 <= i < |n.parts|
      ensures f(t, n.parts[i]).out.Ok? && f(t, n.parts[i]).store == t
      ensures PartRel(StashThenLoad, m.parts[i], f(t, n.parts[i]).out.value)
    {
      assert m.parts[i] in m.parts;
      PartRoundTrip(t, m.parts[i], n.parts[i]);
    }
    MapMConstant(t, n.parts, f);
  }

  /** Round trip for a batch: with unique keys, when no payload remembers a key and no
      item is already a `media://` reference, loading the stashed messages from the
      store the stash left succeeds, writes nothing, and gives back every message with
      the same parts in the same order; each payload has its own bytes, media type and
      identifier, with its own vendor metadata plus `_stash_uuid`. Through the stashed
      message in between, that `_stash_uuid` is the key of the stashed reference, kept
      in the store (`StashedKeyIsRemembered` spells this out for one item). */
  lemma BatchRoundTrip(s: Store, b: Batch)
    requires forall m, p, x :: m in AsList(b) && p in m.parts && x in PartItems(p) ==> Unstashed(x)
    requires BatchSpec(Stashing, UniqueKeys, s, b).out.Ok?
    ensures var stashed := BatchSpec(Stashing, UniqueKeys, s, b);
      var loaded := BatchSpec(Loading, UniqueKeys, stashed.store, MessageList(stashed.out.value));
      loaded.out.Ok? && loaded.store == stashed.store && |loaded.out.value| == |AsList(b)| &&
      forall i :: 0 <= i < |AsList(b)| ==> MessageRel(StashThenLoad, AsList(b)[i], loaded.out.value[i])
    ensures var stashed := BatchSpec(Stashing, UniqueKeys, s, b);
      var loaded := BatchSpec(Loading, UniqueKeys, stashed.store, MessageList(stashed.out.value));
      |stashed.out.value| == |AsList(b)| && loaded.out.Ok? && |loaded.out.value| == |AsList(b)| &&
      forall i :: 0 <= i < |AsList(b)| ==>
        MessageRel(Pass(Stashing, UniqueKeys, stashed.store), AsList(b)[i], stashed.out.value[i]) &&
        MessageRel(Pass(Loading, UniqueKeys, stashed.store), stashed.out.value[i], loaded.out.value[i])
  {
    var stashed := BatchSpec(Stashing, UniqueKeys, s, b);
    BatchFacts(Stashing, UniqueKeys, s, b);
    var t := stashed.store;
    var ns := stashed.out.value;
    var f := MessageFn(Loading, UniqueKeys);
    forall i | 0 <= i < |ns|
      ensures f(t, ns[i]).out.Ok? && f(t, ns[i]).store == t
      ensures MessageRel(StashThenLoad, AsList(b)[i], f(t, ns[i]).out.value)
    {
      assert AsList(b)[i] in AsList(b);
      MessageRoundTrip(t, AsList(b)[i], ns[i]);
    }
    MapMConstant(t, ns, f);
    BatchFacts(Loading, UniqueKeys, t, MessageList(ns));
  }

  /** What the two passes make of one new payload: the stashed reference names a key
      that holds the payload's bytes, and loading that reference gives the payload back
      with `_stash_uuid` set to exactly that key. */
  lemma StashedKeyIsRemembered(t: Store, x: Item, y: Item, z: Item)
    requires x.Binary? && RememberedKey(x.binary).None?
    requires ItemRel(Pass(Stashing, UniqueKeys, t), x, y) && ItemRel(Pass(Loading, UniqueKeys, t), y, z)
    ensures var key := RemovePrefix(y.reference.url, MediaScheme);
      key in t.files && t.files[key] == x.binary.data &&
      z == Binary(BinaryContent(x.binary.data, x.binary.mediaType, x.binary.identifier, Some(Remember(x.binary.vendorMetadata, key))))
  {
  }

  // ---------------------------------------------------------------------------
  // The stash itself
  // ---------------------------------------------------------------------------

  class BinaryStash {
    const storage: FSAdapter

    constructor(storage: FSAdapter)
      ensures this.storage == storage
    {
      this.storage := storage;
    }

    method StashBinary(bc: BinaryContent) returns (r: Result<TypedUrl, StashError>)
      modifies storage
      ensures Run(r, storage.State()) == StashBinarySpec(storage.policy, old(storage.State()), bc)
    {
      var key := storage.StashContent(bc);
      if key.Err? {
        return Err(StashFailed(key.error));
      }
      r := Ok(ToTypedUrl(bc, MediaScheme + key.value));
    }

    method LoadBinary(u: TypedUrl) returns (r: Result<Option<BinaryContent>, StashError>)
      ensures r == LoadBinarySpec(storage.State(), u)
    {
      if !StartsWith(u.url, MediaScheme) {
        return Ok(None);
      }
      var key := RemovePrefix(u.url, MediaScheme);
      var data := storage.Open(key);
      if data.Err? {
        if data.error.NotFound? {
          return Err(ContentNotFound(key));
        }
        return Err(LoadFailed(data.error));
      }
      var vendorMetadata: Metadata := if u.vendorMetadata.Some? then u.vendorMetadata.value else map[];
      vendorMetadata := vendorMetadata[StashUuid := key];
      r := Ok(Some(BinaryContent(data.value, u.mediaType, u.identifier, Some(vendorMetadata))));
    }

    /** The filter and transform of one pass applied to one item. */
    method TransformItem(dir: Direction, x: Item) returns (r: Result<Item, StashError>)
      modifies storage
      ensures Run(r, storage.State()) == ItemStep(dir, storage.policy, old(storage.State()), x)
    {
      if dir.Stashing? && x.Binary? {
        var u := StashBinary(x.binary);
        if u.Err? {
          return Err(u.error);
        }
        r := Ok(Reference(u.value));
      } else if dir.Loading? && x.Reference? {
        var b := LoadBinary(x.reference);
        if b.Err? {
          return Err(b.error);
        }
        r := if b.value.Some? then Ok(Binary(b.value.value)) else Ok(x);
      } else {
        r := Ok(x);
      }
    }

    /** A list `content`, transformed element by element in place on its copy. */
    method TransformItems(dir: Direction, items: seq<Item>) returns (r: Result<seq<Item>, StashError>)
      modifies storage
      ensures Run(r, storage.State()) == MapM(old(storage.State()), items, ItemFn(dir, storage.policy))
    {
      ghost var s0 := storage.State();
      var content := new Item[|items|](k requires 0 <= k < |items| => items[k]);
      var j := 0;
      while j < content.Length
        invariant 0 <= j <= content.Length == |items|
        invariant content[j..] == items[j..]
        invariant MapM(s0, items[..j], ItemFn(dir, storage.policy)) == Run(Ok(content[..j]), storage.State())
      {
        MapMAppend(s0, items[..j], items[j], ItemFn(dir, storage.policy));
        assert items[..j + 1] == items[..j] + [items[j]];
        assert content[j] == items[j];
        var y := TransformItem(dir, content[j]);
        if y.Err? {
          MapMStopsAtError(s0, items[..j + 1], items[j + 1..], ItemFn(dir, storage.policy));
          assert items[..j + 1] + items[j + 1..] == items;
          return Err(y.error);
        }
        content[j] := y.value;
        j := j + 1;
        assert content[..j] == content[..j - 1] + [y.value];
      }
      assert items[..j] == items;
      assert content[..j] == content[..];
      r := Ok(content[..]);
    }

    /** One part of the copied message. */
    method TransformPart(dir: Direction, p: Part) returns (r: Result<Part, StashError>)
      modifies storage
      ensures Run(r, storage.State()) == PartStep(dir, storage.policy, old(storage.State()), p)
    {
      match p
      case ItemPart(x) =>
        var y := TransformItem(dir, x);
        r := if y.Err? then Err(y.error) else Ok(ItemPart(y.value));
      case ContentPart(kind, Single(x)) =>
        var y := TransformItem(dir, x);
        r := if y.Err? then Err(y.error) else Ok(ContentPart(kind, Single(y.value)));
      case ContentPart(kind, Many(xs)) =>
        var ys := TransformItems(dir, xs);
        r := if ys.Err? then Err(ys.error) else Ok(ContentPart(kind, Many(ys.value)));
      case BarePart(_) =>
        r := Ok(p);
    }

    /** `_transform_message_content` on a copy of `m`: each part replaced in place. */
    method TransformMessage(dir: Direction, m: Message) returns (r: Result<Message, StashError>)
      modifies storage
      ensures Run(r, storage.State()) == MessageStep(dir, storage.policy, old(storage.State()), m)
    {
      ghost var s0 := storage.State();
      var parts := new Part[|m.parts|](k requires 0 <= k < |m.parts| => m.parts[k]);
      var i := 0;
      while i < parts.Length
        invariant 0 <= i <= parts.Length == |m.parts|
        invariant parts[i..] == m.parts[i..]
        invariant MapM(s0, m.parts[..i], PartFn(dir, storage.policy)) == Run(Ok(parts[..i]), storage.State())
      {
        MapMAppend(s0, m.parts[..i], m.parts[i], PartFn(dir, storage.policy));
        assert m.parts[..i + 1] == m.parts[..i] + [m.parts[i]];
        assert parts[i] == m.parts[i];
        var q := TransformPart(dir, parts[i]);
        if q.Err? {
          MapMStopsAtError(s0, m.parts[..i + 1], m.parts[i + 1..], PartFn(dir, storage.policy));
          assert m.parts[..i + 1] + m.parts[i + 1..] == m.parts;
          return Err(q.error);
        }
        parts[i] := q.value;
        assert parts[i + 1..] == m.parts[i + 1..];
        i := i + 1;
        assert parts[..i] == parts[..i - 1] + [q.value];
      }
      assert m.parts[..i] == m.parts;
      assert parts[..i] == parts[..];
      r := Ok(Message(m.kind, parts[..]));
    }

    /** Each message copied and transformed, the results collected in order. */
    method TransformMessages(dir: Direction, b: Batch) returns (r: Result<seq<Message>, StashError>)
      modifies storage
      ensures Run(r, storage.State()) == BatchSpec(dir, storage.policy, old(storage.State()), b)
    {
      ghost var s0 := storage.State();
      var messages := AsList(b);
      var result: seq<Message> := [];
      var i := 0;
      while i < |messages|
        invariant 0 <= i <= |messages|
        invariant MapM(s0, messages[..i], MessageFn(dir, storage.policy)) == Run(Ok(result), storage.State())
      {
        MapMAppend(s0, messages[..i], messages[i], MessageFn(dir, storage.policy));
        assert messages[..i + 1] == messages[..i] + [messages[i]];
        var n := TransformMessage(dir, messages[i]);
        if n.Err? {
          MapMStopsAtError(s0, messages[..i + 1], messages[i + 1..], MessageFn(dir, storage.policy));
          assert messages[..i + 1] + messages[i + 1..] == messages;
          return Err(n.error);
        }
        result := result + [n.value];
        i := i + 1;
      }
      assert messages[..i] == messages;
      r := Ok(result);
    }

    /** `stash_binaries_in_messages`: on success, every payload of every message is now a
        reference to a key the store keeps (`BatchRoundTrip` loads them back). */
    method StashBinariesInMessages(b: Batch) returns (r: Result<seq<Message>, StashError>)
      modifies storage
      ensures Run(r, storage.State()) == BatchSpec(Stashing, storage.policy, old(storage.State()), b)
      ensures r.Ok? ==> |r.value| == |AsList(b)|
      ensures r.Ok? ==> forall i :: 0 <= i < |AsList(b)| ==>
        MessageRel(Pass(Stashing, storage.policy, storage.State()), AsList(b)[i], r.value[i])
      ensures Extends(old(storage.State()), storage.State())
    {
      r := TransformMessages(Stashing, b);
      BatchFacts(Stashing, storage.policy, old(storage.State()), b);
    }

    /** `load_binaries_in_messages`: it never writes to the store, and on success every
        `media://` reference is the payload made of the bytes stored under its key. */
    method LoadBinariesInMessages(b: Batch) returns (r: Result<seq<Message>, StashError>)
      modifies storage
      ensures Run(r, storage.State()) == BatchSpec(Loading, storage.policy, old(storage.State()), b)
      ensures storage.files == old(storage.files)
      ensures r.Ok? ==> |r.value| == |AsList(b)|
      ensures r.Ok? ==> forall i :: 0 <= i < |AsList(b)| ==>
        MessageRel(Pass(Loading, storage.policy, storage.State()), AsList(b)[i], r.value[i])
    {
      r := TransformMessages(Loading, b);
      BatchFacts(Loading, storage.policy, old(storage.State()), b);
    }
  }
}

=== FILE: stories.dfy ===
/** Stories and their pages. Pages are kept in order by a per-story `order` field
    that runs 0, 1, 2, ...; page numbers shown to readers start at 1. */
module Stories {
  import opened Wrappers
  import opened Uuids

  datatype Page = Page(uuid: Uuid, order: int, content: string)

  datatype Story = Story(uuid: Uuid, owner: nat, title: string, pages: seq<Page>)

  /** What a single-object lookup (`pages.get(...)`) can fail with. */
  datatype LookupError = DoesNotExist | MultipleObjectsReturned

  /** The ordering invariant the ordered-model base class keeps: page `i` has order `i`. */
  predicate WellOrdered(story: Story)
  {
    forall i :: 0 <= i < |story.pages| ==> story.pages[i].order == i
  }

  /** The event channel a story's updates are published on. */
  function Channel(story: Story): (c: string)
    ensures |c| == 42 && c[..6] == "story-"
    ensures ParseUuid(c[6..]) == Some(story.uuid)
  {
    ParseUuidText(story.uuid);
    assert ("story-" + Hyphenated(story.uuid))[6..] == Hyphenated(story.uuid);
    "story-" + Hyphenated(story.uuid)
  }

  /** The pages whose order is `k`, in sequence. */
  function WithOrder(pages: seq<Page>, k: int): (r: seq<Page>)
    ensures forall p :: p in r ==> p in pages && p.order == k
    ensures forall p :: p in pages && p.order == k ==> p in r
  {
    if pages == [] then []
    else WithOrder(pages[..|pages| - 1], k) + (if pages[|pages| - 1].order == k then [pages[|pages| - 1]] else [])
  }

  /** `pages.get(order=k)`: the one page with that order. */
  function GetByOrder(pages: seq<Page>, k: int): (r: Result<Page, LookupError>)
    ensures r.Ok? ==> r.value in pages && r.value.order == k
    ensures r.Ok? ==> forall p :: p in pages && p.order == k ==> p == r.value
    ensures r == Err(DoesNotExist) <==> forall p :: p in pages ==> p.order != k
  {
    var found := WithOrder(pages, k);
    if |found| == 0 then Err(DoesNotExist)
    else if |found| > 1 then
      assert found[0] in found;
      Err(MultipleObjectsReturned)
    else Ok(found[0])
  }

  /** On well-ordered pages, exactly page `k` has order `k`, and no page has an order
      outside 0 .. count - 1. */
  lemma {:induction false} WithOrderWellOrdered(pages: seq<Page>, k: int)
    requires forall i :: 0 <= i < |pages| ==> pages[i].order == i
    ensures WithOrder(pages, k) == if 0 <= k < |pages| then [pages[k]] else []
    decreases |pages|
  {
    if pages != [] {
      WithOrderWellOrdered(pages[..|pages| - 1], k);
    }
  }

  /** On well-ordered pages, looking up an order in range finds that page. */
  lemma GetByOrderWellOrdered(pages: seq<Page>, k: int)
    requires forall i :: 0 <= i < |pages| ==> pages[i].order == i
    requires 0 <= k < |pages|
    ensures GetByOrder(pages, k) == Ok(pages[k])
  {
    WithOrderWellOrdered(pages, k);
  }

  /** `get_page_by_num`: a page number `n` is looked up as order `n - 1`. */
  function GetPageByNum(story: Story, num: int): (r: Result<Page, LookupError>)
    ensures r.Ok? ==> r.value in story.pages && PageNumber(r.value) == num
  {
    GetByOrder(story.pages, num - 1)
  }

  /** `page_number`. */
  function PageNumber(p: Page): (n: int)
    ensures p.order >= 0 ==> n >= 1
  {
    p.order + 1
  }

  /** The first page is page number 1. */
  predicate IsFirst(p: Page)
    ensures IsFirst(p) <==> PageNumber(p) == 1
  {
    p.order == 0
  }

  /** The last page's number is the number of pages. */
  predicate IsLast(story: Story, p: Page)
    ensures IsLast(story, p) <==> PageNumber(p) == |story.pages|
  {
    p.order == |story.pages| - 1
  }

  /** `get_previous_page`: nothing for the first page, else the page one order earlier. */
  function PreviousPage(story: Story, p: Page): (r: Result<Option<Page>, LookupError>)
    ensures r == Ok(None) <==> IsFirst(p)
    ensures r.Ok? && r.value.Some? ==> r.value.value in story.pages && PageNumber(r.value.value) == PageNumber(p) - 1
  {
    if IsFirst(p) then Ok(None)
    else
      match GetByOrder(story.pages, p.order - 1)
      case Ok(q) => Ok(Some(q))
      case Err(e) => Err(e)
  }

  /** `get_next_page`: nothing for the last page, else the page one order later. */
  function NextPage(story: Story, p: Page): (r: Result<Option<Page>, LookupError>)
    ensures r == Ok(None) <==> IsLast(story, p)
    ensures r.Ok? && r.value.Some? ==> r.value.value in story.pages && PageNumber(r.value.value) == PageNumber(p) + 1
  {
    if IsLast(story, p) then Ok(None)
    else
      match GetByOrder(story.pages, p.order + 1)
      case Ok(q) => Ok(Some(q))
      case Err(e) => Err(e)
  }

  /** Page numbers and page lookup are inverse: the pages are numbered 1 .. count,
      page number `i + 1` finds page `i`, and any other number finds nothing. */
  lemma PageNumberLookup(story: Story, num: int)
    requires WellOrdered(story)
    ensures 1 <= num <= |story.pages| ==>
      GetPageByNum(story, num) == Ok(story.pages[num - 1]) && PageNumber(story.pages[num - 1]) == num
    ensures !(1 <= num <= |story.pages|) ==> GetPageByNum(story, num) == Err(DoesNotExist)
  {
    WithOrderWellOrdered(story.pages, num - 1);
  }

  /** A page is first exactly at position 0 and last exactly at the final position;
      a lone page is both. */
  lemma FirstAndLast(story: Story, i: nat)
    requires WellOrdered(story) && i < |story.pages|
    ensures IsFirst(story.pages[i]) <==> i == 0
    ensures IsLast(story, story.pages[i]) <==> i == |story.pages| - 1
    ensures |story.pages| == 1 ==> IsFirst(story.pages[i]) && IsLast(story, story.pages[i])
  {
  }

  /** The previous page is absent exactly for the first page and is otherwise the
      page just before. */
  lemma PreviousNeighbour(story: Story, i: nat)
    requires WellOrdered(story) && i < |story.pages|
    ensures PreviousPage(story, story.pages[i]) == if i == 0 then Ok(None) else Ok(Some(story.pages[i - 1]))
  {
    assert story.pages[i].order == i;
    if i > 0 {
      GetByOrderWellOrdered(story.pages, i - 1);
    }
  }

  /** The next page is absent exactly for the last page and is otherwise the page
      just after. */
  lemma NextNeighbour(story: Story, i: nat)
    requires WellOrdered(story) && i < |story.pages|
    ensures NextPage(story, story.pages[i]) == if i == |story.pages| - 1 then Ok(None) else Ok(Some(story.pages[i + 1]))
  {
    assert story.pages[i].order == i;
    if i < |story.pages| - 1 {
      GetByOrderWellOrdered(story.pages, i + 1);
    }
  }
}

=== FILE: text.dfy ===
/** String helpers for the Python and JavaScript string operations the model uses. */
module Text {

  predicate StartsWith(s: string, prefix: string) {
    |prefix| <= |s| && s[..|prefix|] == prefix
  }

  predicate EndsWith(s: string, suffix: string) {
    |suffix| <= |s| && s[|s| - |suffix|..] == suffix
  }

  /** Python's `str.removeprefix`. */
  function RemovePrefix(s: string, prefix: string): (r: string)
    ensures StartsWith(s, prefix) ==> prefix + r == s
    ensures !StartsWith(s, prefix) ==> r == s
  {
    if StartsWith(s, prefix) then s[|prefix|..] else s
  }

  lemma RemovePrefixOfConcat(prefix: string, rest: string)
    ensures StartsWith(prefix + rest, prefix)
    ensures RemovePrefix(prefix + rest, prefix) == rest
  {
    assert (prefix + rest)[..|prefix|] == prefix;
  }

  /** `s.split(sep)` for a one-character separator, as in JavaScript and Python:
      always at least one piece, and no piece contains the separator. */
  function Split(s: string, sep: char): (pieces: seq<string>)
    ensures |pieces| >= 1
    ensures forall i :: 0 <= i < |pieces| ==> sep !in pieces[i]
  {
    if s == [] then [""]
    else
      var rest := Split(s[1..], sep);
      if s[0] == sep then [""] + rest
      else [[s[0]] + rest[0]] + rest[1..]
  }

  /** `sep.join(pieces)`. */
  function Join(pieces: seq<string>, sep: string): string {
    if pieces == [] then ""
    else if |pieces| == 1 then pieces[0]
    else pieces[0] + sep + Join(pieces[1..], sep)
  }

  /** Splitting and joining back with the same separator gives the original string. */
  lemma {:induction false} JoinSplit(s: string, sep: char)
    ensures Join(Split(s, sep), [sep]) == s
  {
    if s != [] {
      var rest := Split(s[1..], sep);
      JoinSplit(s[1..], sep);
      if s[0] == sep {
        assert Split(s, sep) == [""] + rest;
        assert s == [sep] + s[1..];
      } else {
        var pieces := Split(s, sep);
        assert pieces == [[s[0]] + rest[0]] + rest[1..];
        if |rest| == 1 {
          assert Join(rest, [sep]) == rest[0];
        } else {
          assert Join(rest, [sep]) == rest[0] + [sep] + Join(rest[1..], [sep]);
          assert pieces[1..] == rest[1..];
        }
      }
    }
  }

  /** A string without the separator splits into itself alone. */
  lemma {:induction false} SplitWithoutSeparator(s: string, sep: char)
    requires sep !in s
    ensures Split(s, sep) == [s]
  {
    if s != [] {
      SplitWithoutSeparator(s[1..], sep);
      assert [s[0]] + s[1..] == s;
    }
  }

  /** A trailing separator adds one empty piece at the end. */
  lemma {:induction false} SplitTrailingSeparator(s: string, sep: char)
    ensures Split(s + [sep], sep) == Split(s, sep) + [""]
  {
    if s == [] {
      assert [sep][1..] == [];
    } else {
      assert (s + [sep])[1..] == s[1..] + [sep];
      SplitTrailingSeparator(s[1..], sep);
    }
  }

  /** The last piece of `s.split(sep)` (JavaScript `split(sep).pop()`). */
  function LastPiece(s: string, sep: char): (r: string)
    ensures sep !in r
  {
    var pieces := Split(s, sep);
    pieces[|pieces| - 1]
  }

  /** The first piece of `s.split(sep)` (JavaScript `split(sep)[0]`). */
  function FirstPiece(s: string, sep: char): (r: string)
    ensures sep !in r
  {
    Split(s, sep)[0]
  }

  /** The characters JavaScript's `trim` removes, restricted to ASCII. */
  predicate IsSpace(c: char) {
    c == ' ' || c == '\t' || c == '\n' || c == '\r' || c == '\U{B}' || c == '\U{C}'
  }

  /** Removes leading white space: the result is a suffix of `s` that does not start with a space. */
  function TrimStart(s: string): (r: string)
    ensures |r| <= |s| && r == s[|s| - |r|..]
    ensures r == [] || !IsSpace(r[0])
  {
    if s != [] && IsSpace(s[0]) then TrimStart(s[1..]) else s
  }

  /** Removes trailing white space: the result is a prefix of `s` that does not end with a space. */
  function TrimEnd(s: string): (r: string)
    ensures |r| <= |s| && r == s[..|r|]
    ensures r == [] || !IsSpace(r[|r| - 1])
  {
    if s != [] && IsSpace(s[|s| - 1]) then TrimEnd(s[..|s| - 1]) else s
  }

  /** JavaScript's `trim`. */
  function Trim(s: string): (r: string)
    ensures |r| <= |s|
    ensures r == [] || (!IsSpace(r[0]) && !IsSpace(r[|r| - 1]))
    ensures forall c :: c in r ==> c in s
  {
    var t := TrimStart(s);
    var r := TrimEnd(t);
    assert r == [] || r[0] == t[0];
    assert forall c :: c in r ==> c in t;
    r
  }

  function ToLowerChar(c: char): char {
    if 'A' <= c <= 'Z' then (c as int + 32) as char else c
  }

  /** `toLowerCase` on ASCII letters. */
  function ToLower(s: string): (r: string)
    ensures |r| == |s|
    ensures forall i :: 0 <= i < |s| ==> r[i] == ToLowerChar(s[i])
  {
    if s == [] then [] else [ToLowerChar(s[0])] + ToLower(s[1..])
  }

  /** JavaScript's `s.replace(c, replacement)` with a string pattern: only the first occurrence is replaced. */
  function ReplaceFirst(s: string, c: char, replacement: string): (r: string)
    ensures c !in s ==> r == s
  {
    if s == [] then []
    else if s[0] == c then replacement + s[1..]
    else [s[0]] + ReplaceFirst(s[1..], c, replacement)
  }

  /** `ReplaceFirst` replaces the first occurrence of `c`, wherever it is, and nothing else. */
  lemma {:induction false} ReplaceFirstAt(s: string, c: char, replacement: string, i: nat)
    requires i < |s| && s[i] == c && c !in s[..i]
    ensures ReplaceFirst(s, c, replacement) == s[..i] + replacement + s[i + 1..]
  {
    if i > 0 {
      assert s[0] == s[..i][0];
      assert s[1..][..i - 1] == s[..i][1..];
      ReplaceFirstAt(s[1..], c, replacement, i - 1);
      assert s[1..][i - 1 + 1..] == s[i + 1..];
      assert s[..i] == [s[0]] + s[1..][..i - 1];
    }
  }

  /** Python's `s.replace(c, d)` for one-character strings: every occurrence is replaced. */
  function ReplaceAll(s: string, c: char, d: char): (r: string)
    ensures |r| == |s|
    ensures forall i :: 0 <= i < |s| ==> r[i] == if s[i] == c then d else s[i]
    ensures c != d ==> c !in r
  {
    if s == [] then [] else [if s[0] == c then d else s[0]] + ReplaceAll(s[1..], c, d)
  }

  /** Python's `s.rstrip(c)` for one character: removes every trailing `c`. */
  function RStrip(s: string, c: char): (r: string)
    ensures r == [] || r[|r| - 1] != c
  {
    if s != [] && s[|s| - 1] == c then RStrip(s[..|s| - 1], c) else s
  }

  /** `RStrip` removes exactly the trailing run of `c`: what it drops consists of `c` only. */
  lemma {:induction false} RStripDropsOnlyTrailing(s: string, c: char)
    ensures |RStrip(s, c)| <= |s| && RStrip(s, c) == s[..|RStrip(s, c)|]
    ensures forall i :: |RStrip(s, c)| <= i < |s| ==> s[i] == c
  {
    if s != [] && s[|s| - 1] == c {
      RStripDropsOnlyTrailing(s[..|s| - 1], c);
    }
  }

  function DigitChar(d: nat): char
    requires d < 10
  {
    "0123456789"[d]
  }

  /** Decimal rendering of a natural number, as Python's f-string formatting gives it. */
  function NatToString(n: nat): (r: string)
    ensures |r| >= 1
  {
    if n < 10 then [DigitChar(n)] else NatToString(n / 10) + [DigitChar(n % 10)]
  }
}

=== FILE: toolset_guard.dfy ===
/** The toolset wrapper that refuses to run the same tool call twice in a row. */
module ToolsetGuard {
  import opened Wrappers

  /** A tool call: the tool's name and its arguments (argument values as strings). */
  datatype Call = Call(name: string, args: map<string, string>)

  /** What a call comes to: refused as a repeat of the named tool, or passed to the
      wrapped toolset. */
  datatype Outcome =
    | AlreadyCompleted(toolName: string)
    | Delegated(call: Call)

  /** The `status` field of the reply to a refused repeat. */
  const CompletedStatus := "already_completed"

  const RepeatMessageHead := "Task already completed - '"

  const RepeatMessageTail := "' was just executed successfully with these exact parameters. No need to repeat this action."

  /** The `message` field of the reply to a refused repeat of tool `name`. */
  function RepeatMessage(name: string): string
  {
    RepeatMessageHead + name + RepeatMessageTail
  }

  /** The reply's message quotes the refused tool's name right after its fixed opening. */
  lemma RepeatMessageNamesTool(name: string)
    ensures var m := RepeatMessage(name);
      && m[..|RepeatMessageHead|] == RepeatMessageHead
      && m[|RepeatMessageHead|..|RepeatMessageHead| + |name|] == name
      && |m| == |RepeatMessageHead| + |name| + |RepeatMessageTail|
  {
    var m := RepeatMessage(name);
    assert m == RepeatMessageHead + (name + RepeatMessageTail);
  }

  /** One call against the remembered last call: a repeat is refused and nothing is
      remembered anew; any other call is remembered and passed on. */
  function Step(last: Option<Call>, c: Call): (r: (Option<Call>, Outcome))
    ensures r.0 == Some(c)
    ensures r.1.AlreadyCompleted? <==> last == Some(c)
    ensures r.1.Delegated? ==> r.1.call == c
  {
    if last == Some(c) then (last, AlreadyCompleted(c.name)) else (Some(c), Delegated(c))
  }

  /** The outcomes of a sequence of calls, starting from `last`. */
  function Trace(last: Option<Call>, calls: seq<Call>): (outs: seq<Outcome>)
    ensures |outs| == |calls|
    decreases |calls|
  {
    if calls == [] then []
    else
      var (next, o) := Step(last, calls[0]);
      [o] + Trace(next, calls[1..])
  }

  /** Whether call `i` repeats the call just before it (for the first call, the remembered one). */
  predicate Repeats(last: Option<Call>, calls: seq<Call>, i: nat)
    requires i < |calls|
  {
    if i == 0 then last == Some(calls[0]) else calls[i - 1] == calls[i]
  }

  /** A call is refused exactly when it repeats the call made just before it, blocked
      or not; every other call is passed on. */
  lemma {:induction false} TraceBlocksExactlyRepeats(last: Option<Call>, calls: seq<Call>)
    ensures forall i :: 0 <= i < |calls| ==>
      Trace(last, calls)[i] == if Repeats(last, calls, i) then AlreadyCompleted(calls[i].name) else Delegated(calls[i])
    decreases |calls|
  {
    if calls != [] {
      TraceBlocksExactlyRepeats(Some(calls[0]), calls[1..]);
      forall i | 0 <= i < |calls|
        ensures Trace(last, calls)[i] == if Repeats(last, calls, i) then AlreadyCompleted(calls[i].name) else Delegated(calls[i])
      {
        if i > 0 {
          TraceUnfold(last, calls);
          assert Trace(last, calls)[i] == Trace(Some(calls[0]), calls[1..])[i - 1];
          assert calls[i] == calls[1..][i - 1];
          if i > 1 {
            assert calls[i - 1] == calls[1..][i - 2];
          }
          assert Repeats(last, calls, i) == Repeats(Some(calls[0]), calls[1..], i - 1);
        }
      }
    }
  }

  /** A trace is the first call's outcome followed by the trace of the rest, which
      starts from the first call. */
  lemma TraceUnfold(last: Option<Call>, calls: seq<Call>)
    requires calls != []
    ensures Trace(last, calls) == [Step(last, calls[0]).1] + Trace(Some(calls[0]), calls[1..])
  {
  }


  /** On a fresh toolset the first call is always passed on. */
  lemma FirstCallDelegates(calls: seq<Call>)
    requires calls != []
    ensures Trace(None, calls)[0] == Delegated(calls[0])
  {
  }

  /** Any number of consecutive repeats of a call are all refused. */
  lemma RepeatsAreBlocked(c: Call, n: nat)
    ensures var outs := Trace(None, seq(n + 1, _ => c));
      outs[0] == Delegated(c) && forall i :: 1 <= i <= n ==> outs[i] == AlreadyCompleted(c.name)
  {
    var calls := seq(n + 1, _ => c);
    TraceBlocksExactlyRepeats(None, calls);
    forall i | 1 <= i <= n
      ensures Repeats(None, calls, i)
    {
    }
  }

  /** A, then B, then A again: the guard remembers only the last call, so all three run. */
  lemma AlternatingCallsAllRun(a: Call, b: Call)
    requires a != b
    ensures Trace(None, [a, b, a]) == [Delegated(a), Delegated(b), Delegated(a)]
  {
    TraceBlocksExactlyRepeats(None, [a, b, a]);
    var outs := Trace(None, [a, b, a]);
    assert outs[0] == Delegated(a) && outs[1] == Delegated(b) && outs[2] == Delegated(a);
  }

  /** `EnhancedToolset`: a wrapper that remembers the last call it passed on. */
  class EnhancedToolset {
    var lastCall: Option<Call>

    /** A fresh wrapper remembers no call. */
    constructor()
      ensures lastCall == None
    {
      lastCall := None;
    }

    /** `call_tool`: refuses a repeat of the remembered call, otherwise remembers this
        call and passes it on. */
    method CallTool(name: string, args: map<string, string>) returns (o: Outcome)
      modifies this
      ensures (lastCall, o) == Step(old(lastCall), Call(name, args))
    {
      var signature := Call(name, args);
      if lastCall == Some(signature) {
        return AlreadyCompleted(name);
      }
      lastCall := Some(signature);
      o := Delegated(signature);
    }
  }
}

=== FILE: uuids.dfy ===
/** UUID text as a Django `UUIDField` reads it: a lookup value is parsed with Python's
    `uuid.UUID(hex=...)`, and text that does not parse is a validation error. */
module Uuids {
  import opened Wrappers
  import opened Text

  predicate IsHexDigit(c: char) { '0' <= c <= '9' || 'a' <= c <= 'f' || 'A' <= c <= 'F' }

  predicate IsLowerHexDigit(c: char) { '0' <= c <= '9' || 'a' <= c <= 'f' }

  /** A UUID, as its 32 lower-case hexadecimal digits (Python's `UUID.hex`). */
  type Uuid = s: string | |s| == 32 && forall i :: 0 <= i < |s| ==> IsLowerHexDigit(s[i])
    witness "00000000000000000000000000000000"

  /** Python's `s.replace(pat, "")`: every occurrence of `pat`, found from the left
      without overlaps, removed. */
  function RemoveAll(s: string, pat: string): (r: string)
    requires pat != []
    ensures |r| <= |s|
    ensures forall c :: c in r ==> c in s
    ensures |pat| == 1 ==> pat[0] !in r
    decreases |s|
  {
    if |s| < |pat| then
      assert |pat| == 1 ==> s == [];
      s
    else if s[..|pat|] == pat then RemoveAll(s[|pat|..], pat)
    else [s[0]] + RemoveAll(s[1..], pat)
  }

  /** Text that lacks some character of `pat` holds no occurrence of it. */
  lemma {:induction false} RemoveAllAbsent(s: string, pat: string, c: char)
    requires c in pat && c !in s
    ensures RemoveAll(s, pat) == s
    decreases |s|
  {
    if |s| >= |pat| {
      assert c !in s[..|pat|];
      RemoveAllAbsent(s[1..], pat, c);
      assert [s[0]] + s[1..] == s;
    }
  }

  /** Removing one character distributes over concatenation. */
  lemma {:induction false} RemoveCharConcat(a: string, b: string, c: char)
    ensures RemoveAll(a + b, [c]) == RemoveAll(a, [c]) + RemoveAll(b, [c])
    decreases |a|
  {
    if a != [] {
      assert (a + b)[..1] == a[..1] && (a + b)[1..] == a[1..] + b;
      RemoveCharConcat(a[1..], b, c);
    } else {
      assert a + b == b;
    }
  }

  /** Python's `s.strip(chars)`: the leading and trailing characters from `chars` removed. */
  function Strip(s: string, chars: set<char>): (r: string)
    ensures r == [] || (r[0] !in chars && r[|r| - 1] !in chars)
    ensures |r| <= |s|
  {
    StripEnd(StripStart(s, chars), chars)
  }

  function StripStart(s: string, chars: set<char>): (r: string)
    ensures |r| <= |s| && r == s[|s| - |r|..]
    ensures r == [] || r[0] !in chars
  {
    if s != [] && s[0] in chars then StripStart(s[1..], chars) else s
  }

  function StripEnd(s: string, chars: set<char>): (r: string)
    ensures |r| <= |s| && r == s[..|r|]
    ensures r == [] || r[|r| - 1] !in chars
  {
    if s != [] && s[|s| - 1] in chars then StripEnd(s[..|s| - 1], chars) else s
  }

  /** `uuid.UUID(hex=text)` as `UUIDField.to_python` applies it: every `urn:` and then
      every `uuid:` removed, braces stripped from both ends, every hyphen removed; what
      is left must be exactly 32 hexadecimal digits, in either case. */
  function ParseUuid(text: string): (r: Option<Uuid>)
    ensures |text| < 32 ==> r.None?
    ensures r.Some? ==> r.value == ToLower(HexPart(text))
  {
    var h := HexPart(text);
    if |h| == 32 && forall i :: 0 <= i < |h| ==> IsHexDigit(h[i]) then Some(ToLower(h)) else None
  }

  const Braces: set<char> := {'{', '}'}

  /** What `uuid.UUID` reads as digits: the text without `urn:`, `uuid:`, surrounding
      braces and hyphens. */
  function HexPart(text: string): (h: string)
    ensures |h| <= |text|
  {
    RemoveAll(Strip(RemoveAll(RemoveAll(text, "urn:"), "uuid:"), Braces), "-")
  }

  /** `str(uuid)`: the digits in groups of 8, 4, 4, 4 and 12 joined by hyphens. */
  function Hyphenated(h: string): (r: string)
    requires |h| == 32
    ensures |r| == 36
  {
    h[..8] + "-" + h[8..12] + "-" + h[12..16] + "-" + h[16..20] + "-" + h[20..]
  }

  /** Text shorter than a UUID's 32 digits never parses. */
  lemma ShortTextNeverParses(text: string)
    requires |text| < 32
    ensures ParseUuid(text).None?
  {
  }

  /** Any 32 hexadecimal digits, in either case, with or without the hyphens of
      `str(uuid)`, parse to the UUID they spell in lower case. */
  lemma ParseSpellings(h: string)
    requires |h| == 32 && forall i :: 0 <= i < |h| ==> IsHexDigit(h[i])
    ensures ParseUuid(h) == Some(ToLower(h))
    ensures ParseUuid(Hyphenated(h)) == Some(ToLower(h))
  {
    RemoveAllAbsent(h, "-", '-');
    ParsesAs(h, h);
    HyphenatedDigits(h);
    HyphenatedChars(h);
    ParsesAs(Hyphenated(h), h);
  }

  /** `str(uuid)` adds hyphens and nothing else. */
  lemma HyphenatedDigits(h: string)
    requires |h| == 32 && '-' !in h
    ensures RemoveAll(Hyphenated(h), "-") == h
  {
    var p1, p2, p3, p4, p5 := h[..8], h[8..12], h[12..16], h[16..20], h[20..];
    RemoveAllAbsent(p1, "-", '-');
    RemoveAllAbsent(p2, "-", '-');
    RemoveAllAbsent(p3, "-", '-');
    RemoveAllAbsent(p4, "-", '-');
    RemoveAllAbsent(p5, "-", '-');
    assert RemoveAll("-", "-") == [];
    var a1 := p1 + "-";
    RemoveCharConcat(p1, "-", '-');
    assert RemoveAll(a1, "-") == p1;
    var a2 := a1 + p2;
    RemoveCharConcat(a1, p2, '-');
    assert RemoveAll(a2, "-") == h[..12] by { assert h[..12] == p1 + p2; }
    var a3 := a2 + "-";
    RemoveCharConcat(a2, "-", '-');
    var a4 := a3 + p3;
    RemoveCharConcat(a3, p3, '-');
    assert RemoveAll(a4, "-") == h[..16] by { assert h[..16] == h[..12] + p3; }
    var a5 := a4 + "-";
    RemoveCharConcat(a4, "-", '-');
    var a6 := a5 + p4;
    RemoveCharConcat(a5, p4, '-');
    assert RemoveAll(a6, "-") == h[..20] by { assert h[..20] == h[..16] + p4; }
    var a7 := a6 + "-";
    RemoveCharConcat(a6, "-", '-');
    RemoveCharConcat(a7, p5, '-');
    assert RemoveAll(a7 + p5, "-") == h by { assert h == h[..20] + p5; }
    assert Hyphenated(h) == a7 + p5;
  }

  lemma HyphenatedChars(h: string)
    requires |h| == 32
    ensures Hyphenated(h)[0] == h[0] && Hyphenated(h)[35] == h[31]
    ensures forall c :: c in Hyphenated(h) ==> c in h || c == '-'
  {
    var p1, p2, p3, p4, p5 := h[..8], h[8..12], h[12..16], h[16..20], h[20..];
    forall c | c in Hyphenated(h)
      ensures c in h || c == '-'
    {
      assert c in p1 || c in p2 || c in p3 || c in p4 || c in p5 || c == '-';
      if c in p2 {
        var i :| 0 <= i < 4 && p2[i] == c;
        assert h[8 + i] == c;
      } else if c in p3 {
        var i :| 0 <= i < 4 && p3[i] == c;
        assert h[12 + i] == c;
      } else if c in p4 {
        var i :| 0 <= i < 4 && p4[i] == c;
        assert h[16 + i] == c;
      } else if c in p5 {
        var i :| 0 <= i < 12 && p5[i] == c;
        assert h[20 + i] == c;
      } else if c in p1 {
        var i :| 0 <= i < 8 && p1[i] == c;
        assert h[i] == c;
      }
    }
  }

  /** Text made of hexadecimal digits and hyphens, not starting or ending with a hyphen,
      parses as the digits that remain once the hyphens are removed. */
  lemma ParsesAs(t: string, h: string)
    requires |h| == 32 && forall i :: 0 <= i < |h| ==> IsHexDigit(h[i])
    requires forall c :: c in t ==> IsHexDigit(c) || c == '-'
    requires |t| > 0 && IsHexDigit(t[0]) && IsHexDigit(t[|t| - 1])
    requires RemoveAll(t, "-") == h
    ensures ParseUuid(t) == Some(ToLower(h))
  {
    assert ':' !in t;
    RemoveAllAbsent(t, "urn:", ':');
    RemoveAllAbsent(t, "uuid:", ':');
    assert t[0] !in Braces && t[|t| - 1] !in Braces;
    assert StripStart(t, Braces) == t;
    assert StripEnd(t, Braces) == t;
    assert HexPart(t) == h;
  }

  /** The text of a UUID, and its bare digits, parse back to that UUID. */
  lemma ParseUuidText(u: Uuid)
    ensures ParseUuid(Hyphenated(u)) == Some(u)
    ensures ParseUuid(u) == Some(u)
  {
    LowerDigits(u);
    ParseSpellings(u);
  }

  /** The digits of a UUID are hexadecimal and already in lower case. */
  lemma LowerDigits(u: Uuid)
    ensures forall i :: 0 <= i < |u| ==> IsHexDigit(u[i])
    ensures ToLower(u) == u
  {
    assert forall i :: 0 <= i < |u| ==> ToLower(u)[i] == u[i];
  }
}

=== FILE: wrappers.dfy ===
/** Failure-carrying datatypes shared by the whole model. */
module Wrappers {

  datatype Option<+T> = None | Some(value: T) {
    function GetOr(default: T): T {
      match this
      case Some(v) => v
      case None => default
    }
  }

  datatype Result<+T, +E> = Ok(value: T) | Err(error: E)
}
